=== FILE: README.md ===
# USAccidents ingestion core, modelled in Dafny

USAccidents collects traffic incidents from two state feeds, stores them, and serves them through a small API. This project models the following parts of it as immutable datatypes and pure functions, and proves their properties:

- **OHGO (Ohio) connector** (`usaccidents_app/connectors/ohio.py`):
  - URL composition;
  - unwrapping the many response shapes into a list of record dicts;
  - the severity and activity heuristics and record normalization;
  - the duplicate-safe incident upsert and the roads upsert.
- **DriveTexas connector** (`usaccidents_app/connectors/texas.py`): GeoJSON feature normalization, the severity and closure rules, and its batch upsert.
- **Earlier OHGO connector** (`connectors/ohio.py`): its stricter URL builder, its uuid-only upsert and its roads ingest.
- **API query semantics** (`usaccidents_app/main.py`):
  - the active/inactive predicates;
  - the nulls-last ordering;
  - the search filters and paging;
  - `changed_since`, `latest` and the log tail.
- **Repository tooling**:
  - the semantic-version bumpers (`scripts/bump_file_versions.py`, `scripts/bump_version.py`);
  - the `versions.yml` seeder (`scripts/init_versions.py`);
  - the header editor (`scripts/edit_header_section.py`);
  - the two header validators (`scripts/validate_headers.py`, `scripts/validate_headers-1.py`);
  - the API-key log redaction filter (`usaccidents_app/logging_config.py`).

## Modelling choices

- **Decoded JSON.** A JSON value is a datatype whose objects are ordered association lists (`Json.Entries`), so "the first key that matches" is exact. `Truthy` is Python truthiness, and `PyStr` is `str()` of a scalar.
- **Library parsers as oracles.** `datetime.fromisoformat`, `datetime.isoformat`, `int()` and `json.loads` are abstract function parameters, bundled in `Fields.Oracles`. A timestamp is an `int`, because only its order is used. Whether a parsed `datetime` carries a UTC offset is a separate oracle, `aware`, because the DriveTexas connector compares the parsed end time with the naive current time, and Python raises `TypeError` when one side is aware.
- **Tables as sequences.** A table is a sequence of `Store.Row` in storage order. A query without `ORDER BY` (`.first()` in the OHGO connector) is modelled as returning rows in that order; the database does not promise it. String columns are `Option<string>`; float columns are the opaque value that was written.
- **OHGO incident ingest.** It commits per item, so it is a left fold of `OhgoIngest.Step` over the items. Whether the insert's commit succeeds is an explicit input: `Inserted`, or `Conflict(rival)` when another session committed a row under the same uuid first. The `IntegrityError` fallback is therefore an ordinary branch.
- **DriveTexas and earlier OHGO ingests.** These run with autoflush off (`usaccidents_app/database.py:43`) and commit once. Each is therefore a fold whose lookups see only the rows loaded before the batch. Updates edit those rows in memory and inserts queue up. The single commit then either writes everything or, when a queued uuid collides, fails with `IntegrityError` and writes nothing.
- **Query predicates.** SQL filters are predicates on a row. `IS` tests never yield NULL, and `col >= dt` on a NULL column is false.
- **Regular expressions** are replaced by hand-written recognisers. `fnmatch` is an abstract predicate.
- **Files, processes and clocks** are parameters: the text read from a file (`None` when unreadable), the output of `git diff`, the directory walk, today's date, and the current time.

## Model

| member | source | states |
|---|---|---|
| Json.CiGet | usaccidents_app/connectors/ohio.py:128-133 | the value under the first key equal to the requested one ignoring ASCII case, `None` when no key matches |
| Fields.Clip | usaccidents_app/connectors/ohio.py:162-165 | `None` stays `None`; otherwise a prefix of `str(val)` no longer than `maxlen`, of length `min(len, maxlen)`, and the whole text when it already fits |
| Fields.ClipTwice | usaccidents_app/connectors/ohio.py:396 | clipping a value already clipped at fetch time (to 32) again at ingest is clipping once to the smaller width |
| Fields.ParseDtAny | usaccidents_app/connectors/ohio.py:167-172 | a falsy value gives `None`; any other value is parsed as `str(value)` |
| Fields.ParseDtStr | connectors/ohio.py:199-205 | a falsy value gives `None`; a timestamp results only from a string, and is that string's parse |
| Store.ApplyCommon | usaccidents_app/connectors/ohio.py:366-368 | every `common` column takes the new value; uuid, source url, county, milepost and raw blob are untouched |
| Strings.FirstIndex | usaccidents_app/connectors/ohio.py:385-388 | `.first()`: the first row in storage order that satisfies the filter, `None` exactly when no row does (the query has no `ORDER BY`, so which row comes first is a modelling choice, not a promise of the database); the same search finds the first matching header line |
| Store.OneOrNone | usaccidents_app/connectors/texas.py:227-233 | `.one_or_none()`: not found exactly when no row matches, the only match when one does, and an error only when two rows match |
| Store.OneOrNoneByUuid | connectors/ohio.py:113 | under the unique-uuid constraint the uuid lookup never raises |
| Store.Report | usaccidents_app/connectors/ohio.py:455-460 | the detail dict when asked for, `inserted + updated` otherwise |
| Store.FindRoad | usaccidents_app/connectors/ohio.py:483 | the road with the given `(source_system, road_id)`, `None` exactly when there is none |
| OhgoUrl.Schemed | usaccidents_app/connectors/ohio.py:73-75 | the trimmed base always starts with `http://` or `https://` |
| OhgoUrl.NormalizeBase | usaccidents_app/connectors/ohio.py:73-76 | the normalized base keeps a scheme (or is the bare `http:`/`https:` left from a hostless base) and never ends in `/` |
| OhgoUrl.SchemeSurvivesTrim | usaccidents_app/connectors/ohio.py:76 | stripping trailing slashes keeps the scheme unless nothing follows it |
| OhgoUrl.Segment | usaccidents_app/connectors/ohio.py:77-79 | the segment is empty exactly when the path is blank, and otherwise starts with exactly one slash |
| OhgoUrl.BuildUrl | usaccidents_app/connectors/ohio.py:72-83 | the result starts with the normalized base, a blank path gives the base, and the segment is appended exactly when the base does not already end with it ignoring case |
| OhgoUrl.BuildUrlScheme | usaccidents_app/connectors/ohio.py:72-83 | the result starts with `http://` or `https://` whenever the base names a host |
| OhgoUrl.BuildUrlIdempotent | usaccidents_app/connectors/ohio.py:72-83 | for a base that names a host and whose normalized form does not end in whitespace, and a path without a trailing slash, building twice equals building once |
| OhgoUrl.ApiRoot | usaccidents_app/connectors/ohio.py:85-97 | the root is a prefix of the base without trailing slashes |
| OhgoUrl.ApiRootOfResource | usaccidents_app/connectors/ohio.py:90-97 | `root/<known resource>` gives back `root`, for any capitalisation of the resource name |
| OhgoUrl.ApiRootOfRoot | usaccidents_app/connectors/ohio.py:90-97 | a base whose last segment is no known resource is only stripped of trailing slashes |
| Shape.DictsOf | usaccidents_app/connectors/ohio.py:152 | keeps exactly the dict elements of a list |
| Shape.DictsOfAppend | usaccidents_app/connectors/ohio.py:144 | the dict filter keeps the elements' relative order |
| Shape.DictsOfAllDicts | usaccidents_app/connectors/ohio.py:149 | a list made only of dicts passes unchanged: same length, and each element is the dict at the same position |
| Shape.FirstWrapper | usaccidents_app/connectors/ohio.py:138-146 | the first wrapper key, in the listed order and ignoring case, whose value is a list or a dict |
| Shape.MetaOf | usaccidents_app/connectors/ohio.py:141-143 | metadata holds only the four listed keys, each with a non-`None` value, and every such key present in the payload |
| Shape.AsItems | usaccidents_app/connectors/ohio.py:135-158 | metadata keys come only from the four listed with non-`None` values; a list gives its dicts; a dict whose first wrapper value is a list gives that list's dicts with the metadata; `None`, booleans and numbers give nothing |
| Shape.WrappedListItems | usaccidents_app/connectors/ohio.py:140-144 | for a dict whose first wrapper key (ignoring case) holds a list, the items are exactly the dicts of that list and the metadata is the non-`None` values of the four listed keys |
| Shape.AsItemsMetaOnlyForWrappedList | usaccidents_app/connectors/ohio.py:140-146 | metadata is non-empty only when a wrapper key holds a list |
| Shape.WrapperDictIsSingleton | usaccidents_app/connectors/ohio.py:145-146 | a dict under the first wrapper key is returned as the only item, without metadata |
| Shape.FeatureCollectionItems | usaccidents_app/connectors/ohio.py:147-149 | without a wrapper, a FeatureCollection (section 3.3 of RFC 7946) gives the dicts of its `features` |
| Shape.BareRecord | usaccidents_app/connectors/ohio.py:150 | otherwise a non-empty dict is its own single item and an empty one gives nothing |
| Shape.DecodedText | usaccidents_app/connectors/ohio.py:153-157 | text that decodes is treated as the decoded value; text that does not gives nothing |
| Shape.ResultsKeyRedundant | usaccidents_app/connectors/ohio.py:138 | the `results` wrapper key can never be the first match, because `Results` already matches it ignoring case |
| OhgoNormalize.TablesInRange | usaccidents_app/connectors/ohio.py:184-186 | every score in the three tables is 1, 2 or 3 |
| OhgoNormalize.Lookup | usaccidents_app/connectors/ohio.py:202 | `dict.get`: a score exactly when the key is in the table, and then that key's score |
| OhgoNormalize.LookupFirst | usaccidents_app/connectors/ohio.py:205 | the first table entry with the key decides the score |
| OhgoNormalize.FirstContained | usaccidents_app/connectors/ohio.py:207-211 | the first category key, in table order, that occurs in the text; none exactly when no key occurs |
| OhgoNormalize.DeriveIsActive | usaccidents_app/connectors/ohio.py:188-195 | an explicit boolean wins; otherwise a truthy cleared or end time gives false; otherwise a trimmed, lower-cased status of cleared/completed/ended gives false; every other case gives true |
| OhgoNormalize.EndedStatusesInTable | usaccidents_app/connectors/ohio.py:185-193 | the statuses read as ended are exactly the status-table entries scoring 1 other than `open` |
| OhgoNormalize.EndedStatusScore | usaccidents_app/connectors/ohio.py:185-193 | every status read as ended scores 1 in the status table |
| OhgoNormalize.ScoreOneEnded | usaccidents_app/connectors/ohio.py:185-193 | every status scoring 1 other than `open` is read as ended |
| OhgoNormalize.DeriveSeverity | usaccidents_app/connectors/ohio.py:197-212 | the first rule that fits: an int-convertible score, the flag's text score, the status score, the first contained category key; a truthy flag is returned unchanged and never raises; table scores are in 1..3; no match gives no score; title-casing raises exactly when the flag is falsy and the matched status or category is not a string |
| OhgoNormalize.RepairsShadowed | usaccidents_app/connectors/ohio.py:209-211 | the `repairs/maintenance` entry never decides, since any text containing it contains `maintenance`, an earlier key |
| OhgoNormalize.FirstLink | usaccidents_app/connectors/ohio.py:177-179 | the `href` (or `Href`) of the first dict whose `rel` (or `Rel`) is the one asked for, `None` when no link has it |
| OhgoNormalize.RouteClass | usaccidents_app/connectors/ohio.py:224 | `INTERSTATE` exactly when the route name starts with `I-`, `STATE` otherwise |
| OhgoNormalize.Coord | usaccidents_app/connectors/ohio.py:220-222 | position `k` of a coordinate list that is long enough, `None` otherwise |
| OhgoNormalize.NormalizeIncident | usaccidents_app/connectors/ohio.py:216-284 | a dict under `properties` selects the Feature branch, otherwise the flat one; in both, uuid and id are the item's `id`, and the url is the self link or `url` |
| OhgoNormalize.NormalizeFeature | usaccidents_app/connectors/ohio.py:218-252 | the Feature branch (section 3.2 of RFC 7946): longitude is `coordinates[0]` and latitude `coordinates[1]` (section 3.1.1), route class from the route name, state defaulting to `OH`, activity and severity derived from the properties; it raises exactly when the severity rule raises |
| OhgoNormalize.NormalizeFlat | usaccidents_app/connectors/ohio.py:255-284 | the flat branch: every field read from the record with its fallback key, state defaulting to `OH`, plus the three extra keys; activity and severity derived from the record; it raises exactly when the severity rule raises |
| OhgoNormalize.Fetched | usaccidents_app/connectors/ohio.py:348-349 | the fetched record succeeds exactly when normalization does, and is the normalized one with its direction clipped to 32 |
| OhgoNormalize.NormalizeAll | usaccidents_app/connectors/ohio.py:345-350 | one fetched record per dict, in order; an exception exactly when some record raises |
| OhgoNormalize.FetchedDirectionFits | usaccidents_app/connectors/ohio.py:349 | every fetched direction fits the 32-character column |
| OhgoIngest.Dedupe | usaccidents_app/connectors/ohio.py:364 | `dict.fromkeys`: the same members, no repeats, and the first element kept first |
| OhgoIngest.UuidCandidates | usaccidents_app/connectors/ohio.py:357-364 | the candidates are the item's uuid, the event id and `ohgo:<id>`, without repeats and with the item's uuid first |
| OhgoIngest.UuidCandidatesCases | usaccidents_app/connectors/ohio.py:357-364 | the exact candidate list for each way the item's uuid can coincide with the id or with `ohgo:<id>` |
| OhgoIngest.ItemCommon | usaccidents_app/connectors/ohio.py:390-408 | source system `OHGO`, the event id, and the direction clipped to 32 |
| OhgoIngest.Refresh | usaccidents_app/connectors/ohio.py:366-370 | an update writes every `common` column (including null times), the source url and the raw blob, and keeps the uuid and the other columns |
| OhgoIngest.UpdateAt | usaccidents_app/connectors/ohio.py:410-413 | only the matched row changes, it is refreshed, the uuid constraint still holds, and `updated` grows by one |
| OhgoIngest.InsertOrRetry | usaccidents_app/connectors/ohio.py:414-453 | an unmatched item bumps exactly one counter, loses no row, and keeps uuids unique |
| OhgoIngest.Step | usaccidents_app/connectors/ohio.py:374-453 | every item bumps exactly one counter, non-dicts and items without an id are skipped, no row is lost, and uuids stay unique |
| OhgoIngest.Run | usaccidents_app/connectors/ohio.py:374-453 | over the whole loop the counters grow by the number of items, no row is lost, and uuids stay unique |
| OhgoIngest.IngestIncidents | usaccidents_app/connectors/ohio.py:372-460 | inserted, updated and skipped add up to the number of items; the result is the detail dict or `inserted + updated` |
| OhgoIngest.StepUpdatesMatch | usaccidents_app/connectors/ohio.py:410-413 | a matched item refreshes the first matching row, leaves every other row alone, and counts as updated |
| OhgoIngest.StepInsertsNew | usaccidents_app/connectors/ohio.py:414-441 | an unmatched item that commits appends a row under `ohgo:<id>`, a uuid no row had, and counts as inserted |
| OhgoIngest.ConflictRecovers | usaccidents_app/connectors/ohio.py:442-451 | when the insert collides with a row committed elsewhere, the retry lookup finds that row, refreshes it, and counts the item as updated |
| OhgoIngest.RetryFindsRival | usaccidents_app/connectors/ohio.py:444-447 | the retry lookup, with the new uuid among the candidates, finds the conflicting row |
| OhgoIngest.SecondSightingUpdates | usaccidents_app/connectors/ohio.py:384-441 | the same record ingested twice is inserted once and then updated, giving one row |
| OhgoIngest.RoadOf | usaccidents_app/connectors/ohio.py:484-493 | the road row: key `("OHGO", id)`, direction clipped to 20, and mileposts with their fallback keys |
| OhgoIngest.UpsertRoad | usaccidents_app/connectors/ohio.py:483-498 | the road replaces the one with its key, or is appended; keys stay unique |
| OhgoIngest.IngestRoads | usaccidents_app/connectors/ohio.py:476-502 | the count is the number of dict items, road keys stay unique, no road is lost, every dict item's road key is in the resulting table, and every written direction fits 20 characters |
| OhgoIngest.IngestRoadsLastWins | usaccidents_app/connectors/ohio.py:476-502 | the road found under a key is the one built from the last dict item naming that key |
| OhgoIngest.IngestRoadsKeeps | usaccidents_app/connectors/ohio.py:476-502 | a loaded road that no item names comes out unchanged |
| Texas.FirstPresent | usaccidents_app/connectors/texas.py:62-66 | the first listed key present with a value other than `None` or `""` |
| Texas.GetFirst | usaccidents_app/connectors/texas.py:62-66 | `_get`: that key's value, or the default when no key qualifies |
| Texas.ComputeActive | usaccidents_app/connectors/texas.py:68-71 | comparing a zone-aware cleared time with the naive current time raises; otherwise inactive exactly when there is a cleared time not after now |
| Texas.ActiveEarlier | usaccidents_app/connectors/texas.py:68-71 | an incident active now was active at every earlier time |
| Texas.SeverityFromFlags | usaccidents_app/connectors/texas.py:73-92 | `closed` in the description gives HIGH; else a delay flag of true/1/yes, or a blocked lane or shoulder, gives MEDIUM; else a non-empty description gives LOW; flags pair with scores HIGH-3, MEDIUM-2, LOW-1 |
| Texas.ClosureStatus | usaccidents_app/connectors/texas.py:94-102 | CLOSED exactly when the description contains `closed`; PARTIAL exactly when it does not but a lane or shoulder is blocked; OPEN exactly when neither holds and it contains `open`; none otherwise |
| Texas.ClosedIffHigh | usaccidents_app/connectors/texas.py:83 | the closure is CLOSED exactly when the severity is HIGH |
| Texas.PartialIsMedium | usaccidents_app/connectors/texas.py:87-88 | a PARTIAL closure always comes with a MEDIUM severity of 2 |
| Texas.Build | usaccidents_app/connectors/texas.py:121-169 | raises when the end time parses to a zone-aware time, the only raise the model has (see Texas.Build under Left out); otherwise uuid `drivetexas:<id>`, `[longitude, latitude]` positions, direction clipped to 32, activity, severity and closure from the properties |
| Texas.GeometryOf | usaccidents_app/connectors/texas.py:116-117 | a truthy geometry that is not a dict raises on `.get` |
| Texas.CoordsOf | usaccidents_app/connectors/texas.py:117-119 | coordinates are used only when they form a list of at least two positions |
| Texas.NormalizeFeature | usaccidents_app/connectors/texas.py:104-170 | nothing for a non-dict, too few coordinates or no identifier; a raise for a truthy non-dict geometry or a zone-aware end time on an otherwise usable feature, and no other raise is modelled (see Texas.Build under Left out); otherwise uuid `drivetexas:<id>`, id the identifier's text, longitude `coordinates[0]` and latitude `coordinates[1]` (section 3.1.1 of RFC 7946), direction within 32 |
| Texas.FeatureKeys | usaccidents_app/connectors/texas.py:221-222 | a normalized feature is ingested under its own id and uuid |
| Texas.NormalizeAll | usaccidents_app/connectors/texas.py:196-201 | the fetch raises exactly when the normalization of some feature raises; otherwise every kept record is the normalization of some feature, and there are no more records than features |
| Texas.ItemCommon | usaccidents_app/connectors/texas.py:235-255 | source system `DRIVETEXAS`, the event id, and the direction clipped to 32 |
| Texas.Refresh | usaccidents_app/connectors/texas.py:257-261 | an update writes the `common` columns, county, milepost and raw blob (`_raw` or the item), never the uuid or source url |
| Texas.Fresh | usaccidents_app/connectors/texas.py:263-286 | an insert uses the item's uuid or `drivetexas:<id>` |
| Texas.Target | usaccidents_app/connectors/texas.py:227-233 | the row with the event id first, then the row with the uuid; none exactly when neither exists |
| Texas.Step | usaccidents_app/connectors/texas.py:217-287 | non-dicts bump no counter, an empty id is skipped, every other item is inserted or updated; loaded rows keep their uuids; the exact result of each case is Texas.StepOutcome |
| Texas.Run | usaccidents_app/connectors/texas.py:217-287 | skipped counts the dicts without an id, the counters add up to the number of dicts, and the queued inserts match `inserted` |
| Texas.Commit | usaccidents_app/connectors/texas.py:289 | the commit succeeds exactly when the uuids stay unique, and then appends the queued rows |
| Texas.Ingest | usaccidents_app/connectors/texas.py:210-290 | on success the table grows by the inserts, uuids are unique, and the result is the detail dict or `inserted + updated`; which items end up in the table is Texas.IngestFiled |
| Texas.StepOutcome | usaccidents_app/connectors/texas.py:226-287 | for an item with an event id: a lookup that matches two rows is the step's error; a found row takes the item's columns and raw blob and `updated` grows by one; otherwise one new row under the item's uuid is queued and `inserted` grows by one; nothing else changes |
| Texas.RunKeepsEvent | usaccidents_app/connectors/texas.py:217-287 | a loaded row keeps its event id through the rest of the batch unless a later item reaches it under another event id |
| Texas.RunFiled | usaccidents_app/connectors/texas.py:217-287 | after the loop, an item's event id is on a loaded row or a queued insert, unless a later item reached its row under another event id |
| Texas.IngestFiled | usaccidents_app/connectors/texas.py:217-289 | on success, every item with an event id that no later item overwrites has a committed row under that event id |
| Texas.EventOverwritten | usaccidents_app/connectors/texas.py:227-260 | the overwrite does happen: an item matched by event id, followed by an item that reaches the same row by uuid under another event id, leaves no committed row with the first item's event id or uuid |
| Texas.EventIdWins | usaccidents_app/connectors/texas.py:227-233 | a unique row with the event id is updated even when the uuid names another row |
| Texas.RepeatedNewEventRejected | usaccidents_app/connectors/texas.py:262-289 | a batch carrying the same new event twice queues two rows with one uuid, and the commit fails |
| OhioLegacy.LastSegment | connectors/ohio.py:61 | the text after the last slash: a suffix without slashes |
| OhioLegacy.BuildUrlOld | connectors/ohio.py:43-65 | a blank base raises; otherwise the normalized base, or that base plus the segment, with a blank path giving the base |
| OhioLegacy.OldAgreesWithNew | connectors/ohio.py:56-63 | for a base with a host the earlier builder agrees with the current one, since its last-segment test never fires on its own |
| OhioLegacy.HostlessBaseDiffers | connectors/ohio.py:60-63 | for base `https://` and path `https:` the two builders differ: the earlier one's last-segment test fires |
| OhioLegacy.AnonymousUuid | connectors/ohio.py:107 | an item with no uuid, id or event id is filed under `ohgo:None` |
| OhioLegacy.ItemCommon | connectors/ohio.py:108-131 | source system `OHGO`, the event id, and the direction unclipped |
| OhioLegacy.Refresh | connectors/ohio.py:114-132 | an update overwrites the listed columns but keeps a stored event id when the new one is empty |
| OhioLegacy.Fresh | connectors/ohio.py:134-155 | an insert uses the item's uuid and the listed columns |
| OhioLegacy.Step | connectors/ohio.py:106-156 | a non-dict item or an ambiguous uuid raises; otherwise the item is counted, the loaded rows keep their uuids, and the pending inserts only grow, by the new row when the uuid was unknown |
| OhioLegacy.StepOutcome | connectors/ohio.py:113-155 | a known uuid refreshes exactly that loaded row in place; an unknown uuid queues the new row; nothing else changes |
| OhioLegacy.Run | connectors/ohio.py:106-156 | a successful loop counts every item and saw only dicts |
| OhioLegacy.IngestIncidents | connectors/ohio.py:104-158 | it returns the number of items; on success uuids are unique, no row is lost, and every item's uuid is in the table |
| OhioLegacy.RunPendingGrows | connectors/ohio.py:106-156 | over the loop the queued inserts only grow at the end |
| OhioLegacy.RunFiled | connectors/ohio.py:106-156 | after the loop every item's uuid is among the loaded or queued rows |
| OhioLegacy.IngestRejects | connectors/ohio.py:157 | a loop whose queued rows repeat a uuid ends in `IntegrityError` at the commit |
| OhioLegacy.StepInserts | connectors/ohio.py:133-155 | an item whose uuid no loaded row has is queued for insertion |
| OhioLegacy.AnonymousItemsCollide | connectors/ohio.py:107-157 | two anonymous items in one batch are both queued under `ohgo:None`, and the commit fails |
| OhioLegacy.AnonymousRoad | connectors/ohio.py:175 | a road item with neither key gets the id `None` |
| OhioLegacy.RoadOf | connectors/ohio.py:175-188 | key `("OHGO", id)`, no fallback milepost keys, no clipping |
| OhioLegacy.RoadStep | connectors/ohio.py:173-194 | a non-dict raises; a known key refreshes exactly that loaded road; an unknown key queues `RoadOf` of the item; the road is counted |
| OhioLegacy.RoadRefresh | connectors/ohio.py:179-191 | an update keeps the key and writes every `common` column, which agree with the new road built from the item |
| OhioLegacy.RoadRun | connectors/ohio.py:173-195 | the loop succeeds exactly when every item is a dict, and then counts each and keeps every loaded key |
| OhioLegacy.RoadRunPending | connectors/ohio.py:173-195 | the queued roads are exactly the new roads of the items, in order |
| OhioLegacy.IngestRoads | connectors/ohio.py:171-196 | it raises exactly when an item is not a dict or the new roads repeat a key; otherwise it returns the number of items, keeps every loaded key, appends exactly the new roads, and keys stay unique |
| OhioLegacy.RepeatedNewRoadRejected | connectors/ohio.py:173-195 | two items naming the same new road make the commit fail |
| Query.ActivePartition | usaccidents_app/main.py:220-233 | every row is exactly one of active and inactive |
| Query.Filter | usaccidents_app/main.py:153 | the rows satisfying the filter, in table order |
| Query.FilterSplit | usaccidents_app/main.py:220-233 | a filter and its negation split the table |
| Query.ActiveCount | usaccidents_app/main.py:149-154 | the active count is at most the number of rows |
| Query.ActiveCountSplit | usaccidents_app/main.py:149-154 | the active and inactive counts add up to the whole table |
| Query.KeyLeMeaning | usaccidents_app/main.py:138-140 | under `(col IS NULL) ASC, col DESC` every non-null comes before every null, and non-nulls do not increase |
| Query.Sort | usaccidents_app/main.py:249-256 | `ORDER BY`: a sorted permutation of the rows |
| Query.SortedNullsLast | usaccidents_app/main.py:138-140 | in a sorted result the first sort column is non-null before null and non-increasing |
| Query.Page | usaccidents_app/main.py:258 | at most `limit` rows, taken in order from `offset` |
| Query.PageWindow | usaccidents_app/main.py:258 | the page is the `[offset, offset + limit)` window of the rows, cut at their end |
| Query.SortedPage | usaccidents_app/main.py:249-258 | paging the sorted rows gives a window of a sorted permutation of them, sorted, holding only the rows |
| Query.ActiveOnlyOverrides | usaccidents_app/main.py:220-233 | `active_only` selects the active rows whatever `is_active` says |
| Query.ParseIso | usaccidents_app/main.py:204-209 | an empty or absent text gives `None`; otherwise the parser's result |
| Query.UnparseableSinceIgnored | usaccidents_app/main.py:240-245 | an unparseable `updated_since` or `reported_since` filters nothing out |
| Query.ScoreBoundsInclusive | usaccidents_app/main.py:235-238 | the severity bounds are inclusive at both ends and exclude a null score |
| Query.IncidentsSearch | usaccidents_app/main.py:202-285 | `total` counts every matching row before paging; the items are the `[offset, offset + limit)` window of a sorted permutation of the matching rows |
| Query.ChangedAfterEarlier | usaccidents_app/main.py:326-330 | a row changed since a time was also changed since any earlier time |
| Query.ChangedSince | usaccidents_app/main.py:321-335 | status 400 exactly when `since` does not parse; otherwise the first `limit` rows of a newest-first permutation of the rows changed since then |
| Query.ChangedRows | usaccidents_app/main.py:326-335 | at most `limit` rows changed since the time, newest first, forming the first window of a sorted permutation of all changed rows |
| Query.Latest | usaccidents_app/main.py:296-300 | the first `min(limit, rows)` rows of a permutation of the table sorted by updated then reported time |
| Query.TailCount | usaccidents_app/main.py:129 | the clamp lies in 1..5000 and is the request itself inside that range |
| Query.LogsTail | usaccidents_app/main.py:129 | the last `k` lines, all of them when there are fewer |
| HeaderEdit.CommentEnd | scripts/edit_header_section.py:37 | where a leading `<ws>#<ws>` ends, when the line starts with one |
| HeaderEdit.ParseSection | scripts/edit_header_section.py:37 | a section line: a prefix that ends inside the `\s*#\s*` run, then a non-empty name without colons up to the first colon |
| HeaderEdit.SectionLineParses | scripts/edit_header_section.py:37 | every line `w1 # w2 name: rest` with whitespace-only `w1` and `w2`, a name free of colons that does not start with whitespace, and a one-line rest parses to the prefix `w1 # w2` and that name |
| HeaderEdit.FindSection | scripts/edit_header_section.py:62-70 | the first of the first 200 lines that is a section line with that trimmed, case-insensitive name, `None` when there is none |
| HeaderEdit.Anchor | scripts/edit_header_section.py:77-82 | one past the greatest index among the Purpose, File and Project lines, or 0 when none exists |
| HeaderEdit.SetSectionValue | scripts/edit_header_section.py:73-93 | an existing section line is rewritten with its prefix and name and nothing else changes; a missing one is inserted as `# Name: value` at the anchor |
| HeaderEdit.InsertedLineParses | scripts/edit_header_section.py:83-84 | the inserted line parses back to its prefix and name |
| HeaderEdit.RewrittenLineParses | scripts/edit_header_section.py:87-92 | a rewritten line parses back to the same prefix and name |
| HeaderEdit.SetExistingIdempotent | scripts/edit_header_section.py:87-92 | setting an existing section twice to one value equals setting it once |
| HeaderEdit.SetMissingThenFound | scripts/edit_header_section.py:76-85 | a missing section, once inserted, is found at the anchor |
| HeaderEdit.RevisionBlock | scripts/edit_header_section.py:96-117 | no block exactly when no header is among the first 400 lines; otherwise the first header and the end of the bullet run after it |
| HeaderEdit.FindRevisionHistoryBlock | scripts/edit_header_section.py:96-117 | both indices absent together; otherwise every line strictly between them is a bullet and the end is the last line or a non-bullet |
| HeaderEdit.FindHeader | scripts/edit_header_section.py:101-107 | the first header among the first 400 lines |
| HeaderEdit.BulletsEnd | scripts/edit_header_section.py:110-117 | the end of the bullet run below the header |
| HeaderEdit.LastModifiedDate | scripts/edit_header_section.py:40 | a `Last Modified` line's date has the form dddd-dd-dd and occurs in the line |
| HeaderEdit.LastModifiedDateTagged | scripts/edit_header_section.py:40 | a date is returned only from a line `<ws>#<ws>Last Modified:<ws>D` with a dddd-dd-dd `D` and no word character after it, and it is that `D` |
| HeaderEdit.LastModifiedDateFound | scripts/edit_header_section.py:40 | a line `<ws>#<ws>Last Modified:<ws>` followed by a dddd-dd-dd date and no word character gives that date |
| HeaderEdit.ExtractLastModifiedDate | scripts/edit_header_section.py:120-125 | the date of the first such line among the first 200 |
| HeaderEdit.BulletText | scripts/edit_header_section.py:148-149 | the bullet is a bullet line starting `# - V`, with ` (D): ` when there is a date, ending in a newline |
| HeaderEdit.AuthorSuffix | scripts/edit_header_section.py:148 | the author suffix is empty exactly when the author is absent or empty |
| HeaderEdit.BulletTextOpens | scripts/edit_header_section.py:149 | the bullet opens with `# - V (D): ` when there is a date and `# - V: ` otherwise |
| HeaderEdit.BulletTextEnds | scripts/edit_header_section.py:148-149 | the bullet ends with `: <description> — <author>` and a newline for a non-empty author, and with `: <description>` and a newline otherwise |
| HeaderEdit.PlaceBlock | scripts/edit_header_section.py:136-141 | the existing block, or a header inserted at `min(len, 60)` |
| HeaderEdit.BulletDate | scripts/edit_header_section.py:143-146 | the given date when non-empty, else the file's first Last Modified date, else none |
| HeaderEdit.AppendRevisionBullet | scripts/edit_header_section.py:128-154 | one line more when a block exists, two when the header is created; the bullet goes right below the header |
| HeaderEdit.PrependedBulletInBlock | scripts/edit_header_section.py:152-153 | a prepended bullet lands inside the block, which keeps its header and grows by one line |
| HeaderEdit.CreatedBlockHoldsBullet | scripts/edit_header_section.py:137-153 | a created block is found again at the inserted header and holds the bullet |
| HeaderEdit.ParseSet | scripts/edit_header_section.py:171-176 | a `--set` without `=` exits with status 2 |
| HeaderEdit.ParseSetFirst | scripts/edit_header_section.py:175-176 | the split is at the first `=`, and both halves are trimmed |
| HeaderEdit.ParseSets | scripts/edit_header_section.py:170-176 | every `--set` in order, or status 2 exactly when one lacks `=` |
| HeaderEdit.ParseRevision | scripts/edit_header_section.py:179-185 | no revision for an absent or empty argument; status 2 exactly when a non-empty one lacks `\|` |
| HeaderEdit.ParseRevisionFirst | scripts/edit_header_section.py:184-185 | the split is at the first `\|`, and both halves are trimmed |
| HeaderEdit.ApplySets | scripts/edit_header_section.py:196-198 | the sets applied in order never remove a line |
| HeaderEdit.EditFile | scripts/edit_header_section.py:192-213 | the file is rewritten exactly when the edited lines differ; a revision always adds a line |
| SemVer.ParseSemverValue | scripts/bump_file_versions.py:53-56 | a text of the form digits.digits.digits reads as its three numbers |
| SemVer.ParseSemverMatches | scripts/bump_file_versions.py:53-55 | the parser accepts exactly the texts the pattern matches |
| SemVer.FormatParses | scripts/bump_file_versions.py:57-61 | a formatted version matches the pattern again and reads back as itself |
| SemVer.Next | scripts/bump_file_versions.py:57-61 | major gives (M+1).0.0, minor gives M.(m+1).0, anything else M.m.(p+1); the result is strictly greater |
| SemVer.SemverBump | scripts/bump_file_versions.py:52-61 | `ValueError` exactly when the pattern does not match; otherwise the bumped version, which matches again and is strictly greater |
| SemVer.BumpAgain | scripts/bump_file_versions.py:52-61 | a bumped version can always be bumped again |
| SemVer.ExpandGlob | scripts/bump_file_versions.py:102-103 | the tracked keys that match, in key order |
| SemVer.BumpOne | scripts/bump_file_versions.py:123-126 | a target moves to its bumped version, and raises when untracked or malformed |
| SemVer.BumpEach | scripts/bump_file_versions.py:121-128 | the loop never adds or drops a tracked key |
| SemVer.BumpEachFails | scripts/bump_file_versions.py:122-124 | the loop raises exactly when some target is untracked or malformed |
| SemVer.BumpEachOthers | scripts/bump_file_versions.py:121-128 | non-targets keep their version |
| SemVer.BumpEachTargets | scripts/bump_file_versions.py:121-128 | every target moves to its bumped version in both mappings |
| SemVer.BumpEachChanged | scripts/bump_file_versions.py:121-128 | the changed mapping lists the targets in order |
| SemVer.BumpFiles | scripts/bump_file_versions.py:113-128 | exactly the targets change, each to its bump; the returned mapping has exactly the targets as keys |
| SemVer.ResolveTargets | scripts/bump_file_versions.py:170-188 | `project` gives no targets; `all` gives every key and fails on none; a glob gives its matches and fails on none; otherwise the target must be tracked |
| SemVer.ResolvedDistinct | scripts/bump_file_versions.py:170-188 | resolved targets never repeat |
| SemVer.ProjectBump | scripts/bump_file_versions.py:191-198 | the project version changes only with `--project`, from `0.0.0` when absent, to its bump |
| SemVer.ReleaseLines | scripts/bump_file_versions.py:90-97 | the heading, the message, the project line when bumped, then one line per bumped file in order |
| SemVer.ProjectLineIff | scripts/bump_file_versions.py:92-93 | the project line appears exactly when the project was bumped |
| SemVer.PrependBlock | scripts/bump_file_versions.py:68-76 | the entry and a blank line go in front, and the old text, or `# Changelog` when there was none, is kept as the suffix |
| SemVer.ReleaseBlockLines | scripts/bump_file_versions.py:98 | the joined entry splits back into its lines |
| SemVer.Release | scripts/bump_file_versions.py:159-210 | exit status 1 exactly when the `files` section is not a mapping or the target does not resolve; other keys are kept; the project version is the project bump's; the old changelog stays as the suffix |
| SemVer.ReleaseSteps | scripts/bump_file_versions.py:190-210 | with resolved targets and a project bump: no targets keeps the files and prepends the entry; a failing file bump raises its error; otherwise the files become the bumped mapping and the entry lists the bumped files |
| SemVer.ReleaseProjectFails | scripts/bump_file_versions.py:194-195 | a malformed project version raises before any file is bumped |
| SemVer.ParseTriple | scripts/bump_version.py:35 | the version must split into exactly three parts on `.` |
| SemVer.NextTriple | scripts/bump_version.py:36-41 | major gives (M+1).0.0, minor gives M.(m+1).0, otherwise the patch grows |
| SemVer.FormatTripleParses | scripts/bump_version.py:42-43 | the stored text reads back as the triple |
| SemVer.AppendBumpEntry | scripts/bump_version.py:46-47 | the changelog keeps its old text and ends with the bump note |
| SemVer.BumpVersion | scripts/bump_version.py:31-48 | a missing `version` is `0.0.0`; a document that is not a mapping, or a `version` that is not a string, fails with `AttributeError`; the new version is the bump of the old; no other key changes |
| SemVer.ParseTripleOfSpelling | scripts/bump_version.py:35 | a digits.digits.digits text reads as its three numbers |
| SemVer.BumpScriptsAgree | scripts/bump_version.py:35 | every version one script accepts, the other reads the same way |
| SemVer.LevelRulesAgree | scripts/bump_version.py:36-41 | the two scripts' level rules agree |
| InitVersions.Suffix | scripts/init_versions.py:55 | a suffix starts at the last dot, which is neither first nor last |
| InitVersions.SuffixOf | scripts/init_versions.py:55 | a non-empty stem followed by an extension has that extension as its suffix |
| InitVersions.KeptByName | scripts/init_versions.py:51-60 | a file is tracked exactly when it is `.py` or `.sh` and no path component is excluded |
| InitVersions.TrackedPaths | scripts/init_versions.py:51-60 | exactly the walked paths that pass the filter |
| InitVersions.AddNew | scripts/init_versions.py:79-84 | the existing entries stay in front and the count equals the entries added |
| InitVersions.AddNewAdded | scripts/init_versions.py:80-84 | every added entry is a new walked path at `0.1.0` |
| InitVersions.AddNewHas | scripts/init_versions.py:80-84 | afterwards a path is tracked exactly when it was before or was walked |
| InitVersions.AddNewGet | scripts/init_versions.py:80-84 | existing versions are kept; new paths get `0.1.0` |
| InitVersions.AddNewDistinct | scripts/init_versions.py:80-84 | no path is recorded twice |
| InitVersions.LoadVersions | scripts/init_versions.py:62-66 | an empty or absent file counts as `{}` |
| InitVersions.Init | scripts/init_versions.py:72-88 | `project_version` is set to `0.2.0` only when absent; the file map is the old map plus the new paths at `0.1.0` |
| HeaderCheck.Ok | scripts/validate_headers.py:29-39 | `.sh` passes exactly when it starts with the bash banner, `.py` when it starts with the python3 banner; other files pass; an unreadable file fails |
| HeaderCheck.BannersExclusive | scripts/validate_headers.py:26-27 | no text starts with both banners |
| HeaderCheck.Failed | scripts/validate_headers.py:42 | the `.py`/`.sh` arguments that fail, in argument order |
| HeaderCheck.ValidateExit | scripts/validate_headers.py:41-47 | exit 1 exactly when some `.py`/`.sh` argument fails |
| HeaderCheck.Missing | scripts/validate_headers-1.py:43-55 | the required fields absent from the text, in required order; `(unreadable)` for an unreadable file |
| HeaderCheck.Staged | scripts/validate_headers-1.py:34-40 | the staged names ending in `.py` or `.sh` |
| HeaderCheck.Errors | scripts/validate_headers-1.py:63-67 | every staged file with something missing, paired with what is missing |
| HeaderCheck.ErrorsComplete | scripts/validate_headers-1.py:63-67 | every staged file with something missing is reported |
| HeaderCheck.ErrorsEmpty | scripts/validate_headers-1.py:63-69 | no errors exactly when every staged file has all fields |
| HeaderCheck.PrecommitExit | scripts/validate_headers-1.py:58-78 | exit 1 exactly when some staged file misses a field; exit 0 when nothing is staged |
| HeaderCheck.BannerHasProject | scripts/validate_headers.py:26-27 | a file passing the banner check has the `# Project:` field |
| Redact.KeyOf | usaccidents_app/logging_config.py:34-36 | a missing key becomes the empty key |
| Redact.MaskValue | usaccidents_app/logging_config.py:48 | a string holding the key becomes `***`; anything else is kept |
| Redact.MaskEntries | usaccidents_app/logging_config.py:46-50 | dict args keep their keys, and each value is masked |
| Redact.MaskItems | usaccidents_app/logging_config.py:51-53 | tuple args keep their length, and each item is masked |
| Redact.Filter | usaccidents_app/logging_config.py:38-56 | the record is always kept; an empty key changes nothing; a string message has every key occurrence replaced; a non-string message is untouched |
| Redact.FilterArgs | usaccidents_app/logging_config.py:44-53 | every string argument holding the key becomes the mask; the other arguments are kept |
| Redact.ReplaceRemoves | usaccidents_app/logging_config.py:42 | when the mask shares no character with the key, no occurrence of the key survives the replacement |
| Redact.MessageHidesKey | usaccidents_app/logging_config.py:41-42 | for a key without `*`, the filtered message does not contain the key |
| Redact.FilterIdempotent | usaccidents_app/logging_config.py:38-56 | filtering twice equals filtering once, for a key without `*` |

## Left out

- HTTP and the network:
  - `_request_json` with its retries, `_auth`, and every fetch function with its pagination loop;
  - `_fetch_items`, `fetch_texas_incidents`, and the earlier connector's `_get_json`.
  - The model starts from the decoded payload.
- `json.loads`, `datetime.fromisoformat`, `datetime.isoformat`, `int()` and `float()` are library code, so they are oracles. Only the rule that a falsy input gives `None` is modelled. The DriveTexas second parse attempt is folded into the parser oracle.
- Floats: latitude, longitude and milepost are carried as opaque values. The `float()` conversions in the DriveTexas normalizer are not modelled.
- The race between sessions is not modelled. It appears only as the `Conflict` insert outcome.
- The ORM and the database: sessions, rollback and the schema. Only the unique constraints and the clips the connectors apply themselves (direction 32, road direction 20) are taken over. The declared `String(n)` lengths are not enforced: a uuid longer than 64 characters (`usaccidents_app/models.py:31`) is stored whole, whereas a database that checks the length would reject the insert.
- Route handlers and response shaping in `usaccidents_app/main.py`, the scheduler, the web UI and the log viewer are not modelled. Only the row predicates, ordering, paging and clamps are.
- Console output, `print` and logging calls are not modelled.
- YAML, file and git I/O in the scripts, and `iter_target_files` in the header editor, are parameters: the decoded mapping, the file text, `git diff` output, the walk, and the list of lines.
- `run_apply_headers` starts a subprocess and is not modelled.
- `fnmatch` is an abstract predicate. `\d`, the `\w` inside `\b`, and lower-casing accept ASCII only, whereas Python's accept any Unicode digit, letter or case. `\s` and `strip()` use the full Unicode whitespace set, as Python does.
- `--dry-run` and `--no-backup` only affect what is written where, so they are not modelled.
- The `except Exception: pass` in the redaction filter is not modelled. The dict and tuple comprehensions cannot raise there.
- OhgoUrl.BuildUrlScheme: the scheme property holds only when the base names a host. A blank base normalizes to `https:`, from which `rstrip("/")` has removed the slashes.
- SemVer.BumpFiles: the claims that exactly the targets change, and that the result has exactly the targets as keys, are conditional on distinct targets. A repeated target would be bumped twice. Resolved targets are always distinct (SemVer.ResolvedDistinct).
- Redact.MessageHidesKey: requires a key without `*`. For the key `a*` and the message `aa*`, the replacement gives `a***`, which contains the key again.
- Redact.FilterIdempotent: requires a key without `*`, for the same reason.
- HeaderEdit.SetMissingThenFound: requires the anchor to lie inside the 200-line search window. An anchor at index 200 puts the new line out of the window.
- InitVersions.Init: a document or `files` value that is not a mapping is reported as an error without naming the line that raises. In the script a list or string `files` does not always raise (scripts/init_versions.py:79-84): with an empty walk, or when every walked path is already `in` it, the loop never assigns into it. The model reports those cases as errors too.
- HeaderEdit.ApplySets: states only that no line is lost. What each set does is stated by HeaderEdit.SetSectionValue.
- Texas.Build and Texas.NormalizeFeature: two raises of the source are not modelled, so their Err clause covers only a truthy non-dict geometry and a zone-aware end time. First, `float()` of a coordinate raises outside any `try` (connectors/texas.py:156-157) when the coordinate is a non-numeric string, a list or a dict; the model keeps the coordinate as an opaque value. Second, a truthy `properties` value that is not a dict reaches `_get` (connectors/texas.py:62-66): for a number `k in d` raises, and for a string or list that contains a looked-up key (the string `"valid"` contains `id`) `d[k]` raises. The model reads every non-dict `properties` as an empty dict and returns nothing.
- Texas.NormalizeAll: inherits both gaps of Texas.NormalizeFeature, so the fetch raises in the source on those two inputs and not in the model.
- OhgoNormalize.NormalizeAll: a record whose normalization raises ends the whole fetch, as it does in the source. That happens only when the severity flag is falsy and the status or category that matched is not a string, so `.title()` fails. The exception is reported as `AttributeError` without its message.
- Fields.BoolCol and Fields.ScoreCol: the database's column coercions are not modelled. All three ingests write the raw `isActive` and `severityScore`: the earlier connector (connectors/ohio.py:126, 131, 148, 153), the current OHGO ingest (usaccidents_app/connectors/ohio.py:402, 407) and the DriveTexas ingest (usaccidents_app/connectors/texas.py:249, 254). SQLAlchemy's Boolean type rejects a value such as `"true"`, but the model stores its truthiness. A float score such as 2.5 is stored as 2.5 in the database, but the model passes it through the `int()` oracle.

=== FILE: fields.dfy ===
/** Field-level helpers shared by the connectors: the column widths, length
    clipping, timestamp parsing and the coercions a JSON value undergoes when
    it is written into a typed database column. */
module Fields {
  import opened Wrappers
  import opened Strings
  import opened Json

  /** A timestamp. Whether the parsed `datetime` is aware (carries a UTC
      offset) is kept apart, by the `aware` oracle. */
  type Time = int

  /** The library parsers the connectors call, kept abstract:
      `parseTime` is `datetime.fromisoformat` (with a trailing `Z` read as
      UTC), `None` where it raises; `isoFormat` is `datetime.isoformat`;
      `toInt` is Python `int()` on a decoded value, `None` where it raises;
      `decode` is `json.loads`, `None` where it raises; `aware` says whether
      the `datetime` parsed from a text carries a UTC offset (a trailing `Z`
      or `+hh:mm`), which Python refuses to compare with a naive one. */
  datatype Oracles = Oracles(
    parseTime: string -> Option<Time>,
    aware: string -> bool,
    isoFormat: Time -> string,
    toInt: Json -> Option<int>,
    decode: string -> Option<Json>)

  /** `json.loads` of a text that decodes to a string yields a shorter string:
      the source text holds at least the two quotes around it. */
  ghost predicate DecodeShrinks(env: Oracles) {
    forall text :: env.decode(text).Some? && env.decode(text).value.Str? ==>
      |env.decode(text).value.s| < |text|
  }

  /** Widths of the columns the connectors clip to. */
  const DirectionWidth: nat := 32
  const RoadDirectionWidth: nat := 20

  /** `_clip(val, maxlen)`: `None` stays `None`; anything else is converted
      with `str()` and cut to at most `maxlen` characters. */
  function Clip(val: Json, maxlen: nat): (r: Option<string>)
    ensures val.Null? <==> r.None?
    ensures r.Some? ==> |r.value| <= maxlen && StartsWith(PyStr(val), r.value)
    ensures r.Some? ==> |r.value| == if |PyStr(val)| <= maxlen then |PyStr(val)| else maxlen
    ensures r.Some? && |PyStr(val)| <= maxlen ==> r.value == PyStr(val)
  {
    if val.Null? then None
    else
      var s := PyStr(val);
      if |s| <= maxlen then Some(s) else Some(s[..maxlen])
  }

  /** The JSON value a clipped field carries onward in a normalized record. */
  function OptStr(o: Option<string>): (j: Json)
    ensures o.None? <==> j.Null?
    ensures o.Some? ==> j == Str(o.value)
  {
    match o
    case None => Null
    case Some(s) => Str(s)
  }

  /** Clipping a value already clipped to `n` again to `m` is the same as
      clipping the original once to the smaller width; in particular a record
      clipped at fetch time passes the ingest clip unchanged. */
  lemma ClipTwice(val: Json, n: nat, m: nat)
    ensures Clip(OptStr(Clip(val, n)), m) == Clip(val, if n <= m then n else m)
  {
    if !val.Null? {
      var s := PyStr(val);
      var once := Clip(val, n).value;
      assert PyStr(Str(once)) == once;
      assert once == s[..|once|];
      var k := if n <= m then n else m;
      if |once| > m {
        assert once[..m] == s[..m];
      }
      if |s| <= k {
        assert once == s;
      }
    }
  }

  /** `_parse_dt` of the current OHGO connector: a falsy value gives `None`;
      any other value is converted with `str()` and parsed. */
  function ParseDtAny(env: Oracles, v: Json): (r: Option<Time>)
    ensures !Truthy(v) ==> r.None?
    ensures Truthy(v) ==> r == env.parseTime(PyStr(v))
  {
    if !Truthy(v) then None else env.parseTime(PyStr(v))
  }

  /** `_iso_to_dt` (DriveTexas) and `_parse_dt` of the earlier OHGO snapshot:
      a falsy value gives `None`; only a string is parsed, since calling
      `replace` on anything else raises inside the `try`. */
  function ParseDtStr(env: Oracles, v: Json): (r: Option<Time>)
    ensures !Truthy(v) ==> r.None?
    ensures r.Some? ==> v.Str? && r == env.parseTime(v.s)
  {
    if !Truthy(v) then None
    else if v.Str? then env.parseTime(v.s)
    else None
  }

  /** A JSON value written into a string column: `None` stays NULL, other
      scalars are stored as their `str()`. */
  function TextCol(j: Json): (r: Option<string>)
    ensures j.Null? <==> r.None?
    ensures j.Str? ==> r == Some(j.s)
  {
    if j.Null? then None else Some(PyStr(j))
  }

  /** A JSON value written into a boolean column. */
  function BoolCol(j: Json): (r: Option<bool>)
    ensures j.Null? <==> r.None?
    ensures j.Bool? ==> r == Some(j.b)
    ensures r.Some? ==> r.value == Truthy(j)
  {
    if j.Null? then None else Some(Truthy(j))
  }

  /** A JSON value written into the numeric severity column. */
  function ScoreCol(env: Oracles, j: Json): (r: Option<int>)
    ensures j.Null? ==> r.None?
  {
    if j.Null? then None else env.toInt(j)
  }
}

=== FILE: header_check.dfy ===
/** The two header validators: `scripts/validate_headers.py`, which demands
    that every Python or shell file given on the command line open with the
    exact project banner, and `scripts/validate_headers-1.py`, the pre-commit
    check that every staged Python or shell file mention the five header
    fields somewhere. Reading a file is an input: `None` stands for a file
    that could not be opened or decoded. */
module HeaderCheck {
  import opened Wrappers
  import opened Strings

  // ---------------------------------------------------------------------
  // validate_headers.py

  /** The rule line of the banner: 67 `#` characters. */
  const Rule := "###################################################################"

  const ProjectLine := "# Project: USAccidents"

  /** What `SHELL_RE` demands at the very start of a shell script. */
  const ShellBanner := "#!/usr/bin/env bash\n#\n" + Rule + "\n" + ProjectLine

  /** What `PY_RE` demands at the very start of a Python file. */
  const PyBanner := "#!/usr/bin/env python3\n#\n" + Rule + "\n" + ProjectLine

  predicate IsShell(path: string) { EndsWith(path, ".sh") }

  predicate IsPython(path: string) { EndsWith(path, ".py") }

  /** `ok(path)`, given what reading the file yields. */
  function Ok(path: string, content: Option<string>): (r: bool)
    ensures content.None? ==> !r
    ensures content.Some? && IsShell(path) ==> (r <==> StartsWith(content.value, ShellBanner))
    ensures content.Some? && IsPython(path) ==> (r <==> StartsWith(content.value, PyBanner))
    ensures content.Some? && !IsShell(path) && !IsPython(path) ==> r
  {
    if content.None? then false
    else if IsShell(path) then StartsWith(content.value, ShellBanner)
    else if IsPython(path) then
      assert !IsShell(path) by { ExtensionsExclusive(path); }
      StartsWith(content.value, PyBanner)
    else true
  }

  /** No path ends in both extensions. */
  lemma ExtensionsExclusive(path: string)
    ensures !(IsShell(path) && IsPython(path))
  {
  }

  /** The two banners differ within their first line, so a file can carry
      at most one of them: a shell banner on a `.py` file fails, and the
      other way round. */
  lemma BannersExclusive(content: string)
    ensures !(StartsWith(content, ShellBanner) && StartsWith(content, PyBanner))
  {
    assert ShellBanner[15] == 'b' && PyBanner[15] == 'p';
    if StartsWith(content, ShellBanner) {
      assert content[15] == 'b';
    }
  }

  /** The paths `main` reports: those ending in `.py` or `.sh` whose check
      fails, in command-line order. */
  function Failed(args: seq<string>, read: string -> Option<string>): (r: seq<string>)
    ensures Subsequence(r, args)
    ensures forall p :: p in r <==> p in args && (IsPython(p) || IsShell(p)) && !Ok(p, read(p))
  {
    Filter(args, p => (IsPython(p) || IsShell(p)) && !Ok(p, read(p)))
  }

  /** The exit status of `validate_headers.py`. */
  function ValidateExit(args: seq<string>, read: string -> Option<string>): (code: nat)
    ensures code == 1 <==> exists p :: p in args && (IsPython(p) || IsShell(p)) && !Ok(p, read(p))
    ensures code == 0 || code == 1
  {
    var failed := Failed(args, read);
    if |failed| > 0 then
      assert failed[0] in failed;
      1
    else 0
  }

  // ---------------------------------------------------------------------
  // validate_headers-1.py

  const RequiredLines: seq<string> :=
    ["# Project:", "# File:", "# Version:", "# Last Modified:", "# Revision History:"]

  const Unreadable := "(unreadable)"

  /** `validate_file(path)`: the required header fields the text does not
      contain, in the order they are required. */
  function Missing(content: Option<string>): (r: seq<string>)
    ensures content.None? ==> r == [Unreadable]
    ensures content.Some? ==> Subsequence(r, RequiredLines)
    ensures content.Some? ==> forall m :: m in r <==> m in RequiredLines && !Contains(content.value, m)
    ensures content.Some? ==> (r == [] <==> forall m :: m in RequiredLines ==> Contains(content.value, m))
  {
    if content.None? then [Unreadable]
    else
      var r := Filter(RequiredLines, m => !Contains(content.value, m));
      assert r != [] ==> r[0] in r;
      r
  }

  /** `get_staged_files()`, given the output of `git diff --cached
      --name-only`: its lines, after trimming, that name Python or shell
      files. */
  function Staged(stdout: string): (r: seq<string>)
    ensures forall f :: f in r ==> IsPython(f) || IsShell(f)
    ensures forall f :: f in r <==> f in Split(Strip(stdout), '\n') && (IsPython(f) || IsShell(f))
  {
    Filter(Split(Strip(stdout), '\n'), f => IsPython(f) || IsShell(f))
  }

  /** The `errors` of `main`: every staged file with something missing,
      paired with what is missing, in staging order. */
  function Errors(files: seq<string>, read: string -> Option<string>): (r: seq<(string, seq<string>)>)
    ensures |r| <= |files|
    ensures forall i :: 0 <= i < |r| ==> r[i].0 in files && r[i].1 == Missing(read(r[i].0)) && r[i].1 != []
    decreases |files|
  {
    if |files| == 0 then []
    else
      var rest := Errors(files[1..], read);
      assert forall f :: f in files[1..] ==> f in files;
      var m := Missing(read(files[0]));
      if m != [] then [(files[0], m)] + rest else rest
  }

  /** Every staged file with something missing is reported. */
  lemma {:induction false} ErrorsComplete(files: seq<string>, read: string -> Option<string>, f: string)
    requires f in files && Missing(read(f)) != []
    ensures exists i :: 0 <= i < |Errors(files, read)| && Errors(files, read)[i].0 == f
    decreases |files|
  {
    var m := Missing(read(files[0]));
    var rest := Errors(files[1..], read);
    var r := Errors(files, read);
    assert r == if m != [] then [(files[0], m)] + rest else rest;
    if f == files[0] {
      assert r[0].0 == f;
    } else {
      var k :| 0 <= k < |files| && files[k] == f;
      assert files[1..][k - 1] == f;
      ErrorsComplete(files[1..], read, f);
      var i :| 0 <= i < |rest| && rest[i].0 == f;
      if m != [] {
        assert r[i + 1].0 == f;
      } else {
        assert r[i].0 == f;
      }
    }
  }

  /** No error is reported exactly when every staged file has all its
      header fields. */
  lemma {:induction false} ErrorsEmpty(files: seq<string>, read: string -> Option<string>)
    ensures (|Errors(files, read)| == 0) <==> forall f :: f in files ==> Missing(read(f)) == []
    decreases |files|
  {
    if |files| > 0 {
      var m := Missing(read(files[0]));
      var rest := Errors(files[1..], read);
      assert Errors(files, read) == if m != [] then [(files[0], m)] + rest else rest;
      ErrorsEmpty(files[1..], read);
      var ok := (f: string) => Missing(read(f)) == [];
      AllOfCons(files, ok);
      assert forall f :: ok(f) <==> Missing(read(f)) == [];
    }
  }

  /** The exit status of the pre-commit check. */
  function PrecommitExit(stdout: string, read: string -> Option<string>): (code: nat)
    ensures code == 0 || code == 1
    ensures Staged(stdout) == [] ==> code == 0
    ensures code == 1 <==> exists f :: f in Staged(stdout) && Missing(read(f)) != []
  {
    var files := Staged(stdout);
    ErrorsEmpty(files, read);
    if |files| == 0 then 0
    else if |Errors(files, read)| > 0 then 1
    else 0
  }

  /** A file that passes the banner check carries the first required field,
      so the stricter validator never lets through a file the pre-commit
      check would report as lacking its project line. */
  lemma BannerHasProject(content: string)
    requires StartsWith(content, ShellBanner) || StartsWith(content, PyBanner)
    ensures Contains(content, RequiredLines[0])
  {
    var head := if StartsWith(content, ShellBanner) then "#!/usr/bin/env bash\n#\n" else "#!/usr/bin/env python3\n#\n";
    var prefix := head + Rule + "\n";
    assert StartsWith(content, prefix + ProjectLine);
    EndsWithProject(prefix);
    ContainsInPrefix(content, prefix + ProjectLine, RequiredLines[0]);
  }

  /** A text ending in the project line names the first required field. */
  lemma EndsWithProject(prefix: string)
    ensures Contains(prefix + ProjectLine, RequiredLines[0])
  {
    var b := prefix + ProjectLine;
    assert b[|prefix|..][..10] == ProjectLine[..10];
  }

  /** What a prefix of a text contains, the text contains. */
  lemma ContainsInPrefix(content: string, prefix: string, p: string)
    requires StartsWith(content, prefix) && Contains(prefix, p)
    ensures Contains(content, p)
  {
    var i :| 0 <= i <= |prefix| && StartsWith(prefix[i..], p);
    assert content[i..][..|p|] == prefix[i..][..|p|];
  }
}

=== FILE: header_edit.dfy ===
/** The header patcher (`scripts/edit_header_section.py`) on a file held as
    its list of lines, each ending in at most one newline (as `readlines`
    returns them). The script's regular expressions are written out as
    recognisers. */
module HeaderEdit {
  import opened Wrappers
  import opened Strings

  /** How far down the section and revision searches look. */
  const SectionWindow: nat := 200
  const RevisionWindow: nat := 400
  /** Where a missing revision block is created, at the latest. */
  const RevisionAnchorCap: nat := 60

  function Min(a: nat, b: nat): nat { if a <= b then a else b }

  /** The first index at or after `i` whose element fails `p`: the end of a
      run of blanks within a line, or of bullet lines within a file. */
  function SkipWhile<T>(s: seq<T>, i: nat, p: T -> bool): (j: nat)
    requires i <= |s|
    ensures i <= j <= |s|
    ensures forall k :: i <= k < j ==> p(s[k])
    ensures j == |s| || !p(s[j])
    decreases |s| - i
  {
    if i < |s| && p(s[i]) then SkipWhile(s, i + 1, p) else i
  }

  /** Where `\s*#\s*` ends on `line`, when the line starts with it. */
  function CommentEnd(line: string): (r: Option<(nat, nat)>)
    ensures r.Some? ==> r.value.0 < r.value.1 <= |line| && line[r.value.0] == '#'
    ensures r.Some? ==> forall k :: 0 <= k < r.value.1 && k != r.value.0 ==> IsSpace(line[k])
    ensures r.Some? ==> r.value.1 == |line| || !IsSpace(line[r.value.1])
    ensures r.None? <==> SkipWhile(line, 0, IsSpace) == |line| || line[SkipWhile(line, 0, IsSpace)] != '#'
  {
    var lead := SkipWhile(line, 0, IsSpace);
    if lead == |line| || line[lead] != '#' then None
    else Some((lead, SkipWhile(line, lead + 1, IsSpace)))
  }

  /** The rest of a line from `from`, after `\s*`, holds a newline only as
      its very last character (the `\s*(?P<value>.*)$` of the section
      pattern, where `.` stops at a newline and `$` may precede a final one). */
  predicate TailOk(line: string, from: nat)
    requires from <= |line|
  {
    var w := SkipWhile(line, from, IsSpace);
    forall k :: w <= k < |line| - 1 ==> line[k] != '\n'
  }

  datatype SectionLine = SectionLine(prefix: string, name: string)

  /** `SECTION_LINE_RE.match(line)`: `<ws>#<ws>`, then a name running up to
      the first colon. When only whitespace separates `#` from the colon,
      backtracking leaves the last of it to the name. */
  function ParseSection(line: string): (r: Option<SectionLine>)
    ensures r.Some? ==> |r.value.name| > 0 && ':' !in r.value.name
    ensures r.Some? ==> var n := |r.value.prefix| + |r.value.name|;
      n < |line| && line[..n] == r.value.prefix + r.value.name && line[n] == ':'
    ensures r.Some? ==> CommentEnd(line).Some? && CommentEnd(line).value.0 < |r.value.prefix| <= CommentEnd(line).value.1
  {
    match CommentEnd(line)
    case None => None
    case Some(ends) =>
      match IndexOf(line, ':')
      case None => None
      case Some(c) => SectionFrom(line, ends, c)
  }

  /** The match once the comment prefix ends at `ends` and the first colon
      is at `c`: the name starts where the prefix ends, or one character
      before the colon when the prefix runs up to it. */
  function SectionFrom(line: string, ends: (nat, nat), c: nat): (r: Option<SectionLine>)
    requires ends.0 < |line| && c < |line| && line[c] == ':' && ':' !in line[..c]
    ensures r.Some? ==> |r.value.name| > 0 && ':' !in r.value.name
    ensures r.Some? ==> |r.value.prefix| + |r.value.name| == c && line[..c] == r.value.prefix + r.value.name
    ensures r.Some? ==> ends.0 < |r.value.prefix| <= ends.1
  {
    var start := if ends.1 < c then ends.1 else c - 1;
    if start <= ends.0 || !TailOk(line, c + 1) then None
    else
      assert ':' !in line[start..c] by {
        assert forall k :: start <= k < c ==> line[start..c][k - start] == line[..c][k];
      }
      assert line[..c] == line[..start] + line[start..c];
      Some(SectionLine(line[..start], line[start..c]))
  }

  /** How `find_section_line_idx` compares names: trimmed, then lower-cased. */
  function Key(name: string): string {
    Lower(Strip(name))
  }

  /** The line is a section line whose name has the given key. */
  predicate NamesSection(line: string, key: string) {
    ParseSection(line).Some? && Key(ParseSection(line).value.name) == key
  }

  /** `find_section_line_idx(lines, section_name)`, given the key of
      `section_name`: the first of the first 200 lines that is a section line
      with that key. */
  function FindSection(lines: seq<string>, key: string): (r: Option<nat>)
    ensures r.Some? ==> r.value < |lines| && r.value < SectionWindow
    ensures r.Some? ==> NamesSection(lines[r.value], key)
    ensures r.Some? ==> forall j :: 0 <= j < r.value ==> !NamesSection(lines[j], key)
    ensures r.None? ==> forall j :: 0 <= j < |lines| && j < SectionWindow ==> !NamesSection(lines[j], key)
  {
    var w := lines[..Min(|lines|, SectionWindow)];
    var p := (l: string) => NamesSection(l, key);
    var r := FirstIndex(w, p);
    assert forall j :: 0 <= j < |w| ==> w[j] == lines[j] && (p(w[j]) <==> NamesSection(lines[j], key));
    r
  }

  /** The sections a missing one is placed after, and their keys. */
  const Purpose: string := "Purpose"
  const File: string := "File"
  const Project: string := "Project"
  const PurposeKey: string := "purpose"
  const FileKey: string := "file"
  const ProjectKey: string := "project"

  /** A name with no whitespace at either end has as key its lower-case
      form. */
  lemma KeyOfTrimmed(name: string, key: string)
    requires |name| > 0 && !IsSpace(name[0]) && !IsSpace(name[|name| - 1])
    requires |key| == |name| && forall i :: 0 <= i < |name| ==> key[i] == LowerChar(name[i])
    ensures Key(name) == key
  {
    TrimLeftNoop(name, IsSpace);
    TrimRightNoop(name, IsSpace);
  }

  lemma AnchorKeys()
    ensures Key(Purpose) == PurposeKey && Key(File) == FileKey && Key(Project) == ProjectKey
  {
    PurposeKeyIs();
    FileKeyIs();
    ProjectKeyIs();
  }

  lemma PurposeKeyIs()
    ensures Key(Purpose) == PurposeKey
  {
    KeyOfTrimmed(Purpose, PurposeKey);
  }

  lemma FileKeyIs()
    ensures Key(File) == FileKey
  {
    KeyOfTrimmed(File, FileKey);
  }

  lemma ProjectKeyIs()
    ensures Key(Project) == ProjectKey
  {
    KeyOfTrimmed(Project, ProjectKey);
  }

  /** One step of the `for candidate in (...)` loop, with its
      `max(insert_after or ci, ci)`. */
  function MaxOr(acc: Option<nat>, ci: Option<nat>): (r: Option<nat>)
    ensures ci.None? ==> r == acc
    ensures ci.Some? && acc.None? ==> r == ci
    ensures ci.Some? && acc.Some? ==> r == Some(if acc.value < ci.value then ci.value else acc.value)
  {
    match ci
    case None => acc
    case Some(c) =>
      var base := if acc.Some? && acc.value != 0 then acc.value else c;
      Some(if base < c then c else base)
  }

  /** One past the greatest of the indices found, or 0 when none was. */
  function AnchorOf(p: Option<nat>, f: Option<nat>, j: Option<nat>): (n: nat)
    ensures p.None? && f.None? && j.None? ==> n == 0
    ensures (p.Some? ==> p.value < n) && (f.Some? ==> f.value < n) && (j.Some? ==> j.value < n)
    ensures n == 0 || (p.Some? && p.value == n - 1) || (f.Some? && f.value == n - 1) || (j.Some? && j.value == n - 1)
  {
    match MaxOr(MaxOr(MaxOr(None, p), f), j)
    case None => 0
    case Some(a) => a + 1
  }

  /** Where a missing section goes: right after the last of the Purpose, File
      and Project lines, or at the top when there is none. */
  function Anchor(lines: seq<string>): (n: nat)
    ensures var p := FindSection(lines, PurposeKey); var f := FindSection(lines, FileKey);
      var j := FindSection(lines, ProjectKey);
      && (p.None? && f.None? && j.None? ==> n == 0)
      && (p.Some? ==> p.value < n) && (f.Some? ==> f.value < n) && (j.Some? ==> j.value < n)
      && (n == 0 || (p.Some? && p.value == n - 1) || (f.Some? && f.value == n - 1) || (j.Some? && j.value == n - 1))
    ensures n <= |lines|
  {
    var p := FindSection(lines, PurposeKey);
    var f := FindSection(lines, FileKey);
    var j := FindSection(lines, ProjectKey);
    AnchorOf(p, f, j)
  }

  /** The line written for a section. */
  function SectionText(prefix: string, name: string, value: string): string {
    prefix + name + ": " + value + "\n"
  }

  /** `lines.insert(at, line)` */
  function InsertAt(lines: seq<string>, at: nat, line: string): (r: seq<string>)
    requires at <= |lines|
    ensures |r| == |lines| + 1 && r[at] == line
    ensures r[..at] == lines[..at] && r[at + 1..] == lines[at..]
    ensures forall j :: 0 <= j < at ==> r[j] == lines[j]
    ensures forall j :: at < j < |r| ==> r[j] == lines[j - 1]
  {
    lines[..at] + [line] + lines[at..]
  }

  /** `set_section_value(lines, section_name, new_value)`: an existing section
      line is rewritten in place, keeping its prefix and name; a missing one
      is inserted as `# Name: value` at the anchor. Always reports a change. */
  function SetSectionValue(lines: seq<string>, section: string, value: string): (r: seq<string>)
    ensures var found := FindSection(lines, Key(section));
      found.Some? ==>
      var i := found.value; var m := ParseSection(lines[i]).value;
      && |r| == |lines| && r[i] == SectionText(m.prefix, m.name, value)
      && (forall j :: 0 <= j < |lines| && j != i ==> r[j] == lines[j])
    ensures FindSection(lines, Key(section)).None? ==>
      var at := Anchor(lines);
      && |r| == |lines| + 1 && r[at] == SectionText("# ", section, value)
      && r[..at] == lines[..at] && r[at + 1..] == lines[at..]
  {
    var found := FindSection(lines, Key(section));
    if found.Some? then
      var m := ParseSection(lines[found.value]).value;
      lines[found.value := SectionText(m.prefix, m.name, value)]
    else
      InsertAt(lines, Anchor(lines), SectionText("# ", section, value))
  }

  /** A section name the section pattern reads back unchanged from the line
      `set_section_value` writes for it. */
  predicate Readable(name: string) {
    |name| > 0 && ':' !in name && !IsSpace(name[0])
  }

  /** The line inserted for a missing section parses back to its prefix and
      name. */
  lemma {:induction false} InsertedLineParses(name: string, value: string)
    requires Readable(name) && '\n' !in value
    ensures ParseSection(SectionText("# ", name, value)) == Some(SectionLine("# ", name))
  {
    var line := SectionText("# ", name, value);
    var c := 2 + |name|;
    assert line[..c] == "# " + name && line[c] == ':';
    assert line[0] == '#' && line[1] == ' ' && line[2] == name[0];
    HashSpacePrefix(line);
    assert ':' !in line[..c];
    IndexOfAt(line, ':', c);
    assert forall k :: c + 2 <= k < |line| - 1 ==> line[k] == value[k - c - 2];
    assert TailOk(line, c + 1);
    assert line[..2] == "# " && line[2..c] == name;
  }

  /** Any line `w1 # w2 name: rest`, with whitespace-only `w1` and `w2`, a
      readable name and an acceptable rest, parses to the prefix `w1 # w2`
      and that name. */
  lemma {:induction false} SectionLineParses(line: string, w1: string, w2: string, name: string, rest: string)
    requires line == w1 + "#" + w2 + name + ":" + rest
    requires forall k :: 0 <= k < |w1| ==> IsSpace(w1[k])
    requires forall k :: 0 <= k < |w2| ==> IsSpace(w2[k])
    requires Readable(name) && TailOk(line, |w1| + 1 + |w2| + |name| + 1)
    ensures ParseSection(line) == Some(SectionLine(w1 + "#" + w2, name))
  {
    var prefix := w1 + "#" + w2;
    var t := |prefix|;
    var c := t + |name|;
    CommentPrefixEnds(w1, w2, name, rest);
    ColonAfterName(prefix, name, rest);
    PartsOf(prefix, name, rest);
    ParseAt(line, |w1|, t, c);
  }

  /** With the comment prefix ending before the first colon, the name runs
      from the end of the prefix to that colon. */
  lemma ParseAt(line: string, h: nat, t: nat, c: nat)
    requires CommentEnd(line) == Some((h, t)) && IndexOf(line, ':') == Some(c) && t < c
    requires TailOk(line, c + 1)
    ensures ParseSection(line) == Some(SectionLine(line[..t], line[t..c]))
  {
  }

  /** The prefix and the name are read back from `prefix name : rest`. */
  lemma PartsOf(prefix: string, name: string, rest: string)
    ensures var line := prefix + name + ":" + rest;
      line[..|prefix|] == prefix && line[|prefix|..|prefix| + |name|] == name
  {
    var line := prefix + name + ":" + rest;
    assert line[..|prefix| + |name|] == prefix + name;
  }

  /** The first colon of `prefix name : rest` is the one after the name when
      neither the prefix nor the name holds one. */
  lemma ColonAfterName(prefix: string, name: string, rest: string)
    requires ':' !in prefix && ':' !in name
    ensures IndexOf(prefix + name + ":" + rest, ':') == Some(|prefix| + |name|)
  {
    var line := prefix + name + ":" + rest;
    var t := |prefix|;
    var c := t + |name|;
    assert ':' !in line[..c] by {
      forall k | 0 <= k < c ensures line[k] != ':' {
        if k < t {
          assert line[k] == prefix[k];
        } else {
          assert line[k] == name[k - t];
        }
      }
    }
    IndexOfAt(line, ':', c);
  }

  /** `\s*#\s*` ends right after `w1 # w2` when the rest starts with a
      non-space. */
  lemma CommentPrefixEnds(w1: string, w2: string, name: string, rest: string)
    requires forall k :: 0 <= k < |w1| ==> IsSpace(w1[k])
    requires forall k :: 0 <= k < |w2| ==> IsSpace(w2[k])
    requires |name| > 0 && !IsSpace(name[0])
    ensures CommentEnd(w1 + "#" + w2 + name + ":" + rest) == Some((|w1|, |w1| + 1 + |w2|))
    ensures ':' !in w1 + "#" + w2
  {
    var line := w1 + "#" + w2 + name + ":" + rest;
    var h := |w1|;
    var t := h + 1 + |w2|;
    forall k | 0 <= k < t && k != h ensures IsSpace(line[k]) {
      if k < h {
        assert line[k] == w1[k];
      } else {
        assert line[k] == w2[k - h - 1];
      }
    }
    assert line[h] == '#' && line[t] == name[0];
    CommentEndAt(line, h, t);
  }

  /** Skipping from `i` only looks at the characters up to where it stops. */
  lemma {:induction false} SkipAgrees(s: string, t: string, i: nat, n: nat, p: char -> bool)
    requires i <= |s| && i <= |t| && n < |s| && n < |t| && s[..n + 1] == t[..n + 1]
    requires SkipWhile(s, i, p) <= n
    ensures SkipWhile(t, i, p) == SkipWhile(s, i, p)
    decreases |s| - i
  {
    assert s[i] == s[..n + 1][i] == t[..n + 1][i] == t[i];
    if p(s[i]) {
      SkipAgrees(s, t, i + 1, n, p);
    }
  }

  /** The comment prefix is found alike on two lines that agree up to a
      point past it. */
  lemma CommentEndAgrees(line: string, n: string, c: nat)
    requires CommentEnd(line).Some? && CommentEnd(line).value.1 <= c
    requires c < |line| && c < |n| && line[..c + 1] == n[..c + 1]
    ensures CommentEnd(n).Some? && CommentEnd(n).value == CommentEnd(line).value
  {
    var ends := CommentEnd(line).value;
    SkipAgrees(line, n, 0, c, IsSpace);
    assert n[ends.0] == n[..c + 1][ends.0] == line[..c + 1][ends.0];
    SkipAgrees(line, n, ends.0 + 1, c, IsSpace);
  }

  /** Rewriting a section line keeps it a section line with the same prefix
      and name. */
  lemma {:induction false} RewrittenLineParses(line: string, value: string)
    requires ParseSection(line).Some? && '\n' !in value
    ensures var m := ParseSection(line).value; var p := ParseSection(SectionText(m.prefix, m.name, value));
      p.Some? && p.value == m
  {
    var m := ParseSection(line).value;
    var n := SectionText(m.prefix, m.name, value);
    var c := |m.prefix| + |m.name|;
    SectionTextHead(line, m.prefix, m.name, value);
    IndexOfAt(line, ':', c);
    CommentEndAgrees(line, n, c);
    assert n[c] == ':' && ':' !in n[..c];
    IndexOfAt(n, ':', c);
    SectionTextTail(m.prefix, m.name, value);
    SameParse(line, n, c);
  }

  /** A rewritten line keeps the original up to and including the colon. */
  lemma SectionTextHead(line: string, prefix: string, name: string, value: string)
    requires |prefix| + |name| < |line| && line[..|prefix| + |name|] == prefix + name
    requires line[|prefix| + |name|] == ':'
    ensures var c := |prefix| + |name|; var n := SectionText(prefix, name, value);
      n[..c + 1] == line[..c + 1] && n[..c] == line[..c]
  {
    var c := |prefix| + |name|;
    var n := SectionText(prefix, name, value);
    assert n == (prefix + name) + (": " + value + "\n");
    assert n[..c] == prefix + name && n[c] == ':';
  }

  /** After the colon, a rewritten line holds a newline only at its end. */
  lemma SectionTextTail(prefix: string, name: string, value: string)
    requires '\n' !in value
    ensures var n := SectionText(prefix, name, value); TailOk(n, |prefix| + |name| + 1)
  {
    var c := |prefix| + |name|;
    var n := SectionText(prefix, name, value);
    assert forall k :: c + 2 <= k < |n| - 1 ==> n[k] == value[k - c - 2];
  }

  /** Two lines with the same comment prefix, the same first colon and the
      same text before it, and an acceptable rest, parse alike. */
  lemma SameParse(line: string, n: string, c: nat)
    requires ParseSection(line).Some? && c < |n|
    requires CommentEnd(n).Some? && CommentEnd(n).value == CommentEnd(line).value
    requires IndexOf(line, ':').Some? && IndexOf(line, ':').value == c
    requires IndexOf(n, ':').Some? && IndexOf(n, ':').value == c
    requires TailOk(n, c + 1) && n[..c] == line[..c]
    ensures ParseSection(n).Some? && ParseSection(n).value == ParseSection(line).value
  {
    var ends := CommentEnd(line).value;
    var start := if ends.1 < c then ends.1 else c - 1;
    assert n[..start] == n[..c][..start] && line[..start] == line[..c][..start];
    assert n[start..c] == n[..c][start..] && line[start..c] == line[..c][start..];
  }

  /** Setting an existing section twice to the same value is the same as
      setting it once. */
  lemma {:induction false} SetExistingIdempotent(lines: seq<string>, section: string, value: string)
    requires FindSection(lines, Key(section)).Some? && '\n' !in value
    ensures SetSectionValue(SetSectionValue(lines, section, value), section, value) == SetSectionValue(lines, section, value)
  {
    var key := Key(section);
    var i := FindSection(lines, key).value;
    var m := ParseSection(lines[i]).value;
    var r := SetSectionValue(lines, section, value);
    RewrittenLineParses(lines[i], value);
    assert ParseSection(r[i]) == Some(m);
    FoundAgain(lines, r, key, i);
    var r2 := SetSectionValue(r, section, value);
    assert r2 == r[i := SectionText(m.prefix, m.name, value)];
  }

  /** Rewriting the found section line into another line with the same name
      leaves the search result where it was. */
  lemma FoundAgain(lines: seq<string>, r: seq<string>, key: string, i: nat)
    requires FindSection(lines, key) == Some(i)
    requires |r| == |lines| && NamesSection(r[i], key)
    requires forall j :: 0 <= j < |lines| && j != i ==> r[j] == lines[j]
    ensures FindSection(r, key) == Some(i)
  {
    assert forall j :: 0 <= j < i ==> !NamesSection(r[j], key);
  }

  /** Setting a missing section makes it findable at the anchor, unless the
      anchor lies past the search window (a Purpose, File or Project line at
      index 199). */
  lemma {:induction false} SetMissingThenFound(lines: seq<string>, section: string, value: string)
    requires Readable(section) && '\n' !in value
    requires FindSection(lines, Key(section)).None? && Anchor(lines) < SectionWindow
    ensures var found := FindSection(SetSectionValue(lines, section, value), Key(section));
      found.Some? && found.value == Anchor(lines)
  {
    var at := Anchor(lines);
    var r := SetSectionValue(lines, section, value);
    var key := Key(section);
    InsertedLineParses(section, value);
    assert NamesSection(r[at], key);
    assert forall j :: 0 <= j < at ==> r[j] == lines[j] by {
      forall j | 0 <= j < at ensures r[j] == lines[j] { assert r[..at][j] == lines[..at][j]; }
    }
    assert forall j :: 0 <= j < at ==> !NamesSection(r[j], key);
  }

  // ---- revision history ---------------------------------------------------------

  /** `REVISION_HEADER_RE`: `<ws>#<ws>Revision History<ws>:` followed by
      whitespace only. */
  predicate IsRevisionHeader(line: string) {
    match CommentEnd(line)
    case None => false
    case Some(ends) =>
      StartsWith(line[ends.1..], "Revision History") &&
      var c := SkipWhile(line, ends.1 + 16, IsSpace);
      c < |line| && line[c] == ':' && SkipWhile(line, c + 1, IsSpace) == |line|
  }

  /** `REVISION_BULLET_RE`: `<ws>#<ws>-` followed by at least one whitespace. */
  predicate IsBullet(line: string) {
    match CommentEnd(line)
    case None => false
    case Some(ends) => ends.1 + 1 < |line| && line[ends.1] == '-' && IsSpace(line[ends.1 + 1])
  }

  /** The meaning of `find_revision_history_block`: the first header within
      the first 400 lines and the end of the bullets right below it. */
  predicate IsBlock(lines: seq<string>, h: nat, e: nat) {
    && h < |lines| && h < RevisionWindow && IsRevisionHeader(lines[h])
    && (forall j :: 0 <= j < h ==> !IsRevisionHeader(lines[j]))
    && h < e <= |lines|
    && (forall k :: h < k < e ==> IsBullet(lines[k]))
    && (e == |lines| || !IsBullet(lines[e]))
  }

  function RevisionBlock(lines: seq<string>): (r: Option<(nat, nat)>)
    ensures r.None? <==> forall j :: 0 <= j < |lines| && j < RevisionWindow ==> !IsRevisionHeader(lines[j])
    ensures r.Some? ==> IsBlock(lines, r.value.0, r.value.1)
  {
    var w := lines[..Min(|lines|, RevisionWindow)];
    var first := FirstIndex(w, IsRevisionHeader);
    assert forall j :: 0 <= j < |w| ==> w[j] == lines[j];
    match first
    case None => None
    case Some(h) => Some((h, SkipWhile(lines, h + 1, IsBullet)))
  }

  /** The block is determined by the lines. */
  lemma BlockUnique(lines: seq<string>, h: nat, e: nat, h': nat, e': nat)
    requires IsBlock(lines, h, e) && IsBlock(lines, h', e')
    ensures h == h' && e == e'
  {
  }

  /** `find_revision_history_block(lines)`, with its two loops. */
  method FindRevisionHistoryBlock(lines: seq<string>) returns (header: Option<nat>, end: Option<nat>)
    ensures header.None? <==> end.None?
    ensures header.None? <==> forall j :: 0 <= j < |lines| && j < RevisionWindow ==> !IsRevisionHeader(lines[j])
    ensures header.Some? ==> IsBlock(lines, header.value, end.value)
    ensures header.Some? ==> RevisionBlock(lines).Some? && RevisionBlock(lines).value == (header.value, end.value)
  {
    header := FindHeader(lines);
    if header.None? {
      end := None;
    } else {
      var j := BulletsEnd(lines, header.value);
      end := Some(j);
      var b := RevisionBlock(lines);
      BlockUnique(lines, header.value, j, b.value.0, b.value.1);
    }
  }

  /** The first loop: the first header among the first 400 lines. */
  method FindHeader(lines: seq<string>) returns (header: Option<nat>)
    ensures header.None? <==> forall j :: 0 <= j < |lines| && j < RevisionWindow ==> !IsRevisionHeader(lines[j])
    ensures header.Some? ==> var h := header.value;
      && h < |lines| && h < RevisionWindow && IsRevisionHeader(lines[h])
      && forall j :: 0 <= j < h ==> !IsRevisionHeader(lines[j])
  {
    header := None;
    var i := 0;
    while i < |lines| && i < RevisionWindow
      invariant 0 <= i <= |lines|
      invariant forall j :: 0 <= j < i ==> !IsRevisionHeader(lines[j])
      invariant i <= RevisionWindow
      decreases |lines| - i
    {
      if IsRevisionHeader(lines[i]) {
        return Some(i);
      }
      i := i + 1;
    }
  }

  /** The second loop: the end of the run of bullets below the header. */
  method BulletsEnd(lines: seq<string>, h: nat) returns (e: nat)
    requires h < |lines|
    ensures h < e <= |lines|
    ensures forall k :: h < k < e ==> IsBullet(lines[k])
    ensures e == |lines| || !IsBullet(lines[e])
  {
    e := h + 1;
    while e < |lines| && IsBullet(lines[e])
      invariant h < e <= |lines|
      invariant forall k :: h < k < e ==> IsBullet(lines[k])
      decreases |lines| - e
    {
      e := e + 1;
    }
  }

  function IsWordChar(c: char): bool {
    IsDigit(c) || ('a' <= c <= 'z') || ('A' <= c <= 'Z') || c == '_'
  }

  /** `\d{4}-\d{2}-\d{2}` */
  predicate IsDateShape(d: string) {
    |d| == 10 && d[4] == '-' && d[7] == '-' &&
    forall i :: 0 <= i < 10 && i != 4 && i != 7 ==> IsDigit(d[i])
  }

  /** `LAST_MODIFIED_DATE_RE.match(line).group(1)`: the date after
      `<ws>#<ws>Last Modified:<ws>`, when no word character follows it. */
  function LastModifiedDate(line: string): (r: Option<string>)
    ensures r.Some? ==> IsDateShape(r.value) && Contains(line, r.value)
  {
    match CommentEnd(line)
    case None => None
    case Some(ends) =>
      if !StartsWith(line[ends.1..], "Last Modified:") then None
      else
        var c := SkipWhile(line, ends.1 + 14, IsSpace);
        if c + 10 <= |line| && IsDateShape(line[c..c + 10]) && (c + 10 == |line| || !IsWordChar(line[c + 10])) then
          assert StartsWith(line[c..], line[c..c + 10]);
          Some(line[c..c + 10])
        else None
  }

  /** A date is only ever returned from a tagged line: the converse of
      LastModifiedDateFound. */
  lemma LastModifiedDateTagged(line: string)
    ensures var r := LastModifiedDate(line);
      r.Some? ==> exists h: nat, t: nat, s: nat :: TaggedDateAt(line, h, t, s) && r.value == line[s..s + 10]
  {
    if LastModifiedDate(line).Some? {
      var ends := CommentEnd(line).value;
      var c := SkipWhile(line, ends.1 + 14, IsSpace);
      assert line[ends.1..ends.1 + 14] == line[ends.1..][..14];
      assert TaggedDateAt(line, ends.0, ends.1, c);
    }
  }

  /** `#` at `h`, the `Last Modified:` tag at `t` and a date-shaped `D` at
      `s`, with only whitespace around `#` and between tag and date, and no
      word character after the date. */
  predicate TaggedDateAt(line: string, h: nat, t: nat, s: nat) {
    && h < t && t + 14 <= s && s + 10 <= |line|
    && line[h] == '#' && (forall k :: 0 <= k < t && k != h ==> IsSpace(line[k]))
    && line[t..t + 14] == "Last Modified:"
    && (forall k :: t + 14 <= k < s ==> IsSpace(line[k]))
    && IsDateShape(line[s..s + 10])
    && (s + 10 == |line| || !IsWordChar(line[s + 10]))
  }

  /** A line `<ws>#<ws>Last Modified:<ws>D` with a date-shaped `D` that no
      word character follows yields `D`: `#` sits at `h`, the tag at `t` and
      the date at `s`, with only whitespace in between. */
  lemma LastModifiedDateFound(line: string, h: nat, t: nat, s: nat)
    requires TaggedDateAt(line, h, t, s)
    ensures LastModifiedDate(line) == Some(line[s..s + 10])
  {
    assert line[t] == line[t..t + 14][0] == 'L';
    CommentEndAt(line, h, t);
    assert line[t..][..14] == line[t..t + 14];
    assert StartsWith(line[t..], "Last Modified:");
    assert line[s] == line[s..s + 10][0];
    SkipTo(line, t + 14, s);
  }

  /** `\s*#\s*` ends at `t` on a line with `#` at `h` and only whitespace
      around it up to a non-space at `t`. */
  lemma CommentEndAt(line: string, h: nat, t: nat)
    requires h < t <= |line| && line[h] == '#'
    requires forall k :: 0 <= k < t && k != h ==> IsSpace(line[k])
    requires t == |line| || !IsSpace(line[t])
    ensures CommentEnd(line) == Some((h, t))
  {
    SkipTo(line, 0, h);
    SkipTo(line, h + 1, t);
  }

  /** `SkipWhile` stops at the first index past a run of whitespace. */
  lemma SkipTo(line: string, i: nat, j: nat)
    requires i <= j <= |line|
    requires forall k :: i <= k < j ==> IsSpace(line[k])
    requires j == |line| || !IsSpace(line[j])
    ensures SkipWhile(line, i, IsSpace) == j
  {
  }

  /** The first `Some` that `f` gives on the lines, in order. */
  function FirstSome(lines: seq<string>, f: string -> Option<string>): (r: Option<string>)
    ensures r.Some? ==> exists i :: 0 <= i < |lines| && f(lines[i]) == r && forall j :: 0 <= j < i ==> f(lines[j]).None?
    ensures r.None? ==> forall i :: 0 <= i < |lines| ==> f(lines[i]).None?
    decreases |lines|
  {
    if |lines| == 0 then None
    else if f(lines[0]).Some? then
      assert f(lines[0]) == f(lines[0]);
      f(lines[0])
    else
      var r := FirstSome(lines[1..], f);
      assert forall i :: 1 <= i < |lines| ==> lines[i] == lines[1..][i - 1];
      r
  }

  /** `extract_last_modified_date(lines)`: the first Last Modified date in the
      first 200 lines. */
  function ExtractLastModifiedDate(lines: seq<string>): (r: Option<string>)
    ensures r.Some? ==> IsDateShape(r.value)
    ensures r.Some? ==> exists i :: (0 <= i < |lines| && i < SectionWindow && LastModifiedDate(lines[i]) == r &&
      forall j :: 0 <= j < i ==> LastModifiedDate(lines[j]).None?)
    ensures r.None? ==> forall i :: 0 <= i < |lines| && i < SectionWindow ==> LastModifiedDate(lines[i]).None?
  {
    var w := lines[..Min(|lines|, SectionWindow)];
    var r := FirstSome(w, LastModifiedDate);
    assert forall i :: 0 <= i < |w| ==> w[i] == lines[i];
    r
  }

  /** A line starting `# - ` is a bullet. */
  lemma MarkerIsBullet(b: string)
    requires StartsWith(b, "# - ")
    ensures IsBullet(b)
  {
    assert b[..4][0] == '#' && b[..4][1] == ' ' && b[..4][2] == '-' && b[..4][3] == ' ';
    HashSpacePrefix(b);
  }

  /** The bullet line: `# - V (D): desc — author`, without the date part
      when there is no date and without the author part when there is none. */
  function BulletText(version: string, date: string, description: string, author: Option<string>): (b: string)
    ensures IsBullet(b)
    ensures StartsWith(b, "# - " + version) && b[|b| - 1] == '\n'
    ensures date != "" ==> Contains(b, " (" + date + "): ")
  {
    var head := "# - " + version;
    var mid := if date != "" then " (" + date + "): " else ": ";
    var rest := description + AuthorSuffix(author) + "\n";
    var b := head + (mid + rest);
    assert b[..|head|] == head && b[|head|..] == mid + rest;
    assert b[..4] == head[..4];
    MarkerIsBullet(b);
    assert StartsWith(b[|head|..], mid);
    b
  }

  /** `f" — {author}"` when the author is a non-empty string, else nothing. */
  function AuthorSuffix(author: Option<string>): (s: string)
    ensures s == "" <==> author.None? || author.value == ""
  {
    if author.Some? && author.value != "" then " \U{2014} " + author.value else ""
  }

  /** How a bullet opens: the version, then the date in brackets when there
      is one, then `: `. */
  lemma BulletTextOpens(version: string, date: string, description: string, author: Option<string>)
    ensures var b := BulletText(version, date, description, author);
      && (date != "" ==> StartsWith(b, "# - " + version + " (" + date + "): "))
      && (date == "" ==> StartsWith(b, "# - " + version + ": "))
  {
    var head := "# - " + version;
    var mid := if date != "" then " (" + date + "): " else ": ";
    var rest := description + AuthorSuffix(author) + "\n";
    var b := BulletText(version, date, description, author);
    assert b == head + (mid + rest);
    ConcatStarts(head, mid, rest);
    if date != "" {
      ConcatAssoc(head, " (" + date, "): ");
      ConcatAssoc(head, " (", date);
    }
  }

  lemma ConcatStarts(a: string, b: string, c: string)
    ensures StartsWith(a + (b + c), a + b)
  {
    assert (a + (b + c))[..|a + b|] == a + b;
  }

  /** How a bullet ends: `: `, the description, ` — author` exactly when the
      author is a non-empty string, and the newline. */
  lemma BulletTextEnds(version: string, date: string, description: string, author: Option<string>)
    ensures var b := BulletText(version, date, description, author);
      && (author.Some? && author.value != "" ==> EndsWith(b, ": " + description + " \U{2014} " + author.value + "\n"))
      && (author.None? || author.value == "" ==> EndsWith(b, ": " + description + "\n"))
  {
    var m0 := if date != "" then " (" + date + ")" else "";
    var mid := if date != "" then " (" + date + "): " else ": ";
    assert mid == m0 + ": ";
    var suffix := AuthorSuffix(author);
    TailOfBullet("# - " + version, m0, description, suffix);
    var b := BulletText(version, date, description, author);
    assert b == "# - " + version + ((m0 + ": ") + (description + suffix + "\n"));
    if author.Some? && author.value != "" {
      ConcatAssoc(": " + description, " \U{2014} ", author.value);
    } else {
      assert ": " + description + suffix == ": " + description;
    }
  }

  lemma TailOfBullet(head: string, m0: string, description: string, suffix: string)
    ensures EndsWith(head + ((m0 + ": ") + (description + suffix + "\n")), ": " + description + suffix + "\n")
  {
    var rest := description + suffix + "\n";
    var tail := ": " + rest;
    ConcatAssoc(m0, ": ", rest);
    ConcatAssoc(head, m0, tail);
    ConcatEnds(head + m0, tail);
    ConcatAssoc(": ", description + suffix, "\n");
    ConcatAssoc(": ", description, suffix);
  }

  lemma ConcatEnds(a: string, b: string)
    ensures EndsWith(a + b, b)
  {
    assert (a + b)[|a|..] == b;
  }

  const RevisionHeaderLine: string := "# Revision History:\n"

  lemma RevisionHeaderLineIsHeader()
    ensures IsRevisionHeader(RevisionHeaderLine)
  {
    var l := RevisionHeaderLine;
    assert l == "# " + "Revision History" + ":\n";
    HashSpacePrefix(l);
    assert l[2..][..16] == "Revision History";
    assert l[18] == ':' && l[19] == '\n' && |l| == 20;
    assert SkipWhile(l, 18, IsSpace) == 18;
    assert SkipWhile(l, 20, IsSpace) == 20;
    assert SkipWhile(l, 19, IsSpace) == 20;
  }

  /** A line opening with `# ` and then a non-space has its comment prefix
      at `[0, 2)`. */
  lemma HashSpacePrefix(line: string)
    requires |line| > 2 && line[0] == '#' && line[1] == ' ' && !IsSpace(line[2])
    ensures CommentEnd(line) == Some((0, 2))
  {
    assert SkipWhile(line, 0, IsSpace) == 0;
    assert SkipWhile(line, 2, IsSpace) == 2;
    assert SkipWhile(line, 1, IsSpace) == 2;
  }

  /** The block a bullet goes into: the existing one, or a fresh header
      inserted at `min(len(lines), 60)` with no bullets under it. */
  datatype Placement = Placement(lines: seq<string>, header: nat, end: nat)

  function PlaceBlock(lines: seq<string>): (p: Placement)
    ensures p.header < p.end <= |p.lines|
    ensures RevisionBlock(lines).Some? ==>
      p.lines == lines && p.header == RevisionBlock(lines).value.0 && p.end == RevisionBlock(lines).value.1
    ensures RevisionBlock(lines).None? ==>
      p.header == Min(|lines|, RevisionAnchorCap) && p.end == p.header + 1 &&
      p.lines == InsertAt(lines, p.header, RevisionHeaderLine)
  {
    var block := RevisionBlock(lines);
    if block.Some? then
      Placement(lines, block.value.0, block.value.1)
    else
      var at := Min(|lines|, RevisionAnchorCap);
      Placement(InsertAt(lines, at, RevisionHeaderLine), at, at + 1)
  }

  /** The date a bullet shows: the given one when non-empty, else the file's
      Last Modified date, else none. */
  function BulletDate(lines: seq<string>, date: Option<string>): (d: string)
    ensures date.Some? && date.value != "" ==> d == date.value
    ensures (date.None? || date.value == "") && d != "" ==>
      (IsDateShape(d) && ExtractLastModifiedDate(lines) == Some(d))
    ensures (date.None? || date.value == "") && ExtractLastModifiedDate(lines).None? ==> d == ""
  {
    if date.Some? && date.value != "" then date.value
    else
      var found := ExtractLastModifiedDate(lines);
      if found.Some? then found.value else ""
  }

  /** `append_revision_bullet(lines, ...)`: inserts the bullet right below
      the header (`prepend`) or after the last bullet (`bullets_end` is
      never 0, so its `or` fallback is never taken). */
  function AppendRevisionBullet(lines: seq<string>, version: string, description: string,
                                author: Option<string>, date: Option<string>, prepend: bool): (r: seq<string>)
    ensures RevisionBlock(lines).Some? ==> |r| == |lines| + 1
    ensures RevisionBlock(lines).None? ==>
      (|r| == |lines| + 2 && r[Min(|lines|, RevisionAnchorCap)] == RevisionHeaderLine &&
       r[..Min(|lines|, RevisionAnchorCap)] == lines[..Min(|lines|, RevisionAnchorCap)])
    ensures var p := PlaceBlock(lines); var at := if prepend then p.header + 1 else p.end;
      && r == InsertAt(p.lines, at, r[at])
      && IsBullet(r[at]) && StartsWith(r[at], "# - " + version)
      && (date.Some? && date.value != "" ==> Contains(r[at], " (" + date.value + "): "))
  {
    var p := PlaceBlock(lines);
    var bullet := BulletText(version, BulletDate(p.lines, date), description, author);
    var at := if prepend then p.header + 1 else p.end;
    InsertAt(p.lines, at, bullet)
  }

  /** A prepended bullet lands inside the revision block: the block keeps its
      header and grows by exactly that line. */
  lemma {:induction false} PrependedBulletInBlock(lines: seq<string>, version: string, description: string,
                                                 author: Option<string>, date: Option<string>)
    requires RevisionBlock(lines).Some?
    ensures var b := RevisionBlock(lines).value;
      IsBlock(AppendRevisionBullet(lines, version, description, author, date, true), b.0, b.1 + 1)
  {
    var b := RevisionBlock(lines).value;
    var r := AppendRevisionBullet(lines, version, description, author, date, true);
    var p := PlaceBlock(lines);
    assert p.lines == lines && p.header == b.0;
    BulletIntoBlock(lines, b.0, b.1, r[b.0 + 1]);
  }

  /** A bullet inserted right below the header extends the block by one. */
  lemma BulletIntoBlock(lines: seq<string>, h: nat, e: nat, bullet: string)
    requires IsBlock(lines, h, e) && IsBullet(bullet)
    ensures IsBlock(InsertAt(lines, h + 1, bullet), h, e + 1)
  {
    var r := InsertAt(lines, h + 1, bullet);
    assert forall k :: h + 1 < k < e + 1 ==> r[k] == lines[k - 1];
  }

  /** A header with no header above it, inside the search window, is the
      block's header. */
  lemma BlockAt(lines: seq<string>, at: nat)
    requires at < |lines| && at < RevisionWindow && IsRevisionHeader(lines[at])
    requires forall j :: 0 <= j < at ==> !IsRevisionHeader(lines[j])
    ensures RevisionBlock(lines).Some? && RevisionBlock(lines).value.0 == at
  {
  }

  /** A file without a revision block gets one: afterwards the block is found
      at the inserted header, and the new bullet is inside it. */
  lemma {:induction false} CreatedBlockHoldsBullet(lines: seq<string>, version: string, description: string,
                                                  author: Option<string>, date: Option<string>)
    requires RevisionBlock(lines).None?
    ensures var at := Min(|lines|, RevisionAnchorCap);
      var b := RevisionBlock(AppendRevisionBullet(lines, version, description, author, date, true));
      b.Some? && b.value.0 == at && b.value.1 >= at + 2
  {
    var at := Min(|lines|, RevisionAnchorCap);
    var r := AppendRevisionBullet(lines, version, description, author, date, true);
    var p := PlaceBlock(lines);
    assert p.header == at && p.lines == InsertAt(lines, at, RevisionHeaderLine);
    HeaderAndBulletMakeBlock(lines, at, r[at + 1]);
  }

  /** Inserting a header and a bullet below it, where no header was found,
      gives a block at the inserted header holding that bullet. */
  lemma HeaderAndBulletMakeBlock(lines: seq<string>, at: nat, bullet: string)
    requires at <= |lines| && at < RevisionWindow && IsBullet(bullet)
    requires RevisionBlock(lines).None?
    ensures var r := InsertAt(InsertAt(lines, at, RevisionHeaderLine), at + 1, bullet);
      RevisionBlock(r).Some? && RevisionBlock(r).value.0 == at && RevisionBlock(r).value.1 >= at + 2
  {
    var r1 := InsertAt(lines, at, RevisionHeaderLine);
    var r := InsertAt(r1, at + 1, bullet);
    RevisionHeaderLineIsHeader();
    assert r[at] == r1[at] == RevisionHeaderLine;
    assert forall j :: 0 <= j < at ==> !IsRevisionHeader(r[j]) by {
      forall j | 0 <= j < at ensures !IsRevisionHeader(r[j]) {
        assert r[j] == r1[j] == lines[j];
      }
    }
    BlockAt(r, at);
    var e := RevisionBlock(r).value.1;
    assert IsBullet(r[at + 1]);
    assert e >= at + 2;
  }

  // ---- command line ---------------------------------------------------------------

  /** One `--set "Section=Value"`: split at the first `=`, both halves
      trimmed; exit status 2 without one. */
  function ParseSet(s: string): (r: Result<(string, string), int>)
    ensures r.Err? <==> '=' !in s
    ensures r.Err? ==> r.error == 2
  {
    match SplitOnce(s, '=')
    case None => Err(2)
    case Some(p) => Ok((Strip(p.0), Strip(p.1)))
  }

  /** The split is at the first `=`: whatever follows it, including further
      `=` characters, belongs to the value. */
  lemma ParseSetFirst(name: string, value: string)
    requires '=' !in name
    ensures ParseSet(name + "=" + value) == Ok((Strip(name), Strip(value)))
  {
    SplitAtFirst(name + "=" + value, name, value, '=');
  }

  lemma SplitAtFirst(s: string, a: string, b: string, sep: char)
    requires s == a + [sep] + b && sep !in a
    ensures SplitOnce(s, sep) == Some((a, b))
  {
    assert s[|a|] == sep;
    var i := IndexOf(s, sep).value;
    assert forall k :: 0 <= k < i ==> s[k] != sep by {
      forall k | 0 <= k < i ensures s[k] != sep { assert s[..i][k] == s[k]; }
    }
    assert forall k :: 0 <= k < |a| ==> s[k] == a[k];
    assert i == |a|;
    assert s[..|a|] == a && s[|a| + 1..] == b;
  }

  /** Parses every argument with `f`, failing with the first failure. */
  function ParseAll(ss: seq<string>, f: string -> Result<(string, string), int>): (r: Result<seq<(string, string)>, int>)
    ensures r.Err? <==> exists i :: 0 <= i < |ss| && f(ss[i]).Err?
    ensures r.Err? ==> exists i :: 0 <= i < |ss| && f(ss[i]).Err? && f(ss[i]).error == r.error
    ensures r.Ok? ==> |r.value| == |ss|
    ensures r.Ok? ==> forall i :: 0 <= i < |ss| ==> f(ss[i]).Ok? && r.value[i] == f(ss[i]).value
    decreases |ss|
  {
    if |ss| == 0 then Ok([])
    else
      assert forall i :: 1 <= i < |ss| ==> ss[i] == ss[1..][i - 1];
      var first := f(ss[0]);
      if first.Err? then Err(first.error)
      else
        var rest := ParseAll(ss[1..], f);
        if rest.Err? then Err(rest.error) else Ok([first.value] + rest.value)
  }

  /** Every `--set` argument, in order; exit status 2 as soon as one has no
      `=`. */
  function ParseSets(ss: seq<string>): (r: Result<seq<(string, string)>, int>)
    ensures r.Err? <==> exists i :: 0 <= i < |ss| && '=' !in ss[i]
    ensures r.Err? ==> r.error == 2
    ensures r.Ok? ==> |r.value| == |ss|
    ensures r.Ok? ==> forall i :: 0 <= i < |ss| ==> ParseSet(ss[i]).Ok? && r.value[i] == ParseSet(ss[i]).value
  {
    ParseAll(ss, ParseSet)
  }

  /** `--append-revision "VERSION|DESCRIPTION"`: split at the first `|`; an
      empty argument means no revision. */
  function ParseRevision(arg: Option<string>): (r: Result<Option<(string, string)>, int>)
    ensures arg.None? || arg == Some("") ==> r == Ok(None)
    ensures r.Err? <==> arg.Some? && arg.value != "" && '|' !in arg.value
    ensures r.Err? ==> r.error == 2
  {
    match arg
    case None => Ok(None)
    case Some(s) =>
      if s == "" then Ok(None)
      else match SplitOnce(s, '|')
        case None => Err(2)
        case Some(p) => Ok(Some((Strip(p.0), Strip(p.1))))
  }

  /** The split is at the first `|`: the description keeps any later `|`. */
  lemma ParseRevisionFirst(version: string, description: string)
    requires '|' !in version
    ensures ParseRevision(Some(version + "|" + description)) == Ok(Some((Strip(version), Strip(description))))
  {
    SplitAtFirst(version + "|" + description, version, description, '|');
  }

  function ApplySets(lines: seq<string>, sets: seq<(string, string)>): (r: seq<string>)
    ensures |sets| == 0 ==> r == lines
    ensures |r| >= |lines|
    decreases |sets|
  {
    if |sets| == 0 then lines
    else ApplySets(SetSectionValue(lines, sets[0].0, sets[0].1), sets[1..])
  }

  datatype Edit = Edit(lines: seq<string>, rewrite: bool)

  /** The per-file body of `main`: every `--set` in order, then the revision
      bullet; the file is rewritten only when something was applied and the
      lines differ from the original. */
  function EditFile(lines: seq<string>, sets: seq<(string, string)>, rev: Option<(string, string)>,
                    author: Option<string>, date: Option<string>): (r: Edit)
    ensures r.rewrite <==> r.lines != lines
    ensures rev.Some? ==> |r.lines| > |lines| && r.rewrite
    ensures |sets| == 0 && rev.None? ==> r.lines == lines && !r.rewrite
  {
    var afterSets := ApplySets(lines, sets);
    var edited := match rev
      case None => afterSets
      case Some(p) => AppendRevisionBullet(afterSets, p.0, p.1, author, date, true);
    var changed := |sets| > 0 || rev.Some?;
    Edit(edited, changed && edited != lines)
  }
}

=== FILE: init_versions.dfy ===
/** Seeding `versions.yml` (`scripts/init_versions.py`): which files of the
    repository are tracked, and how newly seen files are merged into the
    existing mapping. The directory walk and the YAML file are left to the
    caller: the walk arrives as the relative path components of every regular
    file, the file as its decoded value. */
module InitVersions {
  import opened Wrappers
  import opened Strings
  import opened Json

  const DefaultProjectVersion := "0.2.0"
  const DefaultFileVersion := "0.1.0"
  const IncludeExt: set<string> := {".py", ".sh"}
  const ExcludeDirs: set<string> := {
    ".git", ".idea", "__pycache__", "venv", ".venv", "node_modules", "dist",
    "build", ".mypy_cache", ".pytest_cache"
  }
  const ProjectKey := "project_version"
  const FilesKey := "files"

  /** `PurePath.suffix` of a final path component: from its last dot on,
      provided that dot is neither the first nor the last character. */
  function Suffix(name: string): (r: string)
    ensures r == "" || (|r| >= 2 && r[0] == '.' && '.' !in r[1..] && |r| < |name| && EndsWith(name, r))
  {
    match LastIndexOf(name, '.')
    case Some(i) =>
      if 0 < i < |name| - 1 then
        assert name[i..][1..] == name[i + 1..];
        name[i..]
      else ""
    case None => ""
  }

  /** A non-empty stem followed by a dotted extension has that extension as
      its suffix. */
  lemma {:induction false} SuffixOf(stem: string, ext: string)
    requires |stem| > 0 && |ext| >= 2 && ext[0] == '.' && '.' !in ext[1..]
    ensures Suffix(stem + ext) == ext
  {
    var name := stem + ext;
    assert ext == ['.'] + ext[1..];
    assert name == stem + ['.'] + ext[1..];
    LastIndexAfter(stem, '.', ext[1..]);
    assert name[|stem|..] == ext;
  }

  /** The filter of `iter_files` on one file, given the components of its
      path relative to the repository root. */
  predicate Kept(parts: seq<string>) {
    && |parts| > 0
    && Suffix(parts[|parts| - 1]) in IncludeExt
    && (forall i :: 0 <= i < |parts| ==> parts[i] !in ExcludeDirs)
  }

  /** A file named `<stem><ext>` below the directories `dirs` is tracked
      exactly when `ext` is `.py` or `.sh` and no directory (nor the name
      itself) is an excluded one. */
  lemma KeptByName(dirs: seq<string>, stem: string, ext: string)
    requires |stem| > 0 && |ext| >= 2 && ext[0] == '.' && '.' !in ext[1..]
    ensures Kept(dirs + [stem + ext]) <==>
      && ext in IncludeExt
      && (forall i :: 0 <= i < |dirs| ==> dirs[i] !in ExcludeDirs)
      && stem + ext !in ExcludeDirs
  {
    SuffixOf(stem, ext);
    var parts := dirs + [stem + ext];
    assert parts[|parts| - 1] == stem + ext;
    assert forall i :: 0 <= i < |dirs| ==> parts[i] == dirs[i];
  }

  /** `str(p.relative_to(REPO_ROOT))` on a POSIX system. */
  function RelPath(parts: seq<string>): string {
    Join(parts, "/")
  }

  /** The relative paths `iter_files` yields, in walk order. */
  function TrackedPaths(walk: seq<seq<string>>): (r: seq<string>)
    ensures forall p :: p in r <==> exists i :: 0 <= i < |walk| && Kept(walk[i]) && p == RelPath(walk[i])
    decreases |walk|
  {
    if |walk| == 0 then []
    else
      var rest := TrackedPaths(walk[1..]);
      assert forall i :: 1 <= i < |walk| ==> walk[i] == walk[1..][i - 1];
      assert forall i :: 0 <= i < |walk| - 1 ==> walk[1..][i] == walk[i + 1];
      if Kept(walk[0]) then [RelPath(walk[0])] + rest else rest
  }

  predicate DistinctKeys(es: Entries) {
    forall i, j :: 0 <= i < j < |es| ==> es[i].0 != es[j].0
  }

  /** The loop of `main`: every path not yet tracked is added with the
      default file version, and counted. The entries already present stay
      in front, untouched. */
  function AddNew(files: Entries, rels: seq<string>): (r: (Entries, nat))
    ensures |r.0| == |files| + r.1 && r.0[..|files|] == files
    decreases |rels|
  {
    if |rels| == 0 then (files, 0)
    else
      var rel := rels[0];
      var next := if Has(files, rel) then files else Set(files, rel, Str(DefaultFileVersion));
      AddStep(files, rel);
      var r := AddNew(next, rels[1..]);
      assert r.0[..|files|] == r.0[..|next|][..|files|];
      (r.0, r.1 + |next| - |files|)
  }

  /** Every entry the loop appends is a path of the walk that was not
      tracked before, at the default file version. */
  lemma {:induction false} AddNewAdded(files: Entries, rels: seq<string>)
    ensures var r := AddNew(files, rels).0;
      forall i :: |files| <= i < |r| ==>
        r[i].1 == Str(DefaultFileVersion) && r[i].0 in rels && !Has(files, r[i].0)
    decreases |rels|
  {
    if |rels| > 0 {
      var rel := rels[0];
      var next := if Has(files, rel) then files else Set(files, rel, Str(DefaultFileVersion));
      AddStep(files, rel);
      AddNewAdded(next, rels[1..]);
      var r := AddNew(files, rels).0;
      assert r == AddNew(next, rels[1..]).0;
      forall i | |files| <= i < |r|
        ensures r[i].1 == Str(DefaultFileVersion) && r[i].0 in rels && !Has(files, r[i].0)
      {
        if i < |next| {
          assert r[..|next|][i] == next[i];
        } else {
          assert r[i].0 in rels[1..];
        }
      }
    }
  }

  /** After the loop, a path is tracked exactly when it was tracked before
      or the walk produced it. */
  lemma {:induction false} AddNewHas(files: Entries, rels: seq<string>, k: string)
    ensures Has(AddNew(files, rels).0, k) <==> Has(files, k) || k in rels
    decreases |rels|
  {
    if |rels| > 0 {
      var rel := rels[0];
      var next := if Has(files, rel) then files else Set(files, rel, Str(DefaultFileVersion));
      AddStep(files, rel);
      AddNewHas(next, rels[1..], k);
      assert rels == [rel] + rels[1..];
    }
  }

  /** Versions already recorded are kept, and every newly seen path gets the
      default file version. */
  lemma {:induction false} AddNewGet(files: Entries, rels: seq<string>, k: string)
    ensures Has(files, k) ==> Get(AddNew(files, rels).0, k) == Get(files, k)
    ensures k in rels && !Has(files, k) ==> Get(AddNew(files, rels).0, k) == Str(DefaultFileVersion)
    decreases |rels|
  {
    if |rels| > 0 {
      var rel := rels[0];
      var next := if Has(files, rel) then files else Set(files, rel, Str(DefaultFileVersion));
      AddStep(files, rel);
      AddNewGet(next, rels[1..], k);
      assert rels == [rel] + rels[1..];
    }
  }

  /** No path is recorded twice. */
  lemma {:induction false} AddNewDistinct(files: Entries, rels: seq<string>)
    requires DistinctKeys(files)
    ensures DistinctKeys(AddNew(files, rels).0)
    decreases |rels|
  {
    if |rels| > 0 {
      var rel := rels[0];
      var next := if Has(files, rel) then files else Set(files, rel, Str(DefaultFileVersion));
      AddStep(files, rel);
      AddNewDistinct(next, rels[1..]);
    }
  }

  /** The three facts above, for every path. */
  lemma AddNewFacts(files: Entries, rels: seq<string>)
    ensures var r := AddNew(files, rels).0;
      && (forall k :: Has(r, k) <==> Has(files, k) || k in rels)
      && (forall k :: Has(files, k) ==> Get(r, k) == Get(files, k))
      && (forall k :: k in rels && !Has(files, k) ==> Get(r, k) == Str(DefaultFileVersion))
      && (DistinctKeys(files) ==> DistinctKeys(r))
  {
    forall k ensures Has(AddNew(files, rels).0, k) <==> Has(files, k) || k in rels {
      AddNewHas(files, rels, k);
    }
    forall k ensures Has(files, k) ==> Get(AddNew(files, rels).0, k) == Get(files, k)
      ensures k in rels && !Has(files, k) ==> Get(AddNew(files, rels).0, k) == Str(DefaultFileVersion)
    {
      AddNewGet(files, rels, k);
    }
    if DistinctKeys(files) {
      AddNewDistinct(files, rels);
    }
  }

  /** One iteration of the loop keeps the entries so far as a prefix. */
  lemma AddStep(files: Entries, rel: string)
    ensures var next := if Has(files, rel) then files else Set(files, rel, Str(DefaultFileVersion));
      && |next| == |files| + (if Has(files, rel) then 0 else 1)
      && next[..|files|] == files
      && (!Has(files, rel) ==> next[|files|] == (rel, Str(DefaultFileVersion)))
      && (DistinctKeys(files) ==> DistinctKeys(next))
      && (forall k :: Has(next, k) <==> Has(files, k) || k == rel)
  {
    if !Has(files, rel) {
      var next := Set(files, rel, Str(DefaultFileVersion));
      assert next == files + [(rel, Str(DefaultFileVersion))];
      assert next[..|files|] == files;
    }
  }

  /** `load_versions()`: the decoded file, `None` when it does not exist; an
      empty (or otherwise falsy) document counts as an empty mapping. */
  function LoadVersions(loaded: Option<Json>): (j: Json)
    ensures loaded.None? ==> j == Obj([])
    ensures loaded.Some? && !Truthy(loaded.value) ==> j == Obj([])
    ensures loaded.Some? && Truthy(loaded.value) ==> j == loaded.value
  {
    if loaded.None? || !Truthy(loaded.value) then Obj([]) else loaded.value
  }

  /** What `main` writes back, and the number it reports as
      `new_files_added`. */
  datatype Seeded = Seeded(data: Entries, added: nat)

  /** `main()` from loading the file to writing it: `Err` names the
      exception raised when the document or its `files` value is not a
      mapping. */
  function Init(loaded: Option<Json>, walk: seq<seq<string>>): (r: Result<Seeded, string>)
    ensures var data := LoadVersions(loaded);
      r.Ok? ==> data.Obj? && Has(r.value.data, ProjectKey) && Has(r.value.data, FilesKey)
    ensures var data := LoadVersions(loaded);
      r.Ok? && Has(data.entries, ProjectKey) ==> Get(r.value.data, ProjectKey) == Get(data.entries, ProjectKey)
    ensures var data := LoadVersions(loaded);
      r.Ok? && !Has(data.entries, ProjectKey) ==> Get(r.value.data, ProjectKey) == Str(DefaultProjectVersion)
    ensures var data := LoadVersions(loaded);
      r.Ok? ==> forall k :: k != ProjectKey && k != FilesKey ==> Get(r.value.data, k) == Get(data.entries, k)
    ensures var data := LoadVersions(loaded);
      r.Ok? ==>
        var before := GetOr(data.entries, FilesKey, Obj([]));
        var after := Get(r.value.data, FilesKey);
        && before.Obj? && after.Obj?
        && |after.entries| == |before.entries| + r.value.added
        && after.entries[..|before.entries|] == before.entries
        && (forall k :: Has(after.entries, k) <==> Has(before.entries, k) || k in TrackedPaths(walk))
        && (forall k :: k in TrackedPaths(walk) && !Has(before.entries, k) ==>
              Get(after.entries, k) == Str(DefaultFileVersion))
  {
    var data := LoadVersions(loaded);
    if !data.Obj? then Err("TypeError")
    else
      var withProject :=
        if Has(data.entries, ProjectKey) then data.entries
        else Set(data.entries, ProjectKey, Str(DefaultProjectVersion));
      var files := GetOr(withProject, FilesKey, Obj([]));
      assert files == GetOr(data.entries, FilesKey, Obj([]));
      if !files.Obj? then Err("TypeError")
      else
        var merged := AddNew(files.entries, TrackedPaths(walk));
        AddNewFacts(files.entries, TrackedPaths(walk));
        Ok(Seeded(Set(withProject, FilesKey, Obj(merged.0)), merged.1))
  }
}

=== FILE: json.dfy ===
/** A decoded JSON value as the connectors see it after `json.loads`: objects
    keep their entries in iteration order, because several lookups return the
    first match in that order. */
module Json {
  import opened Wrappers
  import opened Strings

  datatype Json =
    | Null
    | Bool(b: bool)
    | Int(i: int)
      /** A float, kept opaque: only its Python `repr` is recorded. */
    | Float(repr: string)
    | Str(s: string)
    | Arr(items: seq<Json>)
    | Obj(entries: seq<(string, Json)>)

  /** The entries of a Python dict, in iteration order. */
  type Entries = seq<(string, Json)>

  /** Python truthiness, which decides every `a or b` chain in the source. */
  predicate Truthy(j: Json) {
    match j
    case Null => false
    case Bool(b) => b
    case Int(i) => i != 0
    case Float(r) => r != "0.0" && r != "-0.0"
    case Str(s) => |s| > 0
    case Arr(xs) => |xs| > 0
    case Obj(es) => |es| > 0
  }

  /** Python's `a or b`: the first operand when it is truthy, else the second. */
  function Or(a: Json, b: Json): (r: Json)
    ensures Truthy(a) ==> r == a
    ensures !Truthy(a) ==> r == b
  {
    if Truthy(a) then a else b
  }

  /** Index of the first entry whose key is exactly `k`. */
  function Find(es: Entries, k: string): (r: Option<nat>)
    ensures r.Some? ==> r.value < |es| && es[r.value].0 == k
    ensures r.Some? ==> forall j :: 0 <= j < r.value ==> es[j].0 != k
    ensures r.None? ==> forall j :: 0 <= j < |es| ==> es[j].0 != k
    decreases |es|
  {
    if |es| == 0 then None
    else if es[0].0 == k then Some(0)
    else match Find(es[1..], k)
      case Some(n) => Some(n + 1)
      case None => None
  }

  /** `k in d` */
  predicate Has(es: Entries, k: string) {
    Find(es, k).Some?
  }

  /** `d.get(k)`: `None` both for a missing key and for a stored `None`. */
  function Get(es: Entries, k: string): Json {
    match Find(es, k)
    case Some(n) => es[n].1
    case None => Null
  }

  /** `d.get(k, default)`: the default only when the key is absent. */
  function GetOr(es: Entries, k: string, default: Json): (r: Json)
    ensures Has(es, k) ==> r == Get(es, k)
    ensures !Has(es, k) ==> r == default
  {
    match Find(es, k)
    case Some(n) => es[n].1
    case None => default
  }

  /** `d[k] = v`: replaces the value in place, or appends a new entry. */
  function Set(es: Entries, k: string, v: Json): (r: Entries)
    ensures Get(r, k) == v && Has(r, k)
    ensures forall k' :: k' != k ==> Get(r, k') == Get(es, k') && (Has(r, k') <==> Has(es, k'))
    ensures Has(es, k) ==> Keys(r) == Keys(es)
    ensures !Has(es, k) ==> r == es + [(k, v)]
  {
    match Find(es, k)
    case Some(n) =>
      var r := es[n := (k, v)];
      assert forall k' :: Find(r, k') == Find(es, k') by {
        forall k' ensures Find(r, k') == Find(es, k') { FindUpdate(es, n, v, k'); }
      }
      r
    case None =>
      FindAppend(es, k, v);
      es + [(k, v)]
  }

  lemma {:induction false} FindUpdate(es: Entries, n: nat, v: Json, k': string)
    requires n < |es|
    ensures Find(es[n := (es[n].0, v)], k') == Find(es, k')
    decreases |es|
  {
    if |es| > 0 && n > 0 {
      assert es[n := (es[n].0, v)][1..] == es[1..][n - 1 := (es[n].0, v)];
      FindUpdate(es[1..], n - 1, v, k');
    }
  }

  lemma {:induction false} FindAppend(es: Entries, k: string, v: Json)
    ensures forall k' :: k' != k ==> Find(es + [(k, v)], k') == Find(es, k')
    ensures Find(es, k).None? ==> Find(es + [(k, v)], k) == Some(|es|)
    decreases |es|
  {
    if |es| > 0 {
      assert (es + [(k, v)])[1..] == es[1..] + [(k, v)];
      FindAppend(es[1..], k, v);
    }
  }

  /** Index of the first entry whose key equals `k` after lower-casing both. */
  function CiFind(es: Entries, k: string): (r: Option<nat>)
    ensures r.Some? ==> r.value < |es| && Lower(es[r.value].0) == Lower(k)
    ensures r.Some? ==> forall j :: 0 <= j < r.value ==> Lower(es[j].0) != Lower(k)
    ensures r.None? ==> forall j :: 0 <= j < |es| ==> Lower(es[j].0) != Lower(k)
    decreases |es|
  {
    if |es| == 0 then None
    else if Lower(es[0].0) == Lower(k) then Some(0)
    else match CiFind(es[1..], k)
      case Some(n) => Some(n + 1)
      case None => None
  }

  /** `_ci_get(d, key)`: the value under the first key that equals `key`
      ignoring ASCII case, `None` when there is none. */
  function CiGet(es: Entries, k: string): (v: Json)
    ensures CiFind(es, k).None? ==> v == Null
    ensures CiFind(es, k).Some? ==> v == es[CiFind(es, k).value].1
  {
    match CiFind(es, k)
    case Some(n) => es[n].1
    case None => Null
  }

  /** The keys of a dict, in order. */
  function Keys(es: Entries): (r: seq<string>)
    ensures |r| == |es| && forall i :: 0 <= i < |es| ==> r[i] == es[i].0
  {
    seq(|es|, i requires 0 <= i < |es| => es[i].0)
  }

  /** Python `str()` of a scalar that is not a string. */
  function ScalarStr(j: Json): string
    requires !j.Str? && !j.Arr? && !j.Obj?
  {
    match j
    case Null => "None"
    case Bool(b) => if b then "True" else "False"
    case Int(i) => IntToString(i)
    case Float(r) => r
  }

  /** Python `repr()`, with string quoting simplified to plain single quotes. */
  function Repr(j: Json): string
    decreases j
  {
    match j
    case Str(s) => "'" + s + "'"
    case Arr(xs) =>
      "[" + Join(seq(|xs|, i requires 0 <= i < |xs| => Repr(xs[i])), ", ") + "]"
    case Obj(es) =>
      "{" + Join(seq(|es|, i requires 0 <= i < |es| => EntryRepr(es, i)), ", ") + "}"
    case _ => ScalarStr(j)
  }

  function EntryRepr(es: Entries, i: nat): string
    requires i < |es|
    decreases es, 0
  {
    assert es[i].1 < es[i];
    "'" + es[i].0 + "': " + Repr(es[i].1)
  }

  /** Python `str()` */
  function PyStr(j: Json): string {
    match j
    case Str(s) => s
    case Arr(_) => Repr(j)
    case Obj(_) => Repr(j)
    case _ => ScalarStr(j)
  }

  /** Every item of a batch is a dict. */
  predicate AllObjects(items: seq<Json>) {
    forall k :: 0 <= k < |items| ==> items[k].Obj?
  }

  /** A non-empty batch is all dicts when its head is one and its tail is
      all dicts. */
  lemma AllObjectsCons(items: seq<Json>)
    requires |items| > 0
    ensures AllObjects(items) <==> items[0].Obj? && AllObjects(items[1..])
  {
    assert forall k :: 1 <= k < |items| ==> items[k] == items[1..][k - 1];
  }
}

=== FILE: ohgo_ingest.dfy ===
/** The duplicate-safe upserts of the OHGO connector. Every item commits on
    its own, so the ingest is a left fold of one step per item over the
    `incidents` table and an (inserted, updated, skipped) tally. A concurrent
    writer is not modelled; instead each insert's outcome is an input: it
    either succeeds or hits the unique-uuid constraint because another
    session committed a row with the same uuid first. */
module OhgoIngest {
  import opened Wrappers
  import opened Strings
  import opened Json
  import opened Fields
  import opened Store
  import opened Shape

  /** `str(item.get("id") or item.get("eventId") or item.get("uuid") or "")` */
  function SourceEventId(item: Entries): string {
    PyStr(Or(Get(item, "id"), Or(Get(item, "eventId"), Or(Get(item, "uuid"), Str("")))))
  }

  /** The uuid an unmatched item is inserted under. */
  function NewUuid(sid: string): string {
    "ohgo:" + sid
  }

  /** `list(dict.fromkeys(xs))`: duplicates dropped, first occurrences kept
      in order. */
  function Dedupe(xs: seq<string>): (r: seq<string>)
    ensures forall x :: x in r <==> x in xs
    ensures forall i, j :: 0 <= i < j < |r| ==> r[i] != r[j]
    ensures |xs| > 0 ==> |r| > 0 && r[0] == xs[0]
    decreases |xs|
  {
    if |xs| == 0 then []
    else
      var d := Dedupe(xs[..|xs| - 1]);
      assert forall x :: x in xs <==> x in xs[..|xs| - 1] || x == xs[|xs| - 1] by {
        assert xs == xs[..|xs| - 1] + [xs[|xs| - 1]];
      }
      if xs[|xs| - 1] in d then d
      else
        assert |xs| > 1 ==> |d| > 0;
        d + [xs[|xs| - 1]]
  }

  /** `_uuid_candidates(source_event_id, item_uuid)`: the item's own uuid,
      then the event id, then the uuid an insert would use. */
  function UuidCandidates(sid: string, itemUuid: Json): (c: seq<string>)
    ensures forall u :: u in c <==>
      (Truthy(itemUuid) && u == PyStr(itemUuid)) || (sid != "" && (u == sid || u == NewUuid(sid)))
    ensures forall i, j :: 0 <= i < j < |c| ==> c[i] != c[j]
    ensures Truthy(itemUuid) ==> |c| > 0 && c[0] == PyStr(itemUuid)
    ensures !Truthy(itemUuid) && sid != "" ==> c == [sid, NewUuid(sid)]
  {
    var own := if Truthy(itemUuid) then [PyStr(itemUuid)] else [];
    var ids := if sid != "" then [sid, NewUuid(sid)] else [];
    assert !Truthy(itemUuid) && sid != "" ==> Dedupe(own + ids) == [sid, NewUuid(sid)] by {
      if !Truthy(itemUuid) && sid != "" {
        assert sid != NewUuid(sid) by { assert |NewUuid(sid)| == |sid| + 5; }
        assert own + ids == ids && ids[..1] == [sid];
      }
    }
    Dedupe(own + ids)
  }

  /** The exact candidate list in each case the dedupe distinguishes. */
  lemma UuidCandidatesCases(sid: string, itemUuid: Json)
    requires sid != "" && Truthy(itemUuid)
    ensures var u := PyStr(itemUuid); var c := UuidCandidates(sid, itemUuid);
      && (u == sid ==> c == [sid, NewUuid(sid)])
      && (u == NewUuid(sid) ==> c == [NewUuid(sid), sid])
      && (u != sid && u != NewUuid(sid) ==> c == [u, sid, NewUuid(sid)])
  {
    var u := PyStr(itemUuid);
    var n := NewUuid(sid);
    assert sid != n by { assert |n| == |sid| + 5; }
    assert [u] + [sid, n] == [u, sid, n];
    Dedupe3(u, sid, n);
  }

  /** Deduplicating three values, the last two distinct. */
  lemma Dedupe3(a: string, b: string, c: string)
    requires b != c
    ensures Dedupe([a, b, c]) == if a == b then [b, c] else if a == c then [c, b] else [a, b, c]
  {
    Dedupe2(a, b);
    DedupeSnoc([a, b], c);
    assert [a, b] + [c] == [a, b, c];
  }

  /** Deduplicating two values. */
  lemma Dedupe2(a: string, b: string)
    ensures Dedupe([a, b]) == if a == b then [a] else [a, b]
  {
    DedupeSnoc([], a);
    assert [] + [a] == [a];
    DedupeSnoc([a], b);
    assert [a] + [b] == [a, b];
  }

  /** Appending a value keeps the deduplicated prefix and adds the value
      unless it was already seen. */
  lemma DedupeSnoc(xs: seq<string>, x: string)
    ensures Dedupe(xs + [x]) == if x in Dedupe(xs) then Dedupe(xs) else Dedupe(xs) + [x]
  {
    assert (xs + [x])[..|xs|] == xs;
  }

  /** The lookup filter: a row matches when its uuid is a candidate, or when
      it is an OHGO row with the same source event id. */
  predicate Matches(r: Row, cands: seq<string>, sid: string) {
    r.uuid in cands || (r.sourceSystem == "OHGO" && r.sourceEventId == Some(sid))
  }

  function MatchesFor(cands: seq<string>, sid: string): Row -> bool {
    (r: Row) => Matches(r, cands, sid)
  }

  function Lookup(t: Table, cands: seq<string>, sid: string): Option<nat> {
    FirstIndex(t, MatchesFor(cands, sid))
  }

  /** The `common` dict built from one item. */
  function ItemCommon(env: Oracles, item: Entries, sid: string): (c: Common)
    ensures c.sourceSystem == "OHGO" && c.sourceEventId == sid
    ensures c.direction == Clip(Get(item, "direction"), DirectionWidth)
  {
    Common("OHGO", sid, TextCol(Or(Get(item, "state"), Str("OH"))), TextCol(Get(item, "route")),
           TextCol(Get(item, "routeClass")), Clip(Get(item, "direction"), DirectionWidth),
           Get(item, "latitude"), Get(item, "longitude"),
           ParseDtAny(env, Get(item, "reportedTime")), ParseDtAny(env, Get(item, "updatedTime")),
           ParseDtAny(env, Get(item, "clearedTime")), BoolCol(Get(item, "isActive")),
           TextCol(Get(item, "eventType")), TextCol(Get(item, "lanesAffected")),
           TextCol(Get(item, "closureStatus")), TextCol(Get(item, "severityFlag")),
           ScoreCol(env, Get(item, "severityScore")))
  }

  /** `_apply_common(existing, common, item)`: every `common` column, the
      source url and the raw blob are overwritten; uuid, county and milepost
      are kept. */
  function Refresh(r: Row, c: Common, item: Entries): (r': Row)
    ensures CommonOf(r') == c && r'.sourceEventId == Some(c.sourceEventId)
    ensures r'.sourceUrl == TextCol(Get(item, "url")) && r'.rawBlob == Obj(item)
    ensures r'.uuid == r.uuid && r'.county == r.county && r'.milepost == r.milepost
  {
    ApplyCommon(r, c).(sourceUrl := TextCol(Get(item, "url")), rawBlob := Obj(item))
  }

  /** How the commit of a new row went. `Conflict` is the `IntegrityError` of
      a concurrent insert; `rival` is the row the retry lookup can see, if it
      is still there. */
  datatype InsertOutcome = Inserted | Conflict(rival: Option<Row>)

  datatype State = State(table: Table, tally: Tally)

  /** `table` extends `t0`: no row disappears and every row keeps its uuid. */
  predicate Extends(t0: Table, table: Table) {
    |t0| <= |table| && forall i :: 0 <= i < |t0| ==> table[i].uuid == t0[i].uuid
  }

  function Skip(s: State): State {
    s.(tally := s.tally.(skipped := s.tally.skipped + 1))
  }

  function UpdateAt(s: State, i: nat, c: Common, item: Entries): (s': State)
    requires i < |s.table|
    ensures Extends(s.table, s'.table) && |s'.table| == |s.table|
    ensures s'.table[i] == Refresh(s.table[i], c, item)
    ensures forall j :: 0 <= j < |s.table| && j != i ==> s'.table[j] == s.table[j]
    ensures UniqueUuids(s.table) ==> UniqueUuids(s'.table)
    ensures s'.tally == s.tally.(updated := s.tally.updated + 1)
  {
    State(s.table[i := Refresh(s.table[i], c, item)], s.tally.(updated := s.tally.updated + 1))
  }

  /** An item no row matches: insert it under `ohgo:<id>`, or, when that
      insert collides, retry the lookup with the new uuid added. */
  function InsertOrRetry(s: State, it: Entries, sid: string, cands: seq<string>, c: Common,
                         outcome: InsertOutcome): (s': State)
    requires NewUuid(sid) in cands && Lookup(s.table, cands, sid).None?
    ensures s'.tally.Total() == s.tally.Total() + 1
    ensures Extends(s.table, s'.table)
    ensures UniqueUuids(s.table) ==> UniqueUuids(s'.table)
  {
    assert !HasUuid(s.table, NewUuid(sid));
    match outcome
    case Inserted =>
      var row := NewRow(NewUuid(sid), c, TextCol(Get(it, "url")), None, Null, Obj(it));
      State(s.table + [row], s.tally.(inserted := s.tally.inserted + 1))
    case Conflict(None) => Skip(s)
    case Conflict(Some(rival)) =>
      var t2 := s.table + [rival.(uuid := NewUuid(sid))];
      var s2 := State(t2, s.tally);
      match Lookup(t2, cands + [NewUuid(sid)], sid)
      case Some(j) => UpdateAt(s2, j, c, it)
      case None => Skip(s2)
  }

  /** One iteration of the `ingest_ohgo_incidents` loop. */
  function Step(env: Oracles, s: State, item: Json, outcome: InsertOutcome): (s': State)
    ensures s'.tally.Total() == s.tally.Total() + 1
    ensures Extends(s.table, s'.table)
    ensures UniqueUuids(s.table) ==> UniqueUuids(s'.table)
    ensures !item.Obj? || SourceEventId(item.entries) == "" ==> s' == Skip(s)
  {
    if !item.Obj? then Skip(s)
    else
      var it := item.entries;
      var sid := SourceEventId(it);
      if sid == "" then Skip(s)
      else
        var cands := UuidCandidates(sid, Get(it, "uuid"));
        var c := ItemCommon(env, it, sid);
        match Lookup(s.table, cands, sid)
        case Some(i) => UpdateAt(s, i, c, it)
        case None => InsertOrRetry(s, it, sid, cands, c, outcome)
  }

  /** `items[i]`'s insert outcome; a missing entry means the insert went
      through. */
  function OutcomeAt(outs: seq<InsertOutcome>, i: nat): InsertOutcome {
    if i < |outs| then outs[i] else Inserted
  }

  /** The whole loop, as a left fold of `Step`. */
  function Run(env: Oracles, s: State, items: seq<Json>, outs: seq<InsertOutcome>): (s': State)
    ensures s'.tally.Total() == s.tally.Total() + |items|
    ensures Extends(s.table, s'.table)
    ensures UniqueUuids(s.table) ==> UniqueUuids(s'.table)
    decreases |items|
  {
    if |items| == 0 then s
    else
      var next := Step(env, s, items[0], OutcomeAt(outs, 0));
      Run(env, next, items[1..], if |outs| > 0 then outs[1..] else [])
  }

  /** `ingest_ohgo_incidents(db, items, return_detail)`: the table afterwards
      and the return value. Every item is counted exactly once, no row is
      lost, and the uuid constraint keeps holding. */
  function IngestIncidents(env: Oracles, table: Table, items: seq<Json>, outs: seq<InsertOutcome>,
                           returnDetail: bool): (r: (Table, Outcome))
    ensures var s := Run(env, State(table, Tally(0, 0, 0)), items, outs);
      && r.0 == s.table
      && s.tally.inserted + s.tally.updated + s.tally.skipped == |items|
      && r.1 == Report(s.tally, returnDetail)
    ensures Extends(table, r.0)
    ensures UniqueUuids(table) ==> UniqueUuids(r.0)
  {
    var s := Run(env, State(table, Tally(0, 0, 0)), items, outs);
    (s.table, Report(s.tally, returnDetail))
  }

  /** A matched item overwrites the first matching row's `common` columns,
      source url and raw blob; nothing else in the table changes and the
      item counts as updated. */
  lemma StepUpdatesMatch(env: Oracles, s: State, it: Entries, outcome: InsertOutcome)
    requires SourceEventId(it) != ""
    requires Lookup(s.table, UuidCandidates(SourceEventId(it), Get(it, "uuid")), SourceEventId(it)).Some?
    ensures var sid := SourceEventId(it);
      var i := Lookup(s.table, UuidCandidates(sid, Get(it, "uuid")), sid).value;
      var s' := Step(env, s, Obj(it), outcome);
      && |s'.table| == |s.table|
      && s'.table[i] == Refresh(s.table[i], ItemCommon(env, it, sid), it)
      && (forall j :: 0 <= j < |s.table| && j != i ==> s'.table[j] == s.table[j])
      && s'.tally == s.tally.(updated := s.tally.updated + 1)
  {
  }

  /** An unmatched item whose insert commits adds one row under `ohgo:<id>`,
      a uuid no row had before. */
  lemma StepInsertsNew(env: Oracles, s: State, it: Entries)
    requires SourceEventId(it) != ""
    requires Lookup(s.table, UuidCandidates(SourceEventId(it), Get(it, "uuid")), SourceEventId(it)).None?
    ensures var sid := SourceEventId(it);
      var s' := Step(env, s, Obj(it), Inserted);
      && !HasUuid(s.table, NewUuid(sid))
      && s'.table == s.table + [NewRow(NewUuid(sid), ItemCommon(env, it, sid), TextCol(Get(it, "url")), None, Null, Obj(it))]
      && s'.tally == s.tally.(inserted := s.tally.inserted + 1)
  {
    var sid := SourceEventId(it);
    assert NewUuid(sid) in UuidCandidates(sid, Get(it, "uuid"));
  }

  /** When the insert collides with a row another session committed under
      the same uuid, the retry lookup finds that row and the item is counted
      as updated; the row then carries this item's data. */
  lemma {:induction false} ConflictRecovers(env: Oracles, s: State, it: Entries, rival: Row)
    requires SourceEventId(it) != ""
    requires Lookup(s.table, UuidCandidates(SourceEventId(it), Get(it, "uuid")), SourceEventId(it)).None?
    ensures var sid := SourceEventId(it);
      var s' := Step(env, s, Obj(it), Conflict(Some(rival)));
      && |s'.table| == |s.table| + 1
      && s'.table[..|s.table|] == s.table
      && s'.table[|s.table|] == Refresh(rival.(uuid := NewUuid(sid)), ItemCommon(env, it, sid), it)
      && s'.tally == s.tally.(updated := s.tally.updated + 1)
  {
    var sid := SourceEventId(it);
    var cands := UuidCandidates(sid, Get(it, "uuid"));
    var c := ItemCommon(env, it, sid);
    assert NewUuid(sid) in cands;
    assert Step(env, s, Obj(it), Conflict(Some(rival))) == InsertOrRetry(s, it, sid, cands, c, Conflict(Some(rival)));
    RetryUpdates(s, it, sid, cands, c, rival);
  }

  /** The collision branch: the rival row, filed under the new uuid, is
      found by the retry and refreshed from the item. */
  lemma RetryUpdates(s: State, it: Entries, sid: string, cands: seq<string>, c: Common, rival: Row)
    requires NewUuid(sid) in cands && Lookup(s.table, cands, sid).None?
    ensures var s' := InsertOrRetry(s, it, sid, cands, c, Conflict(Some(rival)));
      && |s'.table| == |s.table| + 1
      && s'.table[..|s.table|] == s.table
      && s'.table[|s.table|] == Refresh(rival.(uuid := NewUuid(sid)), c, it)
      && s'.tally == s.tally.(updated := s.tally.updated + 1)
  {
    RetryFindsRival(s.table, rival, cands, sid);
    var t2 := s.table + [rival.(uuid := NewUuid(sid))];
    var s' := InsertOrRetry(s, it, sid, cands, c, Conflict(Some(rival)));
    assert s' == UpdateAt(State(t2, s.tally), |s.table|, c, it);
    assert forall j :: 0 <= j < |s.table| ==> s'.table[j] == t2[j] == s.table[j];
  }

  /** The retry lookup, with the new uuid added to the candidates, finds the
      rival row when nothing matched before. */
  lemma RetryFindsRival(t: Table, rival: Row, cands: seq<string>, sid: string)
    requires NewUuid(sid) in cands && Lookup(t, cands, sid).None?
    ensures Lookup(t + [rival.(uuid := NewUuid(sid))], cands + [NewUuid(sid)], sid) == Some(|t|)
  {
    var t2 := t + [rival.(uuid := NewUuid(sid))];
    var c2 := cands + [NewUuid(sid)];
    assert NewUuid(sid) in c2;
    assert MatchesFor(c2, sid)(t2[|t|]);
    forall j | 0 <= j < |t| ensures !MatchesFor(c2, sid)(t2[j]) {
      assert t2[j] == t[j] && !MatchesFor(cands, sid)(t[j]);
    }
  }

  /** Seeing the same record twice: the first sighting inserts it, the
      second finds the inserted row and updates it in place. */
  lemma {:induction false} SecondSightingUpdates(env: Oracles, s: State, it: Entries, outcome: InsertOutcome)
    requires SourceEventId(it) != ""
    requires Lookup(s.table, UuidCandidates(SourceEventId(it), Get(it, "uuid")), SourceEventId(it)).None?
    ensures var s1 := Step(env, s, Obj(it), Inserted);
      var s2 := Step(env, s1, Obj(it), outcome);
      && |s2.table| == |s1.table| == |s.table| + 1
      && s2.tally == s.tally.(inserted := s.tally.inserted + 1, updated := s.tally.updated + 1)
  {
    var sid := SourceEventId(it);
    var cands := UuidCandidates(sid, Get(it, "uuid"));
    StepInsertsNew(env, s, it);
    var s1 := Step(env, s, Obj(it), Inserted);
    assert s1.table[|s.table|].uuid == NewUuid(sid);
    assert Matches(s1.table[|s.table|], cands, sid);
    assert Lookup(s1.table, cands, sid).Some?;
    StepUpdatesMatch(env, s1, it, outcome);
  }

  // ---- roads ----------------------------------------------------------------

  /** `str(item.get("id") or item.get("roadId"))`: `"None"` when both are
      missing. */
  function RoadId(item: Entries): string {
    PyStr(Or(Get(item, "id"), Get(item, "roadId")))
  }

  /** The `roads` row an item describes. */
  function RoadOf(env: Oracles, item: Entries, roadId: string): (r: Road)
    ensures r.sourceSystem == "OHGO" && r.roadId == roadId
    ensures r.direction == Clip(Get(item, "direction"), RoadDirectionWidth)
    ensures r.beginMile == Or(Get(item, "beginMile"), Get(item, "beginMilepost"))
    ensures r.endMile == Or(Get(item, "endMile"), Get(item, "endMilepost"))
  {
    Road("OHGO", roadId, TextCol(Get(item, "name")), TextCol(Get(item, "description")),
         Clip(Get(item, "direction"), RoadDirectionWidth),
         Or(Get(item, "beginMile"), Get(item, "beginMilepost")),
         Or(Get(item, "endMile"), Get(item, "endMilepost")),
         Get(item, "length"), Get(item, "geometry"), ParseDtAny(env, Get(item, "lastUpdated")))
  }

  /** The road's direction fits the `roads.direction` column. */
  predicate RoadDirectionFits(r: Road) {
    r.direction.None? || |r.direction.value| <= RoadDirectionWidth
  }

  /** The upsert of one road: the row replaces the road with its key, or is
      appended when there is none. */
  function UpsertRoad(roads: seq<Road>, row: Road): (r: seq<Road>)
    requires UniqueRoadKeys(roads)
    ensures UniqueRoadKeys(r)
    ensures |r| == |roads| + (if FindRoad(roads, row.sourceSystem, row.roadId).Some? then 0 else 1)
    ensures forall i :: 0 <= i < |r| ==> (i < |roads| && r[i] == roads[i]) || r[i] == row
    ensures forall i :: 0 <= i < |roads| ==> (r[i].sourceSystem, r[i].roadId) == (roads[i].sourceSystem, roads[i].roadId)
    ensures row in r
  {
    match FindRoad(roads, row.sourceSystem, row.roadId)
    case Some(i) => roads[i := row]
    case None => roads + [row]
  }

  /** `ingest_ohgo_roads(db, items)`: non-dict items are passed over without
      being counted; every dict is upserted by `("OHGO", road id)` and
      committed, and counted. */
  function IngestRoads(env: Oracles, roads: seq<Road>, items: seq<Json>): (r: (seq<Road>, nat))
    requires UniqueRoadKeys(roads)
    ensures r.1 == |DictsOf(items)|
    ensures UniqueRoadKeys(r.0)
    ensures |r.0| >= |roads|
    ensures forall i :: 0 <= i < |r.0| ==> (i < |roads| && r.0[i] == roads[i]) || RoadDirectionFits(r.0[i])
    ensures forall i :: 0 <= i < |roads| ==> (r.0[i].sourceSystem, r.0[i].roadId) == (roads[i].sourceSystem, roads[i].roadId)
    ensures forall k :: 0 <= k < |items| && items[k].Obj? ==> FindRoad(r.0, "OHGO", RoadId(items[k].entries)).Some?
    decreases |items|
  {
    if |items| == 0 then (roads, 0)
    else if !items[0].Obj? then
      assert DictsOf(items) == DictsOf(items[1..]);
      IngestRoads(env, roads, items[1..])
    else
      var it := items[0].entries;
      var row := RoadOf(env, it, RoadId(it));
      var next := UpsertRoad(roads, row);
      var rest := IngestRoads(env, next, items[1..]);
      assert |DictsOf(items)| == 1 + |DictsOf(items[1..])|;
      assert forall k :: 0 <= k < |items| && items[k].Obj? ==> FindRoad(rest.0, "OHGO", RoadId(items[k].entries)).Some? by {
        forall k | 0 <= k < |items| && items[k].Obj?
          ensures FindRoad(rest.0, "OHGO", RoadId(items[k].entries)).Some?
        {
          if k == 0 {
            var j :| 0 <= j < |next| && next[j] == row;
            FindRoadSome(rest.0, j, "OHGO", RoadId(it));
          } else {
            assert items[k] == items[1..][k - 1];
          }
        }
      }
      (rest.0, rest.1 + 1)
  }

  /** A loaded road that no dict item names comes out of the ingest
      unchanged. */
  lemma {:induction false} IngestRoadsKeeps(env: Oracles, roads: seq<Road>, items: seq<Json>, j: nat)
    requires UniqueRoadKeys(roads) && j < |roads|
    requires forall m :: 0 <= m < |items| && items[m].Obj? ==>
      ("OHGO", RoadId(items[m].entries)) != (roads[j].sourceSystem, roads[j].roadId)
    ensures IngestRoads(env, roads, items).0[j] == roads[j]
    decreases |items|
  {
    if |items| > 0 {
      assert forall m :: 1 <= m < |items| ==> items[m] == items[1..][m - 1];
      if items[0].Obj? {
        var it := items[0].entries;
        var row := RoadOf(env, it, RoadId(it));
        var next := UpsertRoad(roads, row);
        assert next[j] != row by {
          assert (next[j].sourceSystem, next[j].roadId) == (roads[j].sourceSystem, roads[j].roadId);
        }
        IngestRoadsKeeps(env, next, items[1..], j);
      } else {
        IngestRoadsKeeps(env, roads, items[1..], j);
      }
    }
  }

  /** The road under a dict item's key is the one built from that item when
      no later dict item names the same key: the last write wins. */
  lemma {:induction false} IngestRoadsLastWins(env: Oracles, roads: seq<Road>, items: seq<Json>, k: nat)
    requires UniqueRoadKeys(roads) && k < |items| && items[k].Obj?
    requires forall m :: k < m < |items| && items[m].Obj? ==>
      RoadId(items[m].entries) != RoadId(items[k].entries)
    ensures var r := IngestRoads(env, roads, items).0;
      var i := FindRoad(r, "OHGO", RoadId(items[k].entries));
      i.Some? && r[i.value] == RoadOf(env, items[k].entries, RoadId(items[k].entries))
    decreases |items|
  {
    assert forall m :: 1 <= m < |items| ==> items[m] == items[1..][m - 1];
    if k == 0 {
      var it := items[0].entries;
      var row := RoadOf(env, it, RoadId(it));
      var next := UpsertRoad(roads, row);
      var j :| 0 <= j < |next| && next[j] == row;
      IngestRoadsKeeps(env, next, items[1..], j);
      var r := IngestRoads(env, roads, items).0;
      assert r == IngestRoads(env, next, items[1..]).0;
      FindRoadAt(r, j);
    } else if items[0].Obj? {
      var it := items[0].entries;
      IngestRoadsLastWins(env, UpsertRoad(roads, RoadOf(env, it, RoadId(it))), items[1..], k - 1);
    } else {
      IngestRoadsLastWins(env, roads, items[1..], k - 1);
    }
  }
}

=== FILE: ohgo_normalize.dfy ===
/** Record normalization of the OHGO connector: the heuristics that derive an
    active flag and a severity from loosely populated fields, and the mapping
    of a GeoJSON Feature (section 3.2 of RFC 7946) or a flat API record onto
    one normalized incident record. */
module OhgoNormalize {
  import opened Wrappers
  import opened Strings
  import opened Json
  import opened Fields
  import opened Shape

  /** A score table, in the dict's iteration order. */
  type Table = seq<(string, int)>

  const TextScores: Table :=
    [("severe", 3), ("major", 3), ("high", 3), ("moderate", 2), ("medium", 2), ("minor", 1), ("low", 1)]

  const StatusScores: Table :=
    [("closed", 3), ("restricted", 2), ("incident", 2), ("delay", 2), ("active", 2),
     ("open", 1), ("cleared", 1), ("completed", 1), ("ended", 1)]

  const CategoryScores: Table :=
    [("crash", 3), ("accident", 3), ("work zone", 2), ("construction", 2), ("maintenance", 1),
     ("repairs/maintenance", 1), ("disabled vehicle", 1), ("hazard", 2)]

  /** Statuses that mark an incident as over. */
  const EndedStatuses: set<string> := {"cleared", "completed", "ended"}

  predicate ScoresInRange(t: Table) {
    forall i :: 0 <= i < |t| ==> 1 <= t[i].1 <= 3
  }

  lemma TablesInRange()
    ensures ScoresInRange(TextScores) && ScoresInRange(StatusScores) && ScoresInRange(CategoryScores)
  {
  }

  /** `table.get(k)` */
  function Lookup(t: Table, k: string): (r: Option<int>)
    ensures r.Some? <==> exists i :: 0 <= i < |t| && t[i].0 == k
    ensures r.Some? ==> exists i :: 0 <= i < |t| && t[i] == (k, r.value)
  {
    match FirstIndex(t, (e: (string, int)) => e.0 == k)
    case None => None
    case Some(i) => Some(t[i].1)
  }

  /** `table.get(k)` is the value at the first entry keyed `k`. */
  lemma LookupFirst(t: Table, k: string, i: nat)
    requires i < |t| && t[i].0 == k && forall j :: 0 <= j < i ==> t[j].0 != k
    ensures Lookup(t, k) == Some(t[i].1)
  {
    var f := FirstIndex(t, (e: (string, int)) => e.0 == k);
    assert f.Some?;
  }

  /** Index of the first table key that occurs inside `c`. */
  function FirstContained(t: Table, c: string): (r: Option<nat>)
    ensures r.Some? ==> r.value < |t| && Contains(c, t[r.value].0)
    ensures r.Some? ==> forall j :: 0 <= j < r.value ==> !Contains(c, t[j].0)
    ensures r.None? ==> forall j :: 0 <= j < |t| ==> !Contains(c, t[j].0)
    decreases |t|
  {
    if |t| == 0 then None
    else if Contains(c, t[0].0) then Some(0)
    else match FirstContained(t[1..], c)
      case Some(n) => Some(n + 1)
      case None => None
  }

  /** `str(v).strip().lower()`, the normal form every table is keyed by. */
  function Key(v: Json): string {
    Lower(Strip(PyStr(v)))
  }

  /** `_derive_is_active(is_active, cleared_time, end_time, status)`. The
      result is a `bool`, never `None`. */
  function DeriveIsActive(isActive: Json, cleared: Json, end: Json, status: Json): (r: bool)
    ensures isActive.Bool? ==> r == isActive.b
    ensures !isActive.Bool? && (Truthy(cleared) || Truthy(end)) ==> !r
    ensures !isActive.Bool? && !Truthy(cleared) && !Truthy(end) ==>
      (r <==> !(Truthy(status) && Key(status) in EndedStatuses))
  {
    if isActive.Bool? then isActive.b
    else if Truthy(cleared) || Truthy(end) then false
    else if Truthy(status) then
      var s := Key(status);
      if s in EndedStatuses then false
      else true
    else true
  }

  /** The statuses `_derive_is_active` treats as inactive are exactly the
      status-table entries that score 1 apart from `open`. */
  lemma EndedStatusesInTable()
    ensures forall s :: s in EndedStatuses <==> s != "open" && Lookup(StatusScores, s) == Some(1)
  {
    forall s ensures s in EndedStatuses <==> s != "open" && Lookup(StatusScores, s) == Some(1) {
      if s in EndedStatuses {
        EndedStatusScore(s);
      } else if s != "open" && Lookup(StatusScores, s) == Some(1) {
        ScoreOneEnded(s);
      }
    }
  }

  lemma ScoreOneEnded(s: string)
    requires s != "open" && Lookup(StatusScores, s) == Some(1)
    ensures s in EndedStatuses
  {
    var t := StatusScores;
    var j :| 0 <= j < |t| && t[j] == (s, 1);
    assert j in {5, 6, 7, 8};
  }

  lemma EndedStatusScore(s: string)
    requires s in EndedStatuses
    ensures Lookup(StatusScores, s) == Some(1)
  {
    var t := StatusScores;
    if s == "cleared" {
      LookupFirst(t, s, 6);
    } else if s == "completed" {
      LookupFirst(t, s, 7);
    } else {
      assert forall j :: 0 <= j < 8 ==> t[j].0 != "ended" by {
        assert t[3].0[0] == 'd';
      }
      LookupFirst(t, s, 8);
    }
  }

  /** A severity flag (passed through as given, or a title-cased status or
      category) and a score. */
  datatype Severity = Severity(flag: Json, score: Option<int>)

  /** The status rule of `_derive_severity` fires. */
  predicate StatusScored(status: Json) {
    Truthy(status) && Lookup(StatusScores, Key(status)).Some?
  }

  /** The category rule of `_derive_severity` fires. */
  predicate CategoryScored(category: Json) {
    Truthy(category) && FirstContained(CategoryScores, Key(category)).Some?
  }

  /** `_derive_severity(severity_score, severity_flag, status, category)`.
      The first rule that fits decides: an `int()`-convertible score, the
      flag's text score, the status score, the first category key the text
      contains. `severity_flag or x.title()` only calls `.title()` when the
      flag is falsy, and on a status or category that is not a string that
      call raises `AttributeError`, which is the `Err` case. */
  function DeriveSeverity(env: Oracles, score: Json, flag: Json, status: Json, category: Json): (r: Result<Severity, string>)
    ensures !score.Null? && env.toInt(score).Some? ==> r == Ok(Severity(flag, env.toInt(score)))
    ensures Truthy(flag) ==> r.Ok? && r.value.flag == flag
    ensures r.Err? <==>
      && (score.Null? || env.toInt(score).None?)
      && !Truthy(flag)
      && ((StatusScored(status) && !status.Str?) ||
          (!StatusScored(status) && CategoryScored(category) && !category.Str?))
    ensures r.Ok? && (score.Null? || env.toInt(score).None?) ==>
      if Truthy(flag) && Lookup(TextScores, Key(flag)).Some? then
        r.value.score == Lookup(TextScores, Key(flag))
      else if StatusScored(status) then
        r.value.score == Lookup(StatusScores, Key(status))
        && r.value.flag == (if Truthy(flag) then flag else Str(Title(status.s)))
      else if CategoryScored(category) then
        r.value.score == Some(CategoryScores[FirstContained(CategoryScores, Key(category)).value].1)
        && r.value.flag == (if Truthy(flag) then flag else Str(Title(category.s)))
      else r.value == Severity(flag, None)
    ensures r.Ok? && r.value.score.Some? && !(!score.Null? && env.toInt(score).Some?) ==>
      1 <= r.value.score.value <= 3
  {
    TablesInRange();
    if !score.Null? && env.toInt(score).Some? then
      Ok(Severity(flag, env.toInt(score)))
    else if Truthy(flag) && Lookup(TextScores, Key(flag)).Some? then
      Ok(Severity(flag, Lookup(TextScores, Key(flag))))
    else if StatusScored(status) then
      if Truthy(flag) then Ok(Severity(flag, Lookup(StatusScores, Key(status))))
      else if status.Str? then Ok(Severity(Str(Title(status.s)), Lookup(StatusScores, Key(status))))
      else Err("AttributeError")
    else if CategoryScored(category) then
      var k := FirstContained(CategoryScores, Key(category)).value;
      if Truthy(flag) then Ok(Severity(flag, Some(CategoryScores[k].1)))
      else if category.Str? then Ok(Severity(Str(Title(category.s)), Some(CategoryScores[k].1)))
      else Err("AttributeError")
    else
      Ok(Severity(flag, None))
  }

  /** The category rule takes the first key in table order, so an entry
      whose key contains an earlier key is never the one chosen:
      "repairs/maintenance" always yields to "maintenance". */
  lemma RepairsShadowed(c: string)
    ensures FirstContained(CategoryScores, c) != Some(5)
  {
    if Contains(c, "repairs/maintenance") {
      var i :| 0 <= i <= |c| && StartsWith(c[i..], "repairs/maintenance");
      assert c[i..][..19] == "repairs/maintenance";
      assert c[i + 8..][..11] == c[i..][..19][8..19];
      assert StartsWith(c[i + 8..], "maintenance");
    }
  }

  /** `_extract_link(item, rel)`: the `href` (or `Href`) of the first dict in
      the `links` (or `Links`) list whose `rel` (or `Rel`) equals `rel`. */
  function ExtractLink(item: Entries, rel: string): (r: Json)
    ensures r != Null ==> LinksOf(item).Arr?
  {
    var links := LinksOf(item);
    if links.Arr? then FirstLink(links.items, rel) else Null
  }

  function LinksOf(item: Entries): Json {
    Or(Get(item, "links"), Or(Get(item, "Links"), Arr([])))
  }

  predicate LinkMatches(ln: Json, rel: string) {
    ln.Obj? && Or(Get(ln.entries, "rel"), Get(ln.entries, "Rel")) == Str(rel)
  }

  function FirstLink(lns: seq<Json>, rel: string): (r: Json)
    ensures (forall i :: 0 <= i < |lns| ==> !LinkMatches(lns[i], rel)) ==> r == Null
    ensures forall i :: 0 <= i < |lns| && LinkMatches(lns[i], rel) && (forall j :: 0 <= j < i ==> !LinkMatches(lns[j], rel)) ==>
      r == Or(Get(lns[i].entries, "href"), Get(lns[i].entries, "Href"))
  {
    match FirstIndex(lns, (ln: Json) => LinkMatches(ln, rel))
    case None => Null
    case Some(k) => Or(Get(lns[k].entries, "href"), Get(lns[k].entries, "Href"))
  }

  /** The normalized incident record, one field per key of the dict the
      normalizer returns; `extra` holds the keys only flat records carry. */
  datatype Record = Record(
    uuid: Json,
    id: Json,
    state: Json,
    route: Json,
    routeClass: string,
    direction: Json,
    latitude: Json,
    longitude: Json,
    reportedTime: Json,
    updatedTime: Json,
    clearedTime: Json,
    isActive: bool,
    eventType: Json,
    lanesAffected: Json,
    closureStatus: Json,
    severityFlag: Json,
    severityScore: Option<int>,
    url: Json,
    extra: Entries)

  /** The record as the dict handed on to ingestion, keys in source order. */
  function ToEntries(r: Record): (es: Entries)
    ensures |es| == 18 + |r.extra|
  {
    [("uuid", r.uuid), ("id", r.id), ("state", r.state), ("route", r.route),
     ("routeClass", Str(r.routeClass)), ("direction", r.direction), ("latitude", r.latitude),
     ("longitude", r.longitude), ("reportedTime", r.reportedTime), ("updatedTime", r.updatedTime),
     ("clearedTime", r.clearedTime), ("isActive", Bool(r.isActive)), ("eventType", r.eventType),
     ("lanesAffected", r.lanesAffected), ("closureStatus", r.closureStatus),
     ("severityFlag", r.severityFlag),
     ("severityScore", match r.severityScore case Some(n) => Int(n) case None => Null),
     ("url", r.url)] + r.extra
  }

  /** `"INTERSTATE" if str(route or "").startswith("I-") else "STATE"` */
  function RouteClass(route: Json): (c: string)
    ensures c == "INTERSTATE" <==> StartsWith(PyStr(Or(route, Str(""))), "I-")
    ensures c == "INTERSTATE" || c == "STATE"
  {
    if StartsWith(PyStr(Or(route, Str(""))), "I-") then "INTERSTATE" else "STATE"
  }

  /** Position `k` of a GeoJSON coordinate array (section 3.1.1 of RFC 7946:
      longitude first, then latitude), or `None` when it is missing. */
  function Coord(coords: Json, k: nat): (v: Json)
    ensures coords.Arr? && k < |coords.items| ==> v == coords.items[k]
    ensures !(coords.Arr? && k < |coords.items|) ==> v == Null
  {
    if coords.Arr? && k < |coords.items| then coords.items[k] else Null
  }

  /** `_normalize_incident(item)`. A dict under `properties` selects the
      Feature branch; every other record is read as a flat API record. */
  function NormalizeIncident(env: Oracles, item: Entries): (r: Result<Record, string>)
    ensures r.Ok? ==> r.value.uuid == Get(item, "id") && r.value.id == Get(item, "id")
    ensures r.Ok? ==> r.value.url == Or(ExtractLink(item, "self"), Get(item, "url"))
    ensures Get(item, "properties").Obj? ==> r == NormalizeFeature(env, item, Get(item, "properties").entries)
    ensures !Get(item, "properties").Obj? ==> r == NormalizeFlat(env, item)
  {
    var props := Get(item, "properties");
    if props.Obj? then NormalizeFeature(env, item, props.entries) else NormalizeFlat(env, item)
  }

  /** The Feature branch: attributes come from `properties`, the position
      from `geometry.coordinates`. */
  function NormalizeFeature(env: Oracles, item: Entries, p: Entries): (r: Result<Record, string>)
    ensures r.Ok? ==> r.value.uuid == Get(item, "id") && r.value.id == Get(item, "id")
    ensures r.Ok? ==> r.value.url == Or(ExtractLink(item, "self"), Get(item, "url"))
    ensures r.Ok? ==>
      && r.value.routeClass == RouteClass(Get(p, "routeName"))
      && r.value.state == GetOr(p, "state", Str("OH"))
      && r.value.longitude == Coord(FeatureCoords(item), 0)
      && r.value.latitude == Coord(FeatureCoords(item), 1)
      && r.value.reportedTime == Get(p, "startTime")
      && r.value.clearedTime == Get(p, "endTime")
      && r.value.extra == []
    ensures var sev := DeriveSeverity(env, Get(p, "severityScore"), Get(p, "severity"),
                                      Or(Get(p, "status"), Get(p, "roadStatus")), Or(Get(p, "type"), Get(p, "category")));
      && (r.Err? <==> sev.Err?)
      && (r.Ok? ==> r.value.severityFlag == sev.value.flag && r.value.severityScore == sev.value.score)
    ensures r.Ok? ==>
      r.value.isActive == DeriveIsActive(Get(p, "isActive"), Get(p, "endTime"), Get(p, "endTime"),
                                         Or(Get(p, "status"), Get(p, "roadStatus")))
  {
    var coords := FeatureCoords(item);
    var routeName := Get(p, "routeName");
    var endTime := Get(p, "endTime");
    var status := Or(Get(p, "status"), Get(p, "roadStatus"));
    var category := Or(Get(p, "type"), Get(p, "category"));
    var isActive := DeriveIsActive(Get(p, "isActive"), endTime, endTime, status);
    match DeriveSeverity(env, Get(p, "severityScore"), Get(p, "severity"), status, category)
    case Err(e) => Err(e)
    case Ok(sev) =>
      Ok(Record(
        Get(item, "id"), Get(item, "id"), GetOr(p, "state", Str("OH")), routeName,
        RouteClass(routeName), Get(p, "direction"), Coord(coords, 1), Coord(coords, 0),
        Get(p, "startTime"), Get(p, "lastUpdated"), endTime, isActive, category,
        Get(p, "lanesAffected"), status, sev.flag, sev.score,
        Or(ExtractLink(item, "self"), Get(item, "url")), []))
  }

  /** The flat branch: every attribute is read from the record itself, with
      fall-back keys for status, category and the three times. */
  function NormalizeFlat(env: Oracles, item: Entries): (r: Result<Record, string>)
    ensures r.Ok? ==> r.value.uuid == Get(item, "id") && r.value.id == Get(item, "id")
    ensures r.Ok? ==> r.value.url == Or(ExtractLink(item, "self"), Get(item, "url"))
    ensures r.Ok? ==>
      && r.value.routeClass == RouteClass(Get(item, "routeName"))
      && r.value.state == Or(Get(item, "state"), Str("OH"))
      && r.value.latitude == Get(item, "latitude") && r.value.longitude == Get(item, "longitude")
      && r.value.clearedTime == Or(Get(item, "clearedTime"), Get(item, "endTime"))
      && Keys(r.value.extra) == ["location", "description", "roadClosureDetails"]
    ensures var sev := DeriveSeverity(env, Get(item, "severityScore"), Get(item, "severity"),
                                      Or(Get(item, "roadStatus"), Get(item, "status")), Or(Get(item, "category"), Get(item, "type")));
      && (r.Err? <==> sev.Err?)
      && (r.Ok? ==> r.value.severityFlag == sev.value.flag && r.value.severityScore == sev.value.score)
    ensures r.Ok? ==>
      r.value.isActive == DeriveIsActive(Get(item, "isActive"), Or(Get(item, "clearedTime"), Get(item, "endTime")),
                                         Or(Get(item, "clearedTime"), Get(item, "endTime")),
                                         Or(Get(item, "roadStatus"), Get(item, "status")))
  {
    var status := Or(Get(item, "roadStatus"), Get(item, "status"));
    var category := Or(Get(item, "category"), Get(item, "type"));
    var endTime := Or(Get(item, "clearedTime"), Get(item, "endTime"));
    var isActive := DeriveIsActive(Get(item, "isActive"), endTime, endTime, status);
    match DeriveSeverity(env, Get(item, "severityScore"), Get(item, "severity"), status, category)
    case Err(e) => Err(e)
    case Ok(sev) =>
      var extra := FlatExtra(item);
      Ok(Record(
        Get(item, "id"), Get(item, "id"), Or(Get(item, "state"), Str("OH")), Get(item, "routeName"),
        RouteClass(Get(item, "routeName")), Get(item, "direction"),
        Get(item, "latitude"), Get(item, "longitude"),
        Or(Get(item, "reportedTime"), Get(item, "startTime")),
        Or(Get(item, "updatedTime"), Get(item, "lastUpdated")),
        endTime, isActive, category, Get(item, "lanesAffected"), status, sev.flag, sev.score,
        Or(ExtractLink(item, "self"), Get(item, "url")), extra))
  }

  /** The three keys only a flat record carries over. */
  function FlatExtra(item: Entries): (es: Entries)
    ensures Keys(es) == ["location", "description", "roadClosureDetails"]
  {
    var es := [("location", Get(item, "location")), ("description", Get(item, "description")),
               ("roadClosureDetails", Get(item, "roadClosureDetails"))];
    assert Keys(es)[0] == "location" && Keys(es)[1] == "description" && Keys(es)[2] == "roadClosureDetails";
    es
  }

  /** `(geom or {}).get("coordinates") if isinstance(geom, dict) else None` */
  function FeatureCoords(item: Entries): Json {
    var geom := Get(item, "geometry");
    if geom.Obj? then Get(geom.entries, "coordinates") else Null
  }

  /** One record as `fetch_ohgo_incidents` emits it: normalized, then its
      direction clipped to the column width. */
  function Fetched(env: Oracles, item: Entries): (r: Result<Record, string>)
    ensures r.Ok? <==> NormalizeIncident(env, item).Ok?
    ensures r.Ok? ==> r.value == NormalizeIncident(env, item).value.(direction := r.value.direction)
    ensures r.Ok? ==> r.value.direction == OptStr(Clip(NormalizeIncident(env, item).value.direction, DirectionWidth))
  {
    match NormalizeIncident(env, item)
    case Err(e) => Err(e)
    case Ok(rec) => Ok(rec.(direction := OptStr(Clip(rec.direction, DirectionWidth))))
  }

  /** The record loop of `fetch_ohgo_incidents`: every dict is normalized and
      clipped in order; an exception from the normalizer ends the fetch. */
  function NormalizeAll(env: Oracles, items: seq<Entries>): (r: Result<seq<Record>, string>)
    ensures r.Ok? ==> |r.value| == |items|
    ensures r.Ok? ==> forall i :: 0 <= i < |items| ==> Fetched(env, items[i]) == Ok(r.value[i])
    ensures r.Err? <==> exists i :: 0 <= i < |items| && Fetched(env, items[i]).Err?
  {
    MapAll(items, (it: Entries) => Fetched(env, it))
  }

  /** Every fetched record's direction fits the `incidents.direction` column. */
  lemma FetchedDirectionFits(env: Oracles, items: seq<Entries>, i: nat)
    requires NormalizeAll(env, items).Ok? && i < |items|
    ensures var d := NormalizeAll(env, items).value[i].direction; d.Null? || (d.Str? && |d.s| <= DirectionWidth)
  {
  }
}

=== FILE: ohgo_url.dfy ===
/** URL composition of the OHGO connector (`usaccidents_app/connectors/ohio.py`):
    joining a configured base URL and a resource path without doubling the
    path, and finding the API root above a resource URL. A `None` argument
    behaves as the empty string (`base or ""`), so both are plain strings. */
module OhgoUrl {
  import opened Wrappers
  import opened Strings

  predicate HasScheme(u: string) {
    StartsWith(u, "http://") || StartsWith(u, "https://")
  }

  /** The base after trimming whitespace, with `https://` put in front when
      it names no scheme (any leading slashes are dropped first). */
  function Schemed(base: string): (b: string)
    ensures HasScheme(b)
  {
    var b := Strip(base);
    if HasScheme(b) then b
    else
      var r := "https://" + TrimLeft(b, IsSlash);
      assert r[..8] == "https://";
      r
  }

  /** The base as `_build_url` uses it: schemed, then without trailing
      slashes. Only a base with no host loses the `//` of its scheme. */
  function NormalizeBase(base: string): (r: string)
    ensures HasScheme(r) || r == "http:" || r == "https:"
    ensures r[|r| - 1] != '/'
  {
    var b := Schemed(base);
    SchemeSurvivesTrim(b);
    TrimRight(b, IsSlash)
  }

  lemma SchemeSurvivesTrim(b: string)
    requires HasScheme(b)
    ensures var r := TrimRight(b, IsSlash); |r| > 0 && (HasScheme(r) || r == "http:" || r == "https:")
  {
    var p := if StartsWith(b, "https://") then "https://" else "http://";
    assert p[|p| - 1] == '/' && p[|p| - 2] == '/' && p[|p| - 3] == ':';
    SlashesKept(b, p);
    assert p[..|p| - 2] == "http:" || p[..|p| - 2] == "https:";
  }

  /** Trimming the slashes of a text that starts with a prefix ending in
      `//` keeps the prefix, or leaves just what precedes the `//`. */
  lemma SlashesKept(b: string, p: string)
    requires |p| >= 3 && p[|p| - 1] == '/' && p[|p| - 2] == '/' && p[|p| - 3] != '/'
    requires StartsWith(b, p)
    ensures var r := TrimRight(b, IsSlash); |r| > 0 && (StartsWith(r, p) || r == p[..|p| - 2])
  {
    var r := TrimRight(b, IsSlash);
    var n := |p| - 2;
    assert b[..n] == p[..n] by { assert b[..n] == b[..|p|][..n]; }
    TrimRightKeepsPrefix(b, p[..n], IsSlash);
    assert b[n] == p[n] && b[n + 1] == p[n + 1];
    if |r| == n {
      assert r == r[..n];
    } else if |r| == n + 1 {
      assert false;
    } else {
      assert r[..|p|] == b[..|p|];
    }
  }

  /** The path as the segment to append: trimmed, with exactly one leading
      slash; empty for a blank path. */
  function Segment(path: string): (seg: string)
    ensures Strip(path) == "" <==> seg == ""
    ensures seg != "" ==> seg[0] == '/' && (|seg| == 1 || seg[1] != '/')
  {
    var p := Strip(path);
    if p == "" then "" else "/" + TrimLeft(p, IsSlash)
  }

  /** `_build_url(base, path)` */
  function BuildUrl(base: string, path: string): (r: string)
    ensures StartsWith(r, NormalizeBase(base))
    ensures Segment(path) == "" ==> r == NormalizeBase(base)
    ensures EndsWith(Lower(r), Lower(Segment(path)))
    ensures r == NormalizeBase(base) || r == NormalizeBase(base) + Segment(path)
    ensures r != NormalizeBase(base) <==> !EndsWith(Lower(NormalizeBase(base)), Lower(Segment(path)))
  {
    var b := NormalizeBase(base);
    var seg := Segment(path);
    if seg == "" then
      b
    else if EndsWith(Lower(b), Lower(seg)) then
      b
    else
      LowerAppend(b, seg);
      assert (b + seg)[..|b|] == b;
      b + seg
  }

  /** The result carries a scheme, except in the degenerate case of a base with
      no host at all, where only `http:` or `https:` survives the slash
      trimming (so `BuildUrl("", "/incidents")` is `https:/incidents`). */
  lemma BuildUrlScheme(base: string, path: string)
    ensures HasScheme(BuildUrl(base, path)) || NormalizeBase(base) in {"http:", "https:"}
  {
    var b := NormalizeBase(base);
    var r := BuildUrl(base, path);
    if HasScheme(b) {
      assert r == b || r == b + Segment(path);
      if StartsWith(b, "http://") {
        PrefixExtends(b, r[|b|..], "http://");
      } else {
        PrefixExtends(b, r[|b|..], "https://");
      }
      assert b + r[|b|..] == r;
    }
  }

  /** A base that already names its host and does not end in whitespace. */
  predicate WellFormedBase(base: string) {
    var b := NormalizeBase(base);
    HasScheme(b) && !IsSpace(b[|b| - 1])
  }

  /** A path whose trimmed form does not end in a slash. */
  predicate PlainPath(path: string) {
    var p := Strip(path);
    p == "" || p[|p| - 1] != '/'
  }

  lemma {:induction false} NormalizeFixed(u: string)
    requires HasScheme(u) && !IsSpace(u[|u| - 1]) && u[|u| - 1] != '/'
    ensures NormalizeBase(u) == u
  {
    assert !IsSpace(u[0]);
    TrimLeftNoop(u, IsSpace);
    TrimRightNoop(u, IsSpace);
    assert Strip(u) == u;
    TrimRightNoop(u, IsSlash);
  }

  lemma PrefixExtends(b: string, x: string, p: string)
    requires StartsWith(b, p)
    ensures StartsWith(b + x, p)
  {
    assert (b + x)[..|p|] == b[..|p|];
  }

  /** The segment of a plain, non-blank path is more than a slash and ends in
      a character that neither stripping nor slash-trimming removes. */
  lemma SegmentLast(path: string)
    requires Segment(path) != "" && PlainPath(path)
    ensures var seg := Segment(path);
      |seg| > 1 && !IsSpace(seg[|seg| - 1]) && seg[|seg| - 1] != '/'
  {
    var p := Strip(path);
    var t := TrimLeft(p, IsSlash);
    assert !IsSlash(p[|p| - 1]);
    assert |t| > 0;
    assert t[|t| - 1] == p[|p| - 1];
  }

  /** A URL built by appending a plain segment is its own normalized base. */
  lemma {:induction false} NormalizeAppended(b: string, seg: string)
    requires HasScheme(b) && |seg| > 0
    requires !IsSpace(seg[|seg| - 1]) && seg[|seg| - 1] != '/'
    ensures NormalizeBase(b + seg) == b + seg
  {
    var u := b + seg;
    PrefixExtends(b, seg, if StartsWith(b, "http://") then "http://" else "https://");
    assert u[|u| - 1] == seg[|seg| - 1];
    NormalizeFixed(u);
  }

  /** Building a URL from a URL this function already built, with the same
      path, changes nothing: the segment is never appended twice. */
  lemma {:induction false} BuildUrlIdempotent(base: string, path: string)
    requires WellFormedBase(base) && PlainPath(path)
    ensures BuildUrl(BuildUrl(base, path), path) == BuildUrl(base, path)
  {
    var b := NormalizeBase(base);
    var seg := Segment(path);
    var u := BuildUrl(base, path);
    NormalizeFixed(b);
    if u != b {
      assert u == b + seg && seg != "";
      SegmentLast(path);
      NormalizeAppended(b, seg);
      assert NormalizeBase(u) == u;
    }
  }

  /** The resource names `_api_root` recognises as the last path segment. */
  const KnownTails: set<string> := {
    "incidents", "roads", "construction", "digital-signs", "cameras",
    "travel-delays", "truck-parking", "weather-sensor-sites",
    "dangerous-slowdowns", "work-zones"
  }

  /** `_api_root(base)`: drops a final known resource segment. */
  function ApiRoot(base: string): (r: string)
    ensures StartsWith(TrimRight(base, IsSlash), r)
  {
    var u := TrimRight(base, IsSlash);
    match LastIndexOf(u, '/')
    case Some(k) => if Lower(u[k + 1..]) in KnownTails then u[..k] else u
    case None => u
  }

  /** A root followed by a known resource name gives back the root. */
  lemma ApiRootOfResource(root: string, tail: string)
    requires Lower(tail) in KnownTails && '/' !in tail
    ensures ApiRoot(root + "/" + tail) == root
  {
    var u := root + "/" + tail;
    var k := |root|;
    assert TrimRight(u, IsSlash) == u by {
      TailNonEmpty(tail);
      assert u[|u| - 1] == tail[|tail| - 1];
      TrimRightNoop(u, IsSlash);
    }
    assert LastIndexOf(u, '/') == Some(k) by {
      LastIndexAfter(root, '/', tail);
    }
    assert u[k + 1..] == tail && u[..k] == root;
    ApiRootAt(u, k);
  }

  /** No known resource name is empty. */
  lemma TailNonEmpty(tail: string)
    requires Lower(tail) in KnownTails
    ensures |tail| > 0
  {
    assert Lower([]) == [];
  }

  /** A base without trailing slashes whose last segment, after the slash
      at `k`, is a known resource has everything before that slash as its
      root. */
  lemma ApiRootAt(u: string, k: nat)
    requires TrimRight(u, IsSlash) == u && LastIndexOf(u, '/') == Some(k)
    requires Lower(u[k + 1..]) in KnownTails
    ensures ApiRoot(u) == u[..k]
  {
  }

  /** A base whose last segment is not a known resource is only trimmed. */
  lemma ApiRootOfRoot(base: string)
    requires var u := TrimRight(base, IsSlash);
      LastIndexOf(u, '/').None? || Lower(u[LastIndexOf(u, '/').value + 1..]) !in KnownTails
    ensures ApiRoot(base) == TrimRight(base, IsSlash)
  {
  }
}

=== FILE: ohio_legacy.dfy ===
/** The earlier OHGO connector (`connectors/ohio.py`): a URL builder that
    refuses an empty base, an upsert keyed by uuid alone, and a roads ingest.
    Both ingests commit once at the end with autoflush off, so their lookups
    see the tables as they were before the batch. */
module OhioLegacy {
  import opened Wrappers
  import opened Strings
  import opened Json
  import opened Fields
  import opened Store
  import opened OhgoUrl

  /** `base.rsplit("/", 1)[-1]`: the text after the last slash, or all of it. */
  function LastSegment(b: string): (r: string)
    ensures EndsWith(b, r)
    ensures '/' !in r
    ensures '/' in b ==> EndsWith(b, "/" + r)
  {
    match LastIndexOf(b, '/')
    case Some(k) =>
      assert b[|b| - |b[k + 1..]|..] == b[k + 1..];
      assert b[|b| - |b[k..]|..] == b[k..] == "/" + b[k + 1..];
      b[k + 1..]
    case None =>
      assert b[|b| - |b|..] == b;
      b
  }

  /** `_build_url(base, path)` of the earlier snapshot: a blank base raises
      `ValueError`; otherwise the base is normalized as in the current
      connector, and the segment is appended unless the base already ends
      with it or its last segment is that segment. */
  function BuildUrlOld(base: string, path: string): (r: Result<string, string>)
    ensures r.Err? <==> Strip(base) == ""
    ensures r.Ok? ==> r.value == NormalizeBase(base) || r.value == NormalizeBase(base) + Segment(path)
    ensures r.Ok? && Segment(path) == "" ==> r.value == NormalizeBase(base)
  {
    if Strip(base) == "" then Err("ValueError")
    else
      var b := NormalizeBase(base);
      var seg := Segment(path);
      if seg == "" then Ok(b)
      else if EndsWith(Lower(b), Lower(seg)) then Ok(b)
      else if "/" + Lower(LastSegment(b)) == Lower(seg) then Ok(b)
      else Ok(b + seg)
  }

  lemma EndsWithLower(s: string, t: string)
    requires EndsWith(s, t)
    ensures EndsWith(Lower(s), Lower(t))
  {
    LowerSuffix(s, |s| - |t|);
  }

  /** A segment equal to the base's last segment is also a suffix of the
      base, once the base holds a slash. */
  lemma LastSegmentIsSuffix(b: string, seg: string)
    requires '/' in b && "/" + Lower(LastSegment(b)) == Lower(seg)
    ensures EndsWith(Lower(b), Lower(seg))
  {
    var last := LastSegment(b);
    EndsWithLower(b, "/" + last);
    LowerAppend("/", last);
    assert Lower("/") == "/";
  }

  /** With a host in the base, the snapshot's last-segment test never fires
      where the suffix test did not, so both builders agree. */
  lemma {:induction false} OldAgreesWithNew(base: string, path: string)
    requires Strip(base) != "" && HasScheme(NormalizeBase(base))
    ensures BuildUrlOld(base, path) == Ok(BuildUrl(base, path))
  {
    var b := NormalizeBase(base);
    var seg := Segment(path);
    SchemeHasSlash(b);
    if "/" + Lower(LastSegment(b)) == Lower(seg) {
      LastSegmentIsSuffix(b, seg);
    }
  }

  /** A base that names its scheme holds a slash. */
  lemma SchemeHasSlash(b: string)
    requires HasScheme(b)
    ensures '/' in b
  {
    if StartsWith(b, "http://") {
      assert b[..7][5] == '/';
    } else {
      assert b[..8][6] == '/';
    }
  }

  lemma StripHostless()
    ensures Strip("https://") == "https://"
  {
    TrimLeftNoop("https://", IsSpace);
    TrimRightNoop("https://", IsSpace);
  }

  lemma NormalizeHostless()
    ensures NormalizeBase("https://") == "https:"
  {
    StripHostless();
    assert Schemed("https://") == "https://";
    var r := TrimRight("https://", IsSlash);
    assert |r| <= 6 by { assert IsSlash("https://"[7]) && IsSlash("https://"[6]); }
    assert !IsSlash(r[|r| - 1]);
    assert r == "https://"[..|r|];
  }

  lemma SegmentOfScheme()
    ensures Segment("https:") == "/https:"
  {
    TrimLeftNoop("https:", IsSpace);
    TrimRightNoop("https:", IsSpace);
    assert Strip("https:") == "https:";
    TrimLeftNoop("https:", IsSlash);
  }

  /** The bare scheme is its own last segment, and lower-casing leaves it
      and its segment alone. */
  lemma SchemeText()
    ensures LastSegment("https:") == "https:"
    ensures Lower("https:") == "https:" && Lower("/https:") == "/https:"
  {
    assert LastIndexOf("https:", '/') == None;
  }

  /** Without a host the two differ: the base `https://` shrinks to `https:`,
      whose whole text is its last segment, so the snapshot appends nothing
      where the current builder appends the segment. */
  lemma HostlessBaseDiffers(base: string, path: string)
    requires base == "https://" && path == "https:"
    ensures BuildUrlOld(base, path) == Ok("https:")
    ensures BuildUrl(base, path) == "https:" + "/https:"
  {
    NormalizeHostless();
    SegmentOfScheme();
    StripHostless();
    SchemeText();
    var b := NormalizeBase(base);
    var seg := Segment(path);
    assert b == "https:" && seg == "/https:";
    assert !EndsWith(Lower(b), Lower(seg));
    assert "/" + Lower(LastSegment(b)) == Lower(seg);
  }

  // ---- incidents --------------------------------------------------------------

  /** `item.get("uuid") or f"ohgo:{item.get('id') or item.get('eventId')}"` */
  function ItemUuid(item: Entries): string {
    PyStr(Or(Get(item, "uuid"), Str("ohgo:" + PyStr(Or(Get(item, "id"), Get(item, "eventId"))))))
  }

  /** `str(item.get("id") or item.get("eventId") or "")` */
  function ItemEventId(item: Entries): string {
    PyStr(Or(Get(item, "id"), Or(Get(item, "eventId"), Str(""))))
  }

  /** An item with neither uuid nor id nor event id is filed under the
      literal uuid `ohgo:None`. */
  lemma AnonymousUuid(item: Entries)
    requires !Has(item, "uuid") && !Has(item, "id") && !Has(item, "eventId")
    ensures ItemUuid(item) == "ohgo:None"
  {
  }

  /** The columns this snapshot writes on both insert and update. Direction
      is not clipped here. */
  function ItemCommon(env: Oracles, item: Entries): (c: Common)
    ensures c.sourceSystem == "OHGO" && c.sourceEventId == ItemEventId(item)
    ensures c.direction == TextCol(Get(item, "direction"))
  {
    Common("OHGO", ItemEventId(item), TextCol(Or(Get(item, "state"), Str("OH"))), TextCol(Get(item, "route")),
           TextCol(Get(item, "routeClass")), TextCol(Get(item, "direction")),
           Get(item, "latitude"), Get(item, "longitude"),
           ParseDtStr(env, Get(item, "reportedTime")), ParseDtStr(env, Get(item, "updatedTime")),
           ParseDtStr(env, Get(item, "clearedTime")), BoolCol(Get(item, "isActive")),
           TextCol(Get(item, "eventType")), TextCol(Get(item, "lanesAffected")),
           TextCol(Get(item, "closureStatus")), TextCol(Get(item, "severityFlag")),
           ScoreCol(env, Get(item, "severityScore")))
  }

  /** The update branch: the listed columns are overwritten, except that an
      empty incoming event id keeps the stored one; uuid, source url, county
      and milepost stay. */
  function Refresh(env: Oracles, r: Row, item: Entries): (r': Row)
    ensures ItemEventId(item) != "" ==> CommonOf(r') == ItemCommon(env, item)
    ensures ItemEventId(item) == "" ==>
      (r'.sourceEventId == r.sourceEventId &&
       CommonOf(r').(sourceEventId := "") == ItemCommon(env, item).(sourceEventId := ""))
    ensures r'.rawBlob == Obj(item)
    ensures r'.uuid == r.uuid && r'.sourceUrl == r.sourceUrl && r'.county == r.county && r'.milepost == r.milepost
  {
    var sid := ItemEventId(item);
    ApplyCommon(r, ItemCommon(env, item)).(
      sourceEventId := if sid != "" then Some(sid) else r.sourceEventId, rawBlob := Obj(item))
  }

  function Fresh(env: Oracles, item: Entries): (r: Row)
    ensures r.uuid == ItemUuid(item) && CommonOf(r) == ItemCommon(env, item)
    ensures r.sourceUrl == TextCol(Get(item, "url")) && r.rawBlob == Obj(item)
  {
    NewRow(ItemUuid(item), ItemCommon(env, item), TextCol(Get(item, "url")), None, Null, Obj(item))
  }

  /** The session during the batch: loaded rows, pending inserts, count. */
  datatype Batch = Batch(rows: Table, pending: seq<Row>, count: nat)

  /** One iteration of `ingest_ohio_incidents`; a non-dict item raises at
      its first `.get`. */
  function Step(env: Oracles, pre: Table, b: Batch, item: Json): (r: Result<Batch, string>)
    requires |b.rows| == |pre|
    ensures r.Ok? <==> item.Obj? && !OneOrNone(pre, UuidIs(ItemUuid(item.entries))).Multiple?
    ensures r.Ok? ==> |r.value.rows| == |pre| && r.value.count == b.count + 1
    ensures r.Ok? ==> forall j :: 0 <= j < |pre| ==> r.value.rows[j].uuid == b.rows[j].uuid
    ensures r.Ok? ==> |r.value.pending| >= |b.pending| && r.value.pending[..|b.pending|] == b.pending
    ensures r.Ok? && r.value.pending != b.pending ==>
      r.value.pending == b.pending + [Fresh(env, item.entries)] &&
      forall j :: 0 <= j < |pre| ==> pre[j].uuid != ItemUuid(item.entries)
  {
    if !item.Obj? then Err("AttributeError")
    else
      var it := item.entries;
      match OneOrNone(pre, UuidIs(ItemUuid(it)))
      case Multiple => Err("MultipleResultsFound")
      case Found(i) =>
        Ok(Batch(b.rows[i := Refresh(env, b.rows[i], it)], b.pending, b.count + 1))
      case NotFound =>
        var p := b.pending + [Fresh(env, it)];
        assert p[..|b.pending|] == b.pending;
        Ok(Batch(b.rows, p, b.count + 1))
  }

  /** The two branches of the loop body: the loaded row with the item's
      uuid is refreshed in place (the session hands back the same object on
      every lookup), and an unknown uuid queues a new row. */
  lemma StepOutcome(env: Oracles, pre: Table, b: Batch, item: Entries)
    requires |b.rows| == |pre|
    ensures OneOrNone(pre, UuidIs(ItemUuid(item))).Found? ==>
      var i := OneOrNone(pre, UuidIs(ItemUuid(item))).index;
      Step(env, pre, b, Obj(item)) == Ok(Batch(b.rows[i := Refresh(env, b.rows[i], item)], b.pending, b.count + 1))
    ensures OneOrNone(pre, UuidIs(ItemUuid(item))).NotFound? ==>
      Step(env, pre, b, Obj(item)) == Ok(Batch(b.rows, b.pending + [Fresh(env, item)], b.count + 1))
  {
  }

  /** A successful step leaves the item filed. */
  lemma StepFiled(env: Oracles, pre: Table, b: Batch, item: Json)
    requires |b.rows| == |pre| && Step(env, pre, b, item).Ok?
    ensures Filed(pre, Step(env, pre, b, item).value.pending, item)
  {
    var it := item.entries;
    var p := Step(env, pre, b, item).value.pending;
    match OneOrNone(pre, UuidIs(ItemUuid(it)))
    case Found(i) =>
      assert pre[i].uuid == ItemUuid(it);
    case NotFound =>
      assert p[|b.pending|].uuid == ItemUuid(it);
  }

  /** After the item, a row under its uuid is loaded or pending. */
  predicate Filed(pre: Table, pending: seq<Row>, item: Json) {
    item.Obj? && (HasUuid(pre, ItemUuid(item.entries)) || HasUuid(pending, ItemUuid(item.entries)))
  }

  /** Pending inserts only grow, so a filed item stays filed. */
  lemma FiledLater(pre: Table, p: seq<Row>, q: seq<Row>, item: Json)
    requires |p| <= |q| && q[..|p|] == p && Filed(pre, p, item)
    ensures Filed(pre, q, item)
  {
    if HasUuid(p, ItemUuid(item.entries)) {
      var i :| 0 <= i < |p| && p[i].uuid == ItemUuid(item.entries);
      assert q[i] == q[..|p|][i];
    }
  }

  function Run(env: Oracles, pre: Table, b: Batch, items: seq<Json>): (r: Result<Batch, string>)
    requires |b.rows| == |pre|
    ensures r.Ok? ==> |r.value.rows| == |pre| && r.value.count == b.count + |items|
    ensures r.Ok? ==> forall j :: 0 <= j < |pre| ==> r.value.rows[j].uuid == b.rows[j].uuid
    ensures r.Ok? ==> AllObjects(items)
    decreases |items|
  {
    if |items| == 0 then Ok(b)
    else
      match Step(env, pre, b, items[0])
      case Err(e) => Err(e)
      case Ok(b1) =>
        AllObjectsCons(items);
        Run(env, pre, b1, items[1..])
  }

  /** Over a successful loop the pending inserts only grow. */
  lemma {:induction false} RunPendingGrows(env: Oracles, pre: Table, b: Batch, items: seq<Json>)
    requires |b.rows| == |pre| && Run(env, pre, b, items).Ok?
    ensures var r := Run(env, pre, b, items).value;
      |r.pending| >= |b.pending| && r.pending[..|b.pending|] == b.pending
    decreases |items|
  {
    if |items| > 0 {
      var b1 := RunHead(env, pre, b, items);
      RunPendingGrows(env, pre, b1, items[1..]);
      PrefixOfPrefix(b.pending, b1.pending, Run(env, pre, b1, items[1..]).value.pending);
    }
  }

  lemma PrefixOfPrefix<T>(a: seq<T>, b: seq<T>, c: seq<T>)
    requires |a| <= |b| <= |c| && b[..|a|] == a && c[..|b|] == b
    ensures c[..|a|] == a
  {
    assert c[..|a|] == c[..|b|][..|a|];
  }

  /** Over a successful loop every item ends up filed. */
  lemma {:induction false} RunFiled(env: Oracles, pre: Table, b: Batch, items: seq<Json>)
    requires |b.rows| == |pre| && Run(env, pre, b, items).Ok?
    ensures var r := Run(env, pre, b, items).value;
      forall k :: 0 <= k < |items| ==> Filed(pre, r.pending, items[k])
    decreases |items|
  {
    if |items| > 0 {
      var b1 := RunHead(env, pre, b, items);
      RunFiled(env, pre, b1, items[1..]);
      RunPendingGrows(env, pre, b1, items[1..]);
      var r := Run(env, pre, b1, items[1..]).value;
      FiledLater(pre, b1.pending, r.pending, items[0]);
      forall k | 1 <= k < |items|
        ensures Filed(pre, r.pending, items[k])
      {
        assert items[k] == items[1..][k - 1];
      }
    }
  }

  /** The batch after the first item of a successful loop, described by
      what `Step` promises of it. */
  lemma RunHead(env: Oracles, pre: Table, b: Batch, items: seq<Json>) returns (b1: Batch)
    requires |b.rows| == |pre| && |items| > 0 && Run(env, pre, b, items).Ok?
    ensures |b1.rows| == |pre| && Run(env, pre, b, items) == Run(env, pre, b1, items[1..])
    ensures |b1.pending| >= |b.pending| && b1.pending[..|b.pending|] == b.pending
    ensures Filed(pre, b1.pending, items[0])
  {
    b1 := Step(env, pre, b, items[0]).value;
    RunCons(env, pre, b, items);
    StepFiled(env, pre, b, items[0]);
  }

  /** A filed item has a row under its uuid once the batch is committed. */
  lemma FiledCommitted(pre: Table, rows: Table, pending: seq<Row>, item: Json)
    requires |rows| == |pre| && (forall j :: 0 <= j < |pre| ==> rows[j].uuid == pre[j].uuid)
    requires Filed(pre, pending, item)
    ensures HasUuid(rows + pending, ItemUuid(item.entries))
  {
    var u := ItemUuid(item.entries);
    var t := rows + pending;
    if HasUuid(pre, u) {
      var i :| 0 <= i < |pre| && pre[i].uuid == u;
      assert t[i].uuid == u;
    } else {
      var i :| 0 <= i < |pending| && pending[i].uuid == u;
      assert t[|rows| + i] == pending[i];
    }
  }

  /** `ingest_ohio_incidents(db, items)`: every item is counted, none is
      skipped, and a commit whose inserts repeat a uuid writes nothing. */
  function IngestIncidents(env: Oracles, pre: Table, items: seq<Json>): (r: Result<(Table, nat), string>)
    ensures r.Ok? ==> r.value.1 == |items|
    ensures r.Ok? ==> AllObjects(items)
    ensures r.Ok? ==> UniqueUuids(r.value.0) && |r.value.0| >= |pre|
    ensures r.Ok? ==> forall j :: 0 <= j < |pre| ==> r.value.0[j].uuid == pre[j].uuid
    ensures r.Ok? ==> forall k :: 0 <= k < |items| ==> HasUuid(r.value.0, ItemUuid(items[k].entries))
  {
    match Run(env, pre, Batch(pre, [], 0), items)
    case Err(e) => Err(e)
    case Ok(b) =>
      if UniqueUuids(b.rows + b.pending) then
        RunFiled(env, pre, Batch(pre, [], 0), items);
        forall k | 0 <= k < |items|
          ensures HasUuid(b.rows + b.pending, ItemUuid(items[k].entries))
        {
          FiledCommitted(pre, b.rows, b.pending, items[k]);
        }
        Ok((b.rows + b.pending, b.count))
      else Err("IntegrityError")
  }

  /** Two anonymous items in one batch against a table without an
      `ohgo:None` row both become inserts under that uuid, so the commit is
      rejected. */
  lemma {:induction false} AnonymousItemsCollide(env: Oracles, pre: Table, a: Entries, b: Entries)
    requires ItemUuid(a) == "ohgo:None" && ItemUuid(b) == "ohgo:None"
    requires forall j :: 0 <= j < |pre| ==> pre[j].uuid != "ohgo:None"
    ensures IngestIncidents(env, pre, [Obj(a), Obj(b)]) == Err("IntegrityError")
  {
    var b2 := AnonymousItemsQueued(env, pre, a, b);
    assert !UniqueUuids(b2.rows + b2.pending) by {
      var all := b2.rows + b2.pending;
      assert all[|pre|] == b2.pending[0] && all[|pre| + 1] == b2.pending[1];
    }
    IngestRejects(env, pre, [Obj(a), Obj(b)], b2);
  }

  /** Both anonymous items are queued as inserts under `ohgo:None`. */
  lemma AnonymousItemsQueued(env: Oracles, pre: Table, a: Entries, b: Entries) returns (b2: Batch)
    requires ItemUuid(a) == "ohgo:None" && ItemUuid(b) == "ohgo:None"
    requires forall j :: 0 <= j < |pre| ==> pre[j].uuid != "ohgo:None"
    ensures Run(env, pre, Batch(pre, [], 0), [Obj(a), Obj(b)]) == Ok(b2)
    ensures b2.rows == pre && |b2.pending| == 2
    ensures b2.pending[0].uuid == "ohgo:None" && b2.pending[1].uuid == "ohgo:None"
  {
    var items := [Obj(a), Obj(b)];
    b2 := QueuedTwo(env, pre, items);
  }

  /** Two items, both new to the table, are both queued. */
  lemma QueuedTwo(env: Oracles, pre: Table, items: seq<Json>) returns (b2: Batch)
    requires |items| == 2 && items[0].Obj? && items[1].Obj?
    requires forall j :: 0 <= j < |pre| ==> pre[j].uuid != ItemUuid(items[0].entries)
    requires forall j :: 0 <= j < |pre| ==> pre[j].uuid != ItemUuid(items[1].entries)
    ensures Run(env, pre, Batch(pre, [], 0), items) == Ok(b2)
    ensures b2.rows == pre && |b2.pending| == 2
    ensures b2.pending[0].uuid == ItemUuid(items[0].entries) && b2.pending[1].uuid == ItemUuid(items[1].entries)
  {
    var b0 := Batch(pre, [], 0);
    var b1 := Batch(pre, [Fresh(env, items[0].entries)], 1);
    b2 := Batch(pre, b1.pending + [Fresh(env, items[1].entries)], 2);
    RunQueues(env, pre, b0, items);
    assert b0.pending + [Fresh(env, items[0].entries)] == b1.pending;
    var rest := items[1..];
    assert rest[0] == items[1] && rest[1..] == [];
    RunQueues(env, pre, b1, rest);
  }

  /** The loop's first item, new to the table, is queued and the loop goes on. */
  lemma RunQueues(env: Oracles, pre: Table, b: Batch, items: seq<Json>)
    requires |b.rows| == |pre| && |items| > 0 && items[0].Obj?
    requires forall j :: 0 <= j < |pre| ==> pre[j].uuid != ItemUuid(items[0].entries)
    ensures Run(env, pre, b, items)
      == Run(env, pre, Batch(b.rows, b.pending + [Fresh(env, items[0].entries)], b.count + 1), items[1..])
  {
    StepInserts(env, pre, b, items[0].entries);
    RunCons(env, pre, b, items);
  }

  /** A loop whose inserts repeat a uuid ends in the rejected commit. */
  lemma IngestRejects(env: Oracles, pre: Table, items: seq<Json>, b: Batch)
    requires Run(env, pre, Batch(pre, [], 0), items) == Ok(b) && !UniqueUuids(b.rows + b.pending)
    ensures IngestIncidents(env, pre, items) == Err("IntegrityError")
  {
  }

  /** The loop over a non-empty batch whose first step succeeds continues
      from that step. */
  lemma RunCons(env: Oracles, pre: Table, b: Batch, items: seq<Json>)
    requires |b.rows| == |pre| && |items| > 0 && Step(env, pre, b, items[0]).Ok?
    ensures Run(env, pre, b, items) == Run(env, pre, Step(env, pre, b, items[0]).value, items[1..])
  {
  }

  /** An item whose uuid no loaded row has goes to the pending inserts. */
  lemma StepInserts(env: Oracles, pre: Table, b: Batch, item: Entries)
    requires |b.rows| == |pre|
    requires forall j :: 0 <= j < |pre| ==> pre[j].uuid != ItemUuid(item)
    ensures Step(env, pre, b, Obj(item)) == Ok(Batch(b.rows, b.pending + [Fresh(env, item)], b.count + 1))
  {
    assert OneOrNone(pre, UuidIs(ItemUuid(item))).NotFound?;
  }

  // ---- roads --------------------------------------------------------------------

  /** `str(item.get("id") or item.get("roadId"))` */
  function RoadId(item: Entries): string {
    PyStr(Or(Get(item, "id"), Get(item, "roadId")))
  }

  /** A road item with neither key is filed under the literal id `None`. */
  lemma AnonymousRoad(item: Entries)
    requires !Has(item, "id") && !Has(item, "roadId")
    ensures RoadId(item) == "None"
  {
  }

  /** The road row an item describes: no fallback keys and no clipping. */
  function RoadOf(env: Oracles, item: Entries): (r: Road)
    ensures r.sourceSystem == "OHGO" && r.roadId == RoadId(item)
    ensures r.direction == TextCol(Get(item, "direction"))
    ensures r.beginMile == Get(item, "beginMile") && r.endMile == Get(item, "endMile")
  {
    Road("OHGO", RoadId(item), TextCol(Get(item, "name")), TextCol(Get(item, "description")),
         TextCol(Get(item, "direction")), Get(item, "beginMile"), Get(item, "endMile"),
         Get(item, "length"), Get(item, "geometry"), ParseDtStr(env, Get(item, "lastUpdated")))
  }

  /** A loaded road after `setattr(existing, k, v)` for every `common`
      column: the item's values, under the road's own key. */
  function RoadRefresh(env: Oracles, row: Road, item: Entries): (r: Road)
    ensures r.sourceSystem == row.sourceSystem && r.roadId == row.roadId
    ensures r.(sourceSystem := "OHGO", roadId := RoadId(item)) == RoadOf(env, item)
  {
    var n := RoadOf(env, item);
    row.(name := n.name, description := n.description, direction := n.direction,
         beginMile := n.beginMile, endMile := n.endMile, length := n.length,
         geometry := n.geometry, lastUpdated := n.lastUpdated)
  }

  datatype RoadBatch = RoadBatch(rows: seq<Road>, pending: seq<Road>, count: nat)

  /** The roads a batch adds: one per dict item whose key no loaded road
      has, in item order. */
  function NewRoads(env: Oracles, pre: seq<Road>, items: seq<Json>): seq<Road>
    decreases |items|
  {
    if |items| == 0 then []
    else
      var head := if items[0].Obj? && FindRoad(pre, "OHGO", RoadId(items[0].entries)).None?
        then [RoadOf(env, items[0].entries)] else [];
      head + NewRoads(env, pre, items[1..])
  }

  function RoadStep(env: Oracles, pre: seq<Road>, b: RoadBatch, item: Json): (r: Result<RoadBatch, string>)
    requires |b.rows| == |pre| && UniqueRoadKeys(pre)
    ensures r.Ok? <==> item.Obj?
    ensures r.Ok? ==> |r.value.rows| == |pre| && r.value.count == b.count + 1
    ensures r.Ok? ==> forall j :: 0 <= j < |pre| ==>
      (r.value.rows[j].sourceSystem, r.value.rows[j].roadId) == (b.rows[j].sourceSystem, b.rows[j].roadId)
    ensures item.Obj? && FindRoad(pre, "OHGO", RoadId(item.entries)).Some? ==>
      var i := FindRoad(pre, "OHGO", RoadId(item.entries)).value;
      r == Ok(RoadBatch(b.rows[i := RoadRefresh(env, b.rows[i], item.entries)], b.pending, b.count + 1))
    ensures item.Obj? && FindRoad(pre, "OHGO", RoadId(item.entries)).None? ==>
      r == Ok(RoadBatch(b.rows, b.pending + [RoadOf(env, item.entries)], b.count + 1))
  {
    if !item.Obj? then Err("AttributeError")
    else
      var it := item.entries;
      match FindRoad(pre, "OHGO", RoadId(it))
      case Some(i) => Ok(RoadBatch(b.rows[i := RoadRefresh(env, b.rows[i], it)], b.pending, b.count + 1))
      case None => Ok(RoadBatch(b.rows, b.pending + [RoadOf(env, it)], b.count + 1))
  }

  function RoadRun(env: Oracles, pre: seq<Road>, b: RoadBatch, items: seq<Json>): (r: Result<RoadBatch, string>)
    requires |b.rows| == |pre| && UniqueRoadKeys(pre)
    ensures r.Ok? ==> |r.value.rows| == |pre| && r.value.count == b.count + |items|
    ensures r.Ok? ==> forall j :: 0 <= j < |pre| ==>
      (r.value.rows[j].sourceSystem, r.value.rows[j].roadId) == (b.rows[j].sourceSystem, b.rows[j].roadId)
    ensures r.Ok? <==> AllObjects(items)
    decreases |items|
  {
    if |items| == 0 then Ok(b)
    else
      match RoadStep(env, pre, b, items[0])
      case Err(e) => Err(e)
      case Ok(b1) =>
        AllObjectsCons(items);
        RoadRun(env, pre, b1, items[1..])
  }

  /** A successful loop queues exactly the new roads, in item order. */
  lemma {:induction false} RoadRunPending(env: Oracles, pre: seq<Road>, b: RoadBatch, items: seq<Json>)
    requires |b.rows| == |pre| && UniqueRoadKeys(pre) && RoadRun(env, pre, b, items).Ok?
    ensures RoadRun(env, pre, b, items).value.pending == b.pending + NewRoads(env, pre, items)
    decreases |items|
  {
    if |items| > 0 {
      var step := RoadStep(env, pre, b, items[0]);
      assert step.Ok?;
      var b1 := step.value;
      assert RoadRun(env, pre, b, items) == RoadRun(env, pre, b1, items[1..]);
      var it := items[0].entries;
      var head := if FindRoad(pre, "OHGO", RoadId(it)).None? then [RoadOf(env, it)] else [];
      assert b1.pending == b.pending + head;
      var tail := NewRoads(env, pre, items[1..]);
      assert NewRoads(env, pre, items) == head + tail;
      RoadRunPending(env, pre, b1, items[1..]);
      ConcatAssoc(b.pending, head, tail);
    } else {
      assert b.pending + [] == b.pending;
    }
  }

  /** Two road lists with the same keys, position by position, are both
      free of repeated keys or both not, whatever follows them. */
  lemma SameKeysUnique(a: seq<Road>, c: seq<Road>, p: seq<Road>)
    requires |a| == |c|
    requires forall j :: 0 <= j < |a| ==> (a[j].sourceSystem, a[j].roadId) == (c[j].sourceSystem, c[j].roadId)
    ensures UniqueRoadKeys(a + p) <==> UniqueRoadKeys(c + p)
  {
    var x := a + p;
    var y := c + p;
    assert forall j :: 0 <= j < |x| ==> (x[j].sourceSystem, x[j].roadId) == (y[j].sourceSystem, y[j].roadId) by {
      forall j | 0 <= j < |x|
        ensures (x[j].sourceSystem, x[j].roadId) == (y[j].sourceSystem, y[j].roadId)
      {
        if j >= |a| { assert x[j] == p[j - |a|] == y[j]; }
      }
    }
  }

  /** `ingest_ohgo_roads(db, items)` of the snapshot: every item is counted;
      the commit fails when two new items carry the same road id, and a
      non-dict item raises before it. */
  function IngestRoads(env: Oracles, pre: seq<Road>, items: seq<Json>): (r: Result<(seq<Road>, nat), string>)
    requires UniqueRoadKeys(pre)
    ensures r.Ok? ==> r.value.1 == |items| && UniqueRoadKeys(r.value.0) && |r.value.0| >= |pre|
    ensures r.Err? <==> !AllObjects(items) || !UniqueRoadKeys(pre + NewRoads(env, pre, items))
    ensures r.Ok? ==> r.value.0[|pre|..] == NewRoads(env, pre, items)
    ensures r.Ok? ==> forall j :: 0 <= j < |pre| ==>
      (r.value.0[j].sourceSystem, r.value.0[j].roadId) == (pre[j].sourceSystem, pre[j].roadId)
  {
    match RoadRun(env, pre, RoadBatch(pre, [], 0), items)
    case Err(e) => Err(e)
    case Ok(b) =>
      RoadRunPending(env, pre, RoadBatch(pre, [], 0), items);
      assert b.pending == NewRoads(env, pre, items);
      SameKeysUnique(b.rows, pre, b.pending);
      if UniqueRoadKeys(b.rows + b.pending) then
        assert (b.rows + b.pending)[|pre|..] == b.pending;
        Ok((b.rows + b.pending, b.count))
      else Err("IntegrityError")
  }

  /** Two items in one batch naming the same road that is not yet stored
      are both queued for insertion, and the commit is rejected. */
  lemma RepeatedNewRoadRejected(env: Oracles, pre: seq<Road>, a: Entries, c: Entries)
    requires UniqueRoadKeys(pre)
    requires RoadId(a) == RoadId(c) && FindRoad(pre, "OHGO", RoadId(a)).None?
    ensures IngestRoads(env, pre, [Obj(a), Obj(c)]).Err?
  {
    var items := [Obj(a), Obj(c)];
    assert items[1..] == [Obj(c)];
    assert items[1..][1..] == [];
    assert NewRoads(env, pre, items[1..][1..]) == [];
    assert NewRoads(env, pre, items[1..]) == [RoadOf(env, c)];
    var n := NewRoads(env, pre, items);
    assert n == [RoadOf(env, a), RoadOf(env, c)];
    var all := pre + n;
    assert all[|pre|] == RoadOf(env, a) && all[|pre| + 1] == RoadOf(env, c);
  }
}

=== FILE: query.dfy ===
/** The read side of the API (`usaccidents_app/main.py`) as predicates on
    stored rows: the active and inactive filters, the search conjunction, the
    "NULLS LAST, descending" ordering and its paging, the `changed_since`
    filter and the log-tail clamp. SQL comparisons with a NULL operand select
    nothing; `IS` / `IS NOT` tests are plain booleans. */
module Query {
  import opened Wrappers
  import opened Json
  import opened Fields
  import opened Store

  /** `is_active IS TRUE OR (is_active IS NULL AND cleared_time IS NULL)` */
  predicate Active(r: Row) {
    (r.isActive.Some? && r.isActive.value) || (r.isActive.None? && r.clearedTime.None?)
  }

  /** `is_active IS FALSE OR (is_active IS NULL AND cleared_time IS NOT NULL)` */
  predicate Inactive(r: Row) {
    (r.isActive.Some? && !r.isActive.value) || (r.isActive.None? && r.clearedTime.Some?)
  }

  /** Every row is exactly one of active and inactive. */
  lemma ActivePartition(r: Row)
    ensures Active(r) <==> !Inactive(r)
  {
  }

  /** The rows satisfying `p`, in table order (`query.filter(p)`). */
  function Filter(t: Table, p: Row -> bool): (r: Table)
    ensures |r| <= |t|
    ensures forall x :: x in r <==> x in t && p(x)
    ensures multiset(r) <= multiset(t)
    decreases |t|
  {
    if |t| == 0 then []
    else
      var rest := Filter(t[1..], p);
      assert t == [t[0]] + t[1..];
      if p(t[0]) then [t[0]] + rest else rest
  }

  /** Filtering by a predicate and by its negation splits the table. */
  lemma {:induction false} FilterSplit(t: Table, p: Row -> bool, q: Row -> bool)
    requires forall x :: q(x) <==> !p(x)
    ensures |Filter(t, p)| + |Filter(t, q)| == |t|
    decreases |t|
  {
    if |t| > 0 {
      FilterSplit(t[1..], p, q);
    }
  }

  /** `incidents_active_count`: the number of active rows. */
  function ActiveCount(t: Table): (n: nat)
    ensures n <= |t|
  {
    |Filter(t, (r: Row) => Active(r))|
  }

  /** Active and inactive counts add up to the whole table. */
  lemma ActiveCountSplit(t: Table)
    ensures ActiveCount(t) + |Filter(t, (r: Row) => Inactive(r))| == |t|
  {
    var p := (r: Row) => Active(r);
    var q := (r: Row) => Inactive(r);
    assert forall x :: q(x) <==> !p(x) by {
      forall x ensures q(x) <==> !p(x) { ActivePartition(x); }
    }
    FilterSplit(t, p, q);
  }

  // ---- ordering ---------------------------------------------------------------

  /** `(col IS NULL) ASC, col DESC`: `a` may come before `b`. */
  predicate KeyLe(a: Option<int>, b: Option<int>) {
    match a
    case None => b.None?
    case Some(x) => b.None? || x >= b.value
  }

  /** Under that key every non-null value comes before every null, and
      non-null values run from large to small. */
  lemma KeyLeMeaning(a: Option<int>, b: Option<int>)
    ensures KeyLe(a, b) <==> (b.Some? ==> a.Some?) && (a.Some? && b.Some? ==> a.value >= b.value)
  {
  }

  /** Lexicographic order over several such keys. */
  predicate LexLe(a: seq<Option<int>>, b: seq<Option<int>>)
    requires |a| == |b|
    decreases |a|
  {
    |a| == 0 || (a[0] != b[0] && KeyLe(a[0], b[0])) || (a[0] == b[0] && LexLe(a[1..], b[1..]))
  }

  lemma {:induction false} LexTotal(a: seq<Option<int>>, b: seq<Option<int>>)
    requires |a| == |b|
    ensures LexLe(a, b) || LexLe(b, a)
    decreases |a|
  {
    if |a| > 0 && a[0] == b[0] {
      LexTotal(a[1..], b[1..]);
    }
  }

  lemma {:induction false} LexTrans(a: seq<Option<int>>, b: seq<Option<int>>, c: seq<Option<int>>)
    requires |a| == |b| == |c| && LexLe(a, b) && LexLe(b, c)
    ensures LexLe(a, c)
    decreases |a|
  {
    if |a| > 0 && a[0] == b[0] == c[0] {
      LexTrans(a[1..], b[1..], c[1..]);
    }
  }

  /** The sort columns of the `order` parameter; anything unrecognised sorts
      by updated then reported time. */
  function SortKeys(order: string, r: Row): (ks: seq<Option<int>>)
    ensures |ks| == if order == "reported_time_desc" then 1 else 2
  {
    if order == "reported_time_desc" then [r.reportedTime]
    else if order == "severity_desc" then [r.severityScore, r.updatedTime]
    else [r.updatedTime, r.reportedTime]
  }

  predicate Precedes(order: string, a: Row, b: Row) {
    LexLe(SortKeys(order, a), SortKeys(order, b))
  }

  /** Each row may come before the next. */
  predicate Sorted(order: string, s: Table) {
    forall i :: 0 < i < |s| ==> Precedes(order, s[i - 1], s[i])
  }

  /** Sortedness of neighbours extends to every pair. */
  lemma {:induction false} SortedPairs(order: string, s: Table, i: nat, j: nat)
    requires Sorted(order, s) && i < j < |s|
    ensures Precedes(order, s[i], s[j])
    decreases j - i
  {
    if i + 1 < j {
      SortedPairs(order, s, i + 1, j);
      LexTrans(SortKeys(order, s[i]), SortKeys(order, s[i + 1]), SortKeys(order, s[j]));
    }
  }

  function Insert(order: string, x: Row, s: Table): (r: Table)
    requires Sorted(order, s)
    ensures Sorted(order, r)
    ensures multiset(r) == multiset(s) + multiset{x}
    ensures |r| == |s| + 1 && (r[0] == x || (|s| > 0 && r[0] == s[0]))
    decreases |s|
  {
    if |s| == 0 then [x]
    else if Precedes(order, x, s[0]) then [x] + s
    else
      LexTotal(SortKeys(order, x), SortKeys(order, s[0]));
      var rest := Insert(order, x, s[1..]);
      assert s == [s[0]] + s[1..];
      assert |s| > 1 ==> Precedes(order, s[0], s[1]);
      [s[0]] + rest
  }

  /** `ORDER BY` the keys of `order`: a sorted permutation of the rows. */
  function Sort(order: string, s: Table): (r: Table)
    ensures Sorted(order, r)
    ensures multiset(r) == multiset(s) && |r| == |s|
    decreases |s|
  {
    if |s| == 0 then []
    else
      assert s == [s[0]] + s[1..];
      Insert(order, s[0], Sort(order, s[1..]))
  }

  /** In a sorted result the first sort column is non-null before null and
      non-increasing among the non-null values. */
  lemma SortedNullsLast(order: string, s: Table, i: nat, j: nat)
    requires Sorted(order, s) && i < j < |s|
    ensures var a := SortKeys(order, s[i])[0]; var b := SortKeys(order, s[j])[0];
      (b.Some? ==> a.Some?) && (a.Some? && b.Some? ==> a.value >= b.value)
  {
    SortedPairs(order, s, i, j);
    KeyLeMeaning(SortKeys(order, s[i])[0], SortKeys(order, s[j])[0]);
  }

  /** `q.limit(limit).offset(offset)`: at most `limit` rows from `offset` on. */
  function Page(s: Table, limit: nat, offset: nat): (r: Table)
    ensures |r| <= limit
    ensures offset >= |s| ==> r == []
    ensures offset < |s| ==> |r| == if |s| - offset < limit then |s| - offset else limit
    ensures forall k :: 0 <= k < |r| ==> r[k] == s[offset + k]
  {
    var from := if offset <= |s| then offset else |s|;
    var rest := s[from..];
    if |rest| <= limit then rest else rest[..limit]
  }

  function Min(a: nat, b: nat): nat { if a <= b then a else b }

  /** The page is the `[offset, offset + limit)` window of the sorted rows. */
  lemma PageWindow(s: Table, limit: nat, offset: nat)
    ensures Page(s, limit, offset) == s[Min(offset, |s|)..Min(offset + limit, |s|)]
  {
  }

  /** `s` lists the rows of `rows` in an order `order` accepts. */
  predicate SortedPermutation(order: string, rows: Table, s: Table) {
    |s| == |rows| && multiset(s) == multiset(rows) && Sorted(order, s)
  }

  /** `items` is what `ORDER BY ... LIMIT limit OFFSET offset` may return for
      `rows`: the `[offset, offset + limit)` window of an ordering of the
      rows by `order`, ties broken in any way. */
  ghost predicate PageOf(order: string, rows: Table, limit: nat, offset: nat, items: Table) {
    exists s :: SortedPermutation(order, rows, s) && items == s[Min(offset, |s|)..Min(offset + limit, |s|)]
  }

  /** Paging a sorted ordering of the rows is one of the pages `PageOf`
      admits. */
  lemma SortedPage(order: string, rows: Table, limit: nat, offset: nat)
    ensures PageOf(order, rows, limit, offset, Page(Sort(order, rows), limit, offset))
    ensures Sorted(order, Page(Sort(order, rows), limit, offset))
    ensures forall k :: 0 <= k < |Page(Sort(order, rows), limit, offset)| ==> Page(Sort(order, rows), limit, offset)[k] in rows
  {
    var s := Sort(order, rows);
    var p := Page(s, limit, offset);
    PageWindow(s, limit, offset);
    assert SortedPermutation(order, rows, s);
    forall k | 0 <= k < |p|
      ensures p[k] in rows
    {
      assert p[k] in multiset(s);
    }
  }

  // ---- search -----------------------------------------------------------------

  /** The query parameters of `incidents_search`. */
  datatype Search = Search(
    states: seq<string>,
    counties: seq<string>,
    routes: seq<string>,
    routeClasses: seq<string>,
    directions: seq<string>,
    eventTypes: seq<string>,
    closureStatuses: seq<string>,
    severityFlags: seq<string>,
    isActive: Option<bool>,
    activeOnly: Option<bool>,
    scoreMin: Option<int>,
    scoreMax: Option<int>,
    updatedSince: Option<string>,
    reportedSince: Option<string>,
    order: string,
    limit: nat,
    offset: nat)

  /** `col.in_(vals)` when `vals` is non-empty; no constraint otherwise. */
  predicate InList(col: Option<string>, vals: seq<string>) {
    vals == [] || (col.Some? && col.value in vals)
  }

  /** The activity filter: `active_only` or `is_active=true` select active
      rows, `is_active=false` inactive ones, nothing else constrains. */
  predicate ActivityOk(q: Search, r: Row) {
    if q.activeOnly == Some(true) || q.isActive == Some(true) then Active(r)
    else if q.isActive == Some(false) then Inactive(r)
    else true
  }

  /** `active_only` wins over `is_active=false`. */
  lemma ActiveOnlyOverrides(q: Search, r: Row)
    requires q.activeOnly == Some(true)
    ensures ActivityOk(q, r) <==> Active(r)
  {
  }

  /** The nested `parse_iso`: an empty or unparseable text gives `None`. */
  function ParseIso(env: Oracles, s: Option<string>): (r: Option<Time>)
    ensures s.None? || s == Some("") ==> r.None?
    ensures r.Some? ==> r == env.parseTime(s.value)
  {
    match s
    case None => None
    case Some(text) => if text == "" then None else env.parseTime(text)
  }

  /** `col >= dt` applied only when the bound parsed. */
  predicate SinceOk(env: Oracles, since: Option<string>, col: Option<Time>) {
    match ParseIso(env, since)
    case None => true
    case Some(dt) => col.Some? && col.value >= dt
  }

  /** An unparseable bound filters nothing out. */
  lemma UnparseableSinceIgnored(env: Oracles, text: string, col: Option<Time>)
    requires env.parseTime(text).None?
    ensures SinceOk(env, Some(text), col)
  {
  }

  predicate ScoreOk(q: Search, r: Row) {
    (q.scoreMin.Some? ==> r.severityScore.Some? && r.severityScore.value >= q.scoreMin.value) &&
    (q.scoreMax.Some? ==> r.severityScore.Some? && r.severityScore.value <= q.scoreMax.value)
  }

  /** The conjunction of every filter of `incidents_search`. */
  predicate Matches(env: Oracles, q: Search, r: Row) {
    && InList(r.state, q.states) && InList(r.county, q.counties) && InList(r.route, q.routes)
    && InList(r.routeClass, q.routeClasses) && InList(r.direction, q.directions)
    && InList(r.eventType, q.eventTypes) && InList(r.closureStatus, q.closureStatuses)
    && InList(r.severityFlag, q.severityFlags)
    && ActivityOk(q, r) && ScoreOk(q, r)
    && SinceOk(env, q.updatedSince, r.updatedTime) && SinceOk(env, q.reportedSince, r.reportedTime)
  }

  /** With both bounds given, the score bounds are inclusive on both ends. */
  lemma ScoreBoundsInclusive(q: Search, r: Row)
    requires q.scoreMin.Some? && q.scoreMax.Some?
    ensures ScoreOk(q, r) <==> r.severityScore.Some? && q.scoreMin.value <= r.severityScore.value <= q.scoreMax.value
  {
  }

  datatype SearchResult = SearchResult(total: nat, items: Table)

  /** `incidents_search`: `total` counts every matching row before paging;
      `items` is one page of the matching rows in the requested order. */
  function IncidentsSearch(env: Oracles, q: Search, t: Table): (r: SearchResult)
    ensures r.total == |Filter(t, (x: Row) => Matches(env, q, x))| && r.total <= |t|
    ensures |r.items| <= q.limit && |r.items| <= r.total
    ensures forall k :: 0 <= k < |r.items| ==> r.items[k] in t && Matches(env, q, r.items[k])
    ensures Sorted(q.order, r.items)
    ensures PageOf(q.order, Filter(t, (x: Row) => Matches(env, q, x)), q.limit, q.offset, r.items)
  {
    var matching := Filter(t, (x: Row) => Matches(env, q, x));
    SortedPage(q.order, matching, q.limit, q.offset);
    SearchResult(|matching|, Page(Sort(q.order, matching), q.limit, q.offset))
  }

  // ---- changed_since, latest, log tail ----------------------------------------

  /** `updated_time >= dt OR (updated_time IS NULL AND reported_time >= dt)` */
  predicate ChangedAfter(r: Row, dt: Time) {
    (r.updatedTime.Some? && r.updatedTime.value >= dt) ||
    (r.updatedTime.None? && r.reportedTime.Some? && r.reportedTime.value >= dt)
  }

  /** A row changed since a time was also changed since any earlier time. */
  lemma ChangedAfterEarlier(r: Row, earlier: Time, dt: Time)
    requires earlier <= dt && ChangedAfter(r, dt)
    ensures ChangedAfter(r, earlier)
  {
  }

  /** `incidents_changed_since`: status 400 when `since` does not parse;
      otherwise up to `limit` changed rows, newest first. */
  function ChangedSince(env: Oracles, since: string, limit: nat, t: Table): (r: Result<Table, int>)
    ensures r.Err? <==> env.parseTime(since).None?
    ensures r.Err? ==> r.error == 400
    ensures r.Ok? ==> |r.value| <= limit && Sorted("updated_time_desc", r.value)
    ensures r.Ok? ==> forall k :: 0 <= k < |r.value| ==>
      r.value[k] in t && ChangedAfter(r.value[k], env.parseTime(since).value)
    ensures r.Ok? ==>
      PageOf("updated_time_desc", Filter(t, (x: Row) => ChangedAfter(x, env.parseTime(since).value)), limit, 0, r.value)
  {
    match env.parseTime(since)
    case None => Err(400)
    case Some(dt) => Ok(ChangedRows(dt, limit, t))
  }

  /** The rows changed since `dt`, newest first, cut to `limit`. */
  function ChangedRows(dt: Time, limit: nat, t: Table): (r: Table)
    ensures |r| <= limit && Sorted("updated_time_desc", r)
    ensures forall k :: 0 <= k < |r| ==> r[k] in t && ChangedAfter(r[k], dt)
    ensures PageOf("updated_time_desc", Filter(t, (x: Row) => ChangedAfter(x, dt)), limit, 0, r)
  {
    var changed := Filter(t, (x: Row) => ChangedAfter(x, dt));
    SortedPage("updated_time_desc", changed, limit, 0);
    Page(Sort("updated_time_desc", changed), limit, 0)
  }

  /** `incidents_latest`: the first `limit` rows by updated then reported
      time. */
  function Latest(limit: nat, t: Table): (r: Table)
    ensures |r| == if |t| < limit then |t| else limit
    ensures Sorted("updated_time_desc", r)
    ensures forall k :: 0 <= k < |r| ==> r[k] in t
    ensures PageOf("updated_time_desc", t, limit, 0, r)
  {
    SortedPage("updated_time_desc", t, limit, 0);
    Page(Sort("updated_time_desc", t), limit, 0)
  }

  /** The clamp `max(1, min(lines, 5000))`. */
  function TailCount(lines: int): (k: int)
    ensures 1 <= k <= 5000
    ensures 1 <= lines <= 5000 ==> k == lines
  {
    var m := if lines < 5000 then lines else 5000;
    if m < 1 then 1 else m
  }

  /** `logs_tail`: `data[-k:]`, all of `data` when it is shorter. */
  function LogsTail(data: seq<string>, lines: int): (r: seq<string>)
    ensures |r| == if |data| < TailCount(lines) then |data| else TailCount(lines)
    ensures 1 <= |r| <= 5000 || data == []
    ensures r == data[|data| - |r|..]
  {
    var k := TailCount(lines);
    if |data| <= k then data else data[|data| - k..]
  }
}

=== FILE: redact.dfy ===
/** The API-key redaction filter of the logging setup
    (`_RedactFilter` in `usaccidents_app/logging_config.py`): before a log
    record is written, the configured key is masked in the message and in
    the `%`-formatting arguments. */
module Redact {
  import opened Wrappers
  import opened Strings
  import opened Json

  const Mask := "***"

  /** `record.args`: absent, a mapping, a tuple, or some other object the
      filter leaves alone. */
  datatype Args = NoArgs | DictArgs(entries: Entries) | TupleArgs(items: seq<Json>) | OtherArgs(value: Json)

  /** The two fields of a `LogRecord` the filter reads and rewrites. */
  datatype Record = Record(msg: Json, args: Args)

  /** `_RedactFilter(api_key).api_key`: a missing key becomes `""`. */
  function KeyOf(apiKey: Option<string>): (k: string)
    ensures apiKey.None? ==> k == ""
    ensures apiKey.Some? ==> k == apiKey.value
  {
    apiKey.GetOr("")
  }

  /** Whether `Replace(s, pat, rep)` finds a match at position `i`. */
  predicate MatchAt(s: string, pat: string, i: nat) {
    i + |pat| <= |s| && s[i..i + |pat|] == pat
  }

  /** One argument value after masking: a string holding the key is
      replaced whole, anything else is kept. */
  function MaskValue(key: string, v: Json): (r: Json)
    ensures v.Str? && Contains(v.s, key) ==> r == Str(Mask)
    ensures !(v.Str? && Contains(v.s, key)) ==> r == v
  {
    if v.Str? && Contains(v.s, key) then Str(Mask) else v
  }

  /** The dict comprehension over `record.args.items()`. */
  function MaskEntries(key: string, es: Entries): (r: Entries)
    ensures |r| == |es| && Keys(r) == Keys(es)
    ensures forall i :: 0 <= i < |es| ==> r[i].1 == MaskValue(key, es[i].1)
  {
    seq(|es|, i requires 0 <= i < |es| => (es[i].0, MaskValue(key, es[i].1)))
  }

  /** The tuple comprehension over `record.args`. */
  function MaskItems(key: string, xs: seq<Json>): (r: seq<Json>)
    ensures |r| == |xs|
    ensures forall i :: 0 <= i < |xs| ==> r[i] == MaskValue(key, xs[i])
  {
    seq(|xs|, i requires 0 <= i < |xs| => MaskValue(key, xs[i]))
  }

  /** `_RedactFilter.filter(record)`: whether the record is kept, and the
      record as rewritten. */
  function Filter(apiKey: Option<string>, rec: Record): (r: (bool, Record))
    ensures r.0
    ensures KeyOf(apiKey) == "" ==> r.1 == rec
    ensures !rec.msg.Str? ==> r.1.msg == rec.msg
    ensures rec.msg.Str? && !Contains(rec.msg.s, KeyOf(apiKey)) ==> r.1.msg == rec.msg
    ensures KeyOf(apiKey) != "" && rec.msg.Str? && Contains(rec.msg.s, KeyOf(apiKey)) ==>
      r.1.msg == Str(Replace(rec.msg.s, KeyOf(apiKey), Mask))
    ensures rec.args.DictArgs? ==> r.1.args.DictArgs? && Keys(r.1.args.entries) == Keys(rec.args.entries)
    ensures rec.args.TupleArgs? ==> r.1.args.TupleArgs? && |r.1.args.items| == |rec.args.items|
    ensures !rec.args.DictArgs? && !rec.args.TupleArgs? ==> r.1.args == rec.args
  {
    var key := KeyOf(apiKey);
    if key == "" then (true, rec)
    else
      var msg :=
        if rec.msg.Str? && Contains(rec.msg.s, key) then Str(Replace(rec.msg.s, key, Mask)) else rec.msg;
      var args :=
        match rec.args
        case DictArgs(es) => if |es| > 0 then DictArgs(MaskEntries(key, es)) else rec.args
        case TupleArgs(xs) => if |xs| > 0 then TupleArgs(MaskItems(key, xs)) else rec.args
        case _ => rec.args;
      (true, Record(msg, args))
  }

  /** The arguments that reach the formatter: with a non-empty key, every
      string argument holding the key is exactly the mask, and every other
      argument is the original value. */
  lemma FilterArgs(apiKey: Option<string>, rec: Record)
    requires KeyOf(apiKey) != ""
    ensures var out := Filter(apiKey, rec).1.args;
      && (rec.args.DictArgs? ==> forall i :: 0 <= i < |rec.args.entries| ==>
            out.entries[i].1 == MaskValue(KeyOf(apiKey), rec.args.entries[i].1))
      && (rec.args.TupleArgs? ==> forall i :: 0 <= i < |rec.args.items| ==>
            out.items[i] == MaskValue(KeyOf(apiKey), rec.args.items[i]))
  {
  }

  // ---------------------------------------------------------------------
  // What `str.replace` leaves behind

  /** Before the first match, the replacement copies its input. */
  lemma {:induction false} ReplaceCopiesUpTo(s: string, pat: string, rep: string, j: nat)
    requires |pat| > 0 && j <= |s|
    requires forall i :: 0 <= i < j ==> !MatchAt(s, pat, i)
    ensures Replace(s, pat, rep) == s[..j] + Replace(s[j..], pat, rep)
    decreases j
  {
    if j > 0 {
      if |s| < |pat| {
        ReplaceShort(s, pat, rep, j);
      } else {
        var t := s[1..];
        calc {
          Replace(s, pat, rep);
        == { assert !MatchAt(s, pat, 0); }
          [s[0]] + Replace(t, pat, rep);
        == { NoMatchShift(s, pat, j); ReplaceCopiesUpTo(t, pat, rep, j - 1); }
          [s[0]] + (t[..j - 1] + Replace(t[j - 1..], pat, rep));
        == { assert t[j - 1..] == s[j..]; }
          ([s[0]] + t[..j - 1]) + Replace(s[j..], pat, rep);
        == { assert s[..j] == [s[0]] + t[..j - 1]; }
          s[..j] + Replace(s[j..], pat, rep);
        }
      }
    }
  }

  /** No match in the first `j` positions of a text means none in the first
      `j - 1` positions of its tail. */
  lemma NoMatchShift(s: string, pat: string, j: nat)
    requires 0 < j <= |s|
    requires forall i :: 0 <= i < j ==> !MatchAt(s, pat, i)
    ensures forall i :: 0 <= i < j - 1 ==> !MatchAt(s[1..], pat, i)
  {
    forall i | 0 <= i < j - 1 ensures !MatchAt(s[1..], pat, i) {
      assert !MatchAt(s, pat, i + 1);
      if i + |pat| <= |s| - 1 {
        assert s[1..][i..i + |pat|] == s[i + 1..i + 1 + |pat|];
      }
    }
  }

  /** A text shorter than the pattern is copied whole. */
  lemma ReplaceShort(s: string, pat: string, rep: string, j: nat)
    requires |pat| > 0 && |s| < |pat| && j <= |s|
    ensures Replace(s, pat, rep) == s[..j] + Replace(s[j..], pat, rep)
  {
    assert s == s[..j] + s[j..];
  }

  /** The first position where the pattern matches. */
  function FirstMatch(s: string, pat: string, from: nat): (r: Option<nat>)
    requires |pat| > 0 && from <= |s|
    ensures r.Some? ==> from <= r.value < |s| && MatchAt(s, pat, r.value)
    ensures r.Some? ==> forall i :: from <= i < r.value ==> !MatchAt(s, pat, i)
    ensures r.None? ==> forall i :: from <= i <= |s| ==> !MatchAt(s, pat, i)
    decreases |s| - from
  {
    if from + |pat| > |s| then None
    else if MatchAt(s, pat, from) then Some(from)
    else FirstMatch(s, pat, from + 1)
  }

  /** When no character of the replacement occurs in the pattern, the
      pattern no longer occurs in the result of replacing it. */
  lemma {:induction false} ReplaceRemoves(s: string, pat: string, rep: string)
    requires |pat| > 0 && |rep| > 0
    requires forall c :: c in rep ==> c !in pat
    ensures !Contains(Replace(s, pat, rep), pat)
    decreases |s|
  {
    var out := Replace(s, pat, rep);
    var n := |pat|;
    if |s| < n {
      assert out == s;
    } else if s[..n] == pat {
      var rest := Replace(s[n..], pat, rep);
      ReplaceRemoves(s[n..], pat, rep);
      assert out == rep + rest;
      forall i | 0 <= i <= |out| ensures !StartsWith(out[i..], pat) {
        if i < |rep| {
          assert rep[i] in rep && out[i] == rep[i];
          assert pat[0] in pat;
        } else {
          assert out[i..] == rest[i - |rep|..];
        }
      }
    } else {
      var t := s[1..];
      var rest := Replace(t, pat, rep);
      ReplaceRemoves(t, pat, rep);
      assert out == [s[0]] + rest;
      forall i | 0 <= i <= |out| ensures !StartsWith(out[i..], pat) {
        if i > 0 {
          assert out[i..] == rest[i - 1..];
        } else {
          NoMatchAtFront(s, pat, rep);
        }
      }
    }
  }

  /** When the text does not start with the pattern, neither does its
      replacement: the copied prefix is too short to complete a match, and
      the first replacement breaks it. */
  lemma {:induction false} NoMatchAtFront(s: string, pat: string, rep: string)
    requires |pat| > 0 && |rep| > 0 && |s| >= |pat| && s[..|pat|] != pat
    requires forall c :: c in rep ==> c !in pat
    ensures !StartsWith([s[0]] + Replace(s[1..], pat, rep), pat)
  {
    var t := s[1..];
    var first := FirstMatch(t, pat, 0);
    if first.Some? && first.value < |pat| - 1 {
      FrontBroken(s, pat, rep, first.value);
    } else {
      FrontCopied(s, pat, rep);
    }
  }

  /** The tail matches early: the replacement lands inside the first
      `|pat|` characters and breaks the match. */
  lemma FrontBroken(s: string, pat: string, rep: string, j: nat)
    requires |pat| > 0 && |rep| > 0 && |s| >= |pat|
    requires forall c :: c in rep ==> c !in pat
    requires j < |pat| - 1 && MatchAt(s[1..], pat, j)
    requires forall i :: 0 <= i < j ==> !MatchAt(s[1..], pat, i)
    ensures !StartsWith([s[0]] + Replace(s[1..], pat, rep), pat)
  {
    var n := |pat|;
    var t := s[1..];
    ReplaceCopiesUpTo(t, pat, rep, j);
    var tail := t[j..];
    assert tail[..n] == pat by {
      assert t[j..j + n] == tail[..n];
    }
    var head := [s[0]] + t[..j];
    var out := [s[0]] + Replace(t, pat, rep);
    assert out == head + (rep + Replace(tail[n..], pat, rep));
    assert out[1 + j] == rep[0];
    assert rep[0] in rep && pat[1 + j] in pat;
  }

  /** The tail does not match before position `|pat| - 1`: the first
      `|pat|` characters are copied, and they are not the pattern. */
  lemma FrontCopied(s: string, pat: string, rep: string)
    requires |pat| > 0 && |s| >= |pat| && s[..|pat|] != pat
    requires var first := FirstMatch(s[1..], pat, 0); !(first.Some? && first.value < |pat| - 1)
    ensures !StartsWith([s[0]] + Replace(s[1..], pat, rep), pat)
  {
    var n := |pat|;
    var t := s[1..];
    var k := n - 1;
    assert forall i :: 0 <= i < k ==> !MatchAt(t, pat, i);
    ReplaceCopiesUpTo(t, pat, rep, k);
    var out := [s[0]] + Replace(t, pat, rep);
    assert out[..n] == [s[0]] + t[..k];
    assert s[..n] == [s[0]] + t[..k];
  }

  /** For a key without `*`, no occurrence of the key survives in a
      redacted message. (A key such as `a*` can reappear: `"aa*"` becomes
      `"a***"`.) */
  lemma MessageHidesKey(apiKey: Option<string>, rec: Record)
    requires KeyOf(apiKey) != "" && '*' !in KeyOf(apiKey)
    requires rec.msg.Str?
    ensures Filter(apiKey, rec).1.msg.Str?
    ensures !Contains(Filter(apiKey, rec).1.msg.s, KeyOf(apiKey))
  {
    var key := KeyOf(apiKey);
    if Contains(rec.msg.s, key) {
      assert forall c :: c in Mask ==> c == '*';
      ReplaceRemoves(rec.msg.s, key, Mask);
    }
  }

  /** Filtering twice is filtering once, for a key without `*`. */
  lemma FilterIdempotent(apiKey: Option<string>, rec: Record)
    requires '*' !in KeyOf(apiKey)
    ensures Filter(apiKey, Filter(apiKey, rec).1) == Filter(apiKey, rec)
  {
    var key := KeyOf(apiKey);
    if key != "" {
      var once := Filter(apiKey, rec).1;
      if rec.msg.Str? {
        MessageHidesKey(apiKey, rec);
      }
      assert MaskValue(key, Str(Mask)) == Str(Mask) by {
        if Contains(Mask, key) {
        }
      }
      assert forall v :: MaskValue(key, MaskValue(key, v)) == MaskValue(key, v);
      match rec.args
      case DictArgs(es) =>
        if |es| > 0 {
          assert MaskEntries(key, MaskEntries(key, es)) == MaskEntries(key, es);
        }
      case TupleArgs(xs) =>
        if |xs| > 0 {
          assert MaskItems(key, MaskItems(key, xs)) == MaskItems(key, xs);
        }
      case _ =>
    }
  }
}

=== FILE: semver.dfy ===
/** The release scripts: `semver_bump`, `expand_glob`, `bump_files`, the
    target resolution, project bump and changelog entry of
    `scripts/bump_file_versions.py`, and the version arithmetic of `bump` in
    `scripts/bump_version.py`. `versions.yml` is the decoded YAML mapping,
    held as ordered JSON entries; file reads and writes are left to the
    caller, who passes the current text in and takes the new text out. */
module SemVer {
  import opened Wrappers
  import opened Strings
  import opened Json

  /** A `major.minor.patch` triple (item 2 of Semantic Versioning 2.0.0). */
  datatype Version = Version(major: nat, minor: nat, patch: nat)

  /** Precedence on the three numbers, compared left to right (item 11 of
      Semantic Versioning 2.0.0, without pre-release identifiers). */
  predicate Less(a: Version, b: Version) {
    || a.major < b.major
    || (a.major == b.major && a.minor < b.minor)
    || (a.major == b.major && a.minor == b.minor && a.patch < b.patch)
  }

  /** What stopped a script with an exception: a missing dictionary key, a
      value of the wrong type, or the `ValueError` of a malformed version. */
  datatype Failure = KeyError(key: string) | TypeError(key: string) | AttributeError(key: string) | ValueError(text: string)

  predicate Distinct(s: seq<string>) {
    forall i, j :: 0 <= i < j < |s| ==> s[i] != s[j]
  }

  // ---------------------------------------------------------------------
  // semver_bump

  /** One `(\d+)` group: one or more ASCII digits. */
  predicate IsNumber(s: string) {
    |s| > 0 && AllDigits(s)
  }

  /** The language of `^(\d+)\.(\d+)\.(\d+)$` under `re.match`: three digit
      groups joined by dots, where `$` also accepts one final newline. */
  predicate Spells(ver: string, a: string, b: string, c: string) {
    && IsNumber(a) && IsNumber(b) && IsNumber(c)
    && (ver == a + "." + b + "." + c || ver == a + "." + b + "." + c + "\n")
  }

  /** The part of the text the three groups must cover. */
  function Body(ver: string): (b: string)
    ensures ver == b || ver == b + "\n"
  {
    if |ver| > 0 && ver[|ver| - 1] == '\n' then ver[..|ver| - 1] else ver
  }

  /** The pattern match of `semver_bump` and the `map(int, m.groups())`
      that follows it; `None` where the function raises `ValueError`. */
  function ParseSemver(ver: string): (r: Option<Version>)
  {
    var p := Split(Body(ver), '.');
    if |p| == 3 && IsNumber(p[0]) && IsNumber(p[1]) && IsNumber(p[2]) then
      Some(Version(DigitsValue(p[0]), DigitsValue(p[1]), DigitsValue(p[2])))
    else None
  }

  lemma Join3(a: string, b: string, c: string)
    ensures Join([a, b, c], ".") == a + "." + b + "." + c
  {
    assert [a, b, c][1..] == [b, c];
    assert [b, c][1..] == [c];
    assert Join([b, c], ".") == b + "." + c;
    assert a + "." + (b + "." + c) == a + "." + b + "." + c;
  }

  /** A spelling of the pattern is read back as its three numbers. */
  lemma {:induction false} ParseSemverValue(ver: string, a: string, b: string, c: string)
    requires Spells(ver, a, b, c)
    ensures ParseSemver(ver) == Some(Version(DigitsValue(a), DigitsValue(b), DigitsValue(c)))
  {
    var body := a + "." + b + "." + c;
    assert body[|body| - 1] == c[|c| - 1] && IsDigit(c[|c| - 1]);
    if ver == body + "\n" {
      assert ver[..|ver| - 1] == body;
    }
    assert Body(ver) == body;
    assert '.' !in a && '.' !in b && '.' !in c by {
      assert !IsDigit('.');
    }
    Join3(a, b, c);
    JoinSplit([a, b, c], '.');
  }

  /** The three digit groups of an accepted version. */
  lemma {:induction false} SpellingOf(ver: string) returns (a: string, b: string, c: string)
    requires ParseSemver(ver).Some?
    ensures Spells(ver, a, b, c)
  {
    var p := Split(Body(ver), '.');
    SplitJoin(Body(ver), '.');
    assert p == [p[0], p[1], p[2]];
    Join3(p[0], p[1], p[2]);
    a, b, c := p[0], p[1], p[2];
  }

  /** `ParseSemver` accepts exactly the texts the regular expression matches. */
  lemma {:induction false} ParseSemverMatches(ver: string)
    ensures ParseSemver(ver).Some? <==> exists a, b, c :: Spells(ver, a, b, c)
  {
    if ParseSemver(ver).Some? {
      var a, b, c := SpellingOf(ver);
    }
    if exists a, b, c :: Spells(ver, a, b, c) {
      var a, b, c :| Spells(ver, a, b, c);
      ParseSemverValue(ver, a, b, c);
    }
  }

  /** `f"{major}.{minor}.{patch}"` */
  function Format(v: Version): string {
    NatToString(v.major) + "." + NatToString(v.minor) + "." + NatToString(v.patch)
  }

  /** Formatted versions always match the pattern again and read back as the
      same numbers. */
  lemma FormatParses(v: Version)
    ensures Spells(Format(v), NatToString(v.major), NatToString(v.minor), NatToString(v.patch))
    ensures ParseSemver(Format(v)) == Some(v)
  {
    NatToStringRoundTrip(v.major);
    NatToStringRoundTrip(v.minor);
    NatToStringRoundTrip(v.patch);
    ParseSemverValue(Format(v), NatToString(v.major), NatToString(v.minor), NatToString(v.patch));
  }

  /** The level rules (items 6-8 of Semantic Versioning 2.0.0): a major bump
      resets minor and patch, a minor bump resets patch, and any other part
      name bumps the patch. */
  function Next(v: Version, part: string): (w: Version)
    ensures Less(v, w)
    ensures part == "major" ==> w.major == v.major + 1 && w.minor == 0 && w.patch == 0
    ensures part == "minor" ==> w.major == v.major && w.minor == v.minor + 1 && w.patch == 0
    ensures part != "major" && part != "minor" ==>
      w.major == v.major && w.minor == v.minor && w.patch == v.patch + 1
  {
    if part == "major" then Version(v.major + 1, 0, 0)
    else if part == "minor" then Version(v.major, v.minor + 1, 0)
    else Version(v.major, v.minor, v.patch + 1)
  }

  /** `semver_bump(ver, part)` */
  function SemverBump(ver: string, part: string): (r: Result<string, Failure>)
    ensures r.Err? <==> !exists a, b, c :: Spells(ver, a, b, c)
    ensures r.Err? ==> r.error.ValueError?
    ensures r.Ok? ==> ParseSemver(ver).Some? && ParseSemver(r.value).Some?
    ensures r.Ok? ==> ParseSemver(r.value).value == Next(ParseSemver(ver).value, part)
    ensures r.Ok? ==> Less(ParseSemver(ver).value, ParseSemver(r.value).value)
  {
    ParseSemverMatches(ver);
    var parsed := ParseSemver(ver);
    if parsed.None? then Err(ValueError("Invalid semver: " + ver))
    else
      var w := Next(parsed.value, part);
      FormatParses(w);
      Ok(Format(w))
  }

  /** A bumped version can be bumped again: the output is in the accepted
      language, spelled without leading zeros or a trailing newline. */
  lemma BumpAgain(ver: string, part: string, part': string)
    requires SemverBump(ver, part).Ok?
    ensures SemverBump(SemverBump(ver, part).value, part').Ok?
  {
    var w := Next(ParseSemver(ver).value, part);
    FormatParses(w);
  }

  // ---------------------------------------------------------------------
  // expand_glob

  /** Picking from a list without repetitions gives a list without
      repetitions. */
  lemma {:induction false} SubsequenceDistinct(r: seq<string>, s: seq<string>)
    requires Subsequence(r, s) && Distinct(s)
    ensures Distinct(r)
    decreases |s|
  {
    if |r| > 0 {
      assert Distinct(s[1..]);
      if r[0] == s[0] && Subsequence(r[1..], s[1..]) {
        SubsequenceDistinct(r[1..], s[1..]);
        SubsequenceMembers(r[1..], s[1..]);
        assert s[0] !in s[1..];
        assert forall j :: 0 < j < |r| ==> r[j] in r[1..];
      } else {
        SubsequenceDistinct(r, s[1..]);
      }
    }
  }

  /** `expand_glob(files_dict, pattern)`, with `matches(path)` standing for
      `fnmatch.fnmatch(path, pattern)`: the tracked paths the pattern
      selects, in the order they are tracked. */
  function ExpandGlob(keys: seq<string>, matches: string -> bool): (r: seq<string>)
    ensures Subsequence(r, keys)
    ensures forall x :: x in r <==> x in keys && matches(x)
  {
    Filter(keys, matches)
  }

  // ---------------------------------------------------------------------
  // bump_files

  /** A tracked path whose version `semver_bump` accepts. */
  predicate Bumpable(files: Entries, t: string) {
    Has(files, t) && Get(files, t).Str? && ParseSemver(Get(files, t).s).Some?
  }

  /** The version text a bumpable path moves to. */
  function Bumped(files: Entries, t: string, level: string): string
    requires Bumpable(files, t)
  {
    Format(Next(ParseSemver(Get(files, t).s).value, level))
  }

  /** One iteration of the `bump_files` loop. */
  function BumpOne(files: Entries, t: string, level: string): (r: Result<string, Failure>)
    ensures r.Ok? <==> Bumpable(files, t)
    ensures r.Ok? ==> r.value == Bumped(files, t, level)
  {
    if !Has(files, t) then Err(KeyError(t))
    else
      var prev := Get(files, t);
      if !prev.Str? then Err(TypeError(t))
      else
        match SemverBump(prev.s, level)
        case Err(e) => Err(e)
        case Ok(n) => Ok(n)
  }

  /** The loop of `bump_files` from some point on: `files` is the mapping so
      far and `changed` the `{file: new_version}` result so far. The loop
      only ever rewrites values, so the tracked paths keep their order. */
  function BumpEach(files: Entries, changed: Entries, targets: seq<string>, level: string)
    : (r: Result<(Entries, Entries), Failure>)
    ensures r.Ok? ==> Keys(r.value.0) == Keys(files)
    decreases |targets|
  {
    if |targets| == 0 then Ok((files, changed))
    else
      var t := targets[0];
      match BumpOne(files, t, level)
      case Err(e) => Err(e)
      case Ok(n) => BumpEach(Set(files, t, Str(n)), Set(changed, t, Str(n)), targets[1..], level)
  }

  /** What one iteration leaves for the rest of the loop: the other targets
      are bumpable, and bump to the same text, exactly as before. */
  lemma BumpStep(files: Entries, changed: Entries, targets: seq<string>, level: string, n: string)
    requires |targets| > 0 && BumpOne(files, targets[0], level) == Ok(n)
    ensures var t := targets[0];
      var files' := Set(files, t, Str(n));
      && (forall k :: k != t ==> (Bumpable(files', k) <==> Bumpable(files, k)))
      && (forall k :: k != t && Bumpable(files, k) ==> Bumped(files', k, level) == Bumped(files, k, level))
      && (forall k :: k in targets <==> k == t || k in targets[1..])
      && (Distinct(targets) ==> Distinct(targets[1..]) && t !in targets[1..])
      && (!Has(changed, t) ==> Keys(Set(changed, t, Str(n))) == Keys(changed) + [t])
      && [t] + targets[1..] == targets
  {
    SetKeepsOthers(files, targets[0], Str(n), level);
    TargetsSplit(targets);
    ChangedGrows(changed, targets[0], Str(n));
  }

  /** Storing under one key leaves every other path's bump as it was. */
  lemma SetKeepsOthers(files: Entries, t: string, v: Json, level: string)
    ensures forall k :: k != t ==> (Bumpable(Set(files, t, v), k) <==> Bumpable(files, k))
    ensures forall k :: k != t && Bumpable(files, k) ==> Bumped(Set(files, t, v), k, level) == Bumped(files, k, level)
  {
  }

  /** A target list is its head followed by its tail. */
  lemma TargetsSplit(targets: seq<string>)
    requires |targets| > 0
    ensures forall k :: k in targets <==> k == targets[0] || k in targets[1..]
    ensures Distinct(targets) ==> Distinct(targets[1..]) && targets[0] !in targets[1..]
    ensures [targets[0]] + targets[1..] == targets
  {
    assert targets == [targets[0]] + targets[1..];
  }

  /** Recording a new path appends it to the keys. */
  lemma ChangedGrows(changed: Entries, t: string, v: Json)
    ensures !Has(changed, t) ==> Keys(Set(changed, t, v)) == Keys(changed) + [t]
  {
  }

  /** The loop stops with an exception exactly when some target is untracked
      or holds no valid version. */
  lemma {:induction false} BumpEachFails(files: Entries, changed: Entries, targets: seq<string>, level: string)
    requires Distinct(targets)
    ensures BumpEach(files, changed, targets, level).Err? <==> exists t :: t in targets && !Bumpable(files, t)
    decreases |targets|
  {
    if |targets| > 0 {
      var t := targets[0];
      var one := BumpOne(files, t, level);
      if one.Ok? {
        BumpStep(files, changed, targets, level, one.value);
        BumpEachFails(Set(files, t, Str(one.value)), Set(changed, t, Str(one.value)), targets[1..], level);
      }
    }
  }

  /** Paths that are not targets keep their version, and the result gains no
      entry for them. */
  lemma {:induction false} BumpEachOthers(files: Entries, changed: Entries, targets: seq<string>, level: string)
    requires BumpEach(files, changed, targets, level).Ok?
    ensures var r := BumpEach(files, changed, targets, level).value;
      forall k :: k !in targets ==> Get(r.0, k) == Get(files, k) && Get(r.1, k) == Get(changed, k)
    decreases |targets|
  {
    if |targets| > 0 {
      var t := targets[0];
      var n := BumpOne(files, t, level).value;
      BumpStep(files, changed, targets, level, n);
      BumpEachOthers(Set(files, t, Str(n)), Set(changed, t, Str(n)), targets[1..], level);
    }
  }

  /** Every target moves to its bumped version, in the mapping and in the
      result alike. */
  lemma {:induction false} BumpEachTargets(files: Entries, changed: Entries, targets: seq<string>, level: string)
    requires Distinct(targets) && BumpEach(files, changed, targets, level).Ok?
    ensures var r := BumpEach(files, changed, targets, level).value;
      forall t :: t in targets ==>
        (Bumpable(files, t) && Get(r.0, t) == Str(Bumped(files, t, level)) && Get(r.1, t) == Str(Bumped(files, t, level)))
    decreases |targets|
  {
    if |targets| > 0 {
      var t := targets[0];
      var n := BumpOne(files, t, level).value;
      var files', changed' := Set(files, t, Str(n)), Set(changed, t, Str(n));
      BumpStep(files, changed, targets, level, n);
      BumpEachTargets(files', changed', targets[1..], level);
      BumpEachOthers(files', changed', targets[1..], level);
      var r := BumpEach(files', changed', targets[1..], level).value;
      assert BumpEach(files, changed, targets, level).value == r;
      forall u | u in targets
        ensures Bumpable(files, u) && Get(r.0, u) == Str(Bumped(files, u, level)) && Get(r.1, u) == Str(Bumped(files, u, level))
      {
        if u == t {
          assert u !in targets[1..];
        } else {
          assert u in targets[1..];
        }
      }
    }
  }

  /** The result lists the targets after what it already held, in order. */
  lemma {:induction false} BumpEachChanged(files: Entries, changed: Entries, targets: seq<string>, level: string)
    requires Distinct(targets) && BumpEach(files, changed, targets, level).Ok?
    requires forall t :: t in targets ==> !Has(changed, t)
    ensures Keys(BumpEach(files, changed, targets, level).value.1) == Keys(changed) + targets
    decreases |targets|
  {
    if |targets| > 0 {
      var t := targets[0];
      var n := BumpOne(files, t, level).value;
      BumpStep(files, changed, targets, level, n);
      var changed' := Set(changed, t, Str(n));
      assert BumpEach(files, changed, targets, level) == BumpEach(Set(files, t, Str(n)), changed', targets[1..], level);
      assert Keys(changed') == Keys(changed) + [t];
      assert forall k :: k in targets[1..] ==> !Has(changed', k);
      BumpEachChanged(Set(files, t, Str(n)), changed', targets[1..], level);
      ConcatAssoc(Keys(changed), [t], targets[1..]);
    }
  }

  /** `bump_files(files_dict, targets, level)`: the updated mapping and the
      `{file: new_version}` result. */
  function BumpFiles(files: Entries, targets: seq<string>, level: string)
    : (r: Result<(Entries, Entries), Failure>)
    ensures Distinct(targets) ==> (r.Err? <==> exists t :: t in targets && !Bumpable(files, t))
    ensures Distinct(targets) && r.Ok? ==> forall t :: t in targets ==>
      Get(r.value.0, t) == Str(Bumped(files, t, level)) && Get(r.value.1, t) == Str(Bumped(files, t, level))
    ensures Distinct(targets) && r.Ok? ==> forall k :: k !in targets ==> Get(r.value.0, k) == Get(files, k)
    ensures r.Ok? ==> Keys(r.value.0) == Keys(files)
    ensures Distinct(targets) && r.Ok? ==> Keys(r.value.1) == targets
  {
    var r := BumpEach(files, [], targets, level);
    if Distinct(targets) then
      BumpEachFails(files, [], targets, level);
      if r.Ok? then
        BumpEachOthers(files, [], targets, level);
        BumpEachTargets(files, [], targets, level);
        BumpEachChanged(files, [], targets, level);
        r
      else r
    else r
  }

  // ---------------------------------------------------------------------
  // main: target resolution, project bump, changelog entry

  const ProjectTarget := "project"
  const AllTarget := "all"

  predicate IsGlob(target: string) {
    '*' in target || '?' in target
  }

  /** The list of file targets, or the exit status 1 the script stops with. */
  function ResolveTargets(target: string, keys: seq<string>, matches: string -> bool)
    : (r: Result<seq<string>, nat>)
    ensures r.Err? ==> r.error == 1
    ensures r.Ok? ==> Subsequence(r.value, keys) || r.value == [target]
    ensures r.Ok? ==> forall t :: t in r.value ==> t in keys
    ensures (r.Ok? && r.value == []) <==> Lower(target) == ProjectTarget
    ensures Lower(target) == AllTarget ==> (r.Ok? <==> |keys| > 0) && (r.Ok? ==> r.value == keys)
    ensures Lower(target) != ProjectTarget && Lower(target) != AllTarget && IsGlob(target) ==>
      (r.Ok? <==> exists k :: k in keys && matches(k)) && (r.Ok? ==> r.value == ExpandGlob(keys, matches))
    ensures Lower(target) != ProjectTarget && Lower(target) != AllTarget && !IsGlob(target) ==>
      (r.Ok? <==> target in keys) && (r.Ok? ==> r.value == [target])
  {
    var lower := Lower(target);
    if lower == ProjectTarget then Ok([])
    else if lower == AllTarget then
      if |keys| == 0 then Err(1) else (SubsequenceSelf(keys); Ok(keys))
    else if IsGlob(target) then
      var g := ExpandGlob(keys, matches);
      assert forall k :: k in keys && matches(k) ==> k in g;
      if |g| == 0 then Err(1)
      else
        assert g[0] in keys && matches(g[0]);
        Ok(g)
    else if target in keys then Ok([target])
    else Err(1)
  }

  /** Resolved targets never repeat when the tracked paths do not, which is
      what makes `bump_files` touch each of them exactly once. */
  lemma ResolvedDistinct(target: string, keys: seq<string>, matches: string -> bool)
    requires Distinct(keys)
    requires ResolveTargets(target, keys, matches).Ok?
    ensures Distinct(ResolveTargets(target, keys, matches).value)
  {
    var r := ResolveTargets(target, keys, matches).value;
    if r != [target] {
      SubsequenceDistinct(r, keys);
    }
  }

  const ProjectKey := "project_version"
  const FilesKey := "files"
  const DefaultVersion := "0.0.0"

  /** `versions.get("project_version", "0.0.0")` */
  function ProjectOld(versions: Entries): Json {
    GetOr(versions, ProjectKey, Str(DefaultVersion))
  }

  /** The outcome of the project step: the mapping, the project version the
      changelog heading shows, and whether it was bumped. */
  datatype ProjectStep = ProjectStep(versions: Entries, after: Json, bumped: bool)

  /** The `--project` step of `main`. */
  function ProjectBump(versions: Entries, level: Option<string>): (r: Result<ProjectStep, Failure>)
    ensures level.None? ==> r == Ok(ProjectStep(versions, ProjectOld(versions), false))
    ensures level.Some? ==> (r.Ok? <==> ProjectOld(versions).Str? && ParseSemver(ProjectOld(versions).s).Some?)
    ensures level.Some? && r.Ok? ==>
      && r.value.bumped && r.value.after.Str?
      && Get(r.value.versions, ProjectKey) == r.value.after
      && ParseSemver(r.value.after.s) == Some(Next(ParseSemver(ProjectOld(versions).s).value, level.value))
    ensures r.Ok? ==> forall k :: k != ProjectKey ==> Get(r.value.versions, k) == Get(versions, k)
  {
    var prev := ProjectOld(versions);
    if level.None? then Ok(ProjectStep(versions, prev, false))
    else if !prev.Str? then Err(TypeError(ProjectKey))
    else
      match SemverBump(prev.s, level.value)
      case Err(e) => Err(e)
      case Ok(n) => Ok(ProjectStep(Set(versions, ProjectKey, Str(n)), Str(n), true))
  }

  const Arrow := " \U{2192} v"
  const FileBumpsLine := "  - File bumps:"
  const ProjectLinePrefix := "  - Project version"

  function HeadingLine(after: string, date: string): string {
    "## [" + after + "] - " + date
  }

  function ProjectLine(after: string): string {
    ProjectLinePrefix + Arrow + after
  }

  function FileLine(path: string, version: string): string {
    "    \U{2022} " + path + Arrow + version
  }

  /** The lines `append_release_entry` joins with newlines. */
  function ReleaseLines(after: string, message: string, bumped: Entries, projectBumped: bool, date: string)
    : (ls: seq<string>)
    ensures |ls| == 2 + (if projectBumped then 1 else 0) + (if |bumped| > 0 then 1 + |bumped| else 0)
    ensures ls[0] == HeadingLine(after, date) && ls[1] == "- " + message
    ensures projectBumped ==> ls[2] == ProjectLine(after)
    ensures var k := if projectBumped then 3 else 2;
      && (|bumped| > 0 ==> ls[k] == FileBumpsLine)
      && (forall i :: 0 <= i < |bumped| ==> ls[k + 1 + i] == FileLine(bumped[i].0, PyStr(bumped[i].1)))
  {
    var head := [HeadingLine(after, date), "- " + message];
    var proj := if projectBumped then [ProjectLine(after)] else [];
    var files := seq(|bumped|, i requires 0 <= i < |bumped| => FileLine(bumped[i].0, PyStr(bumped[i].1)));
    head + proj + (if |bumped| > 0 then [FileBumpsLine] + files else [])
  }

  /** The project line appears in the entry exactly when the project was
      bumped: no other line of the entry can take its form. */
  lemma {:induction false} ProjectLineIff(after: string, message: string, bumped: Entries, projectBumped: bool, date: string)
    ensures var ls := ReleaseLines(after, message, bumped, projectBumped, date);
      projectBumped <==> ProjectLine(after) in ls
  {
    var ls := ReleaseLines(after, message, bumped, projectBumped, date);
    var p := ProjectLine(after);
    var k := if projectBumped then 3 else 2;
    LineShapes(after, message, date);
    if !projectBumped {
      forall j | 0 <= j < |ls| ensures ls[j] != p {
        if j >= k + 1 {
          var i := j - k - 1;
          assert ls[j] == FileLine(bumped[i].0, PyStr(bumped[i].1));
          FileLineShape(bumped[i].0, PyStr(bumped[i].1));
        }
      }
    }
  }

  /** The characters that tell the fixed lines of an entry apart. */
  lemma LineShapes(after: string, message: string, date: string)
    ensures var p := ProjectLine(after); |p| > 4 && p[0] == ' ' && p[2] == '-' && p[4] == 'P'
    ensures HeadingLine(after, date)[0] == '#'
    ensures ("- " + message)[0] == '-'
    ensures FileBumpsLine[4] == 'F'
  {
  }

  /** A file line is indented by four spaces. */
  lemma FileLineShape(path: string, version: string)
    ensures |FileLine(path, version)| > 4 && FileLine(path, version)[2] == ' '
  {
  }

  /** `prepend_changelog_block`, with `existing` the current changelog text
      (`None` when the file does not exist yet and is created first). */
  function PrependBlock(block: string, existing: Option<string>): (r: string)
    ensures StartsWith(r, block + "\n\n")
    ensures existing.Some? ==> EndsWith(r, existing.value)
    ensures existing.None? ==> EndsWith(r, "# Changelog\n")
    ensures |r| == |block| + 2 + |existing.GetOr("# Changelog\n")|
  {
    var prev := existing.GetOr("# Changelog\n");
    var r := block + "\n\n" + prev;
    assert r[..|block| + 2] == block + "\n\n";
    assert r[|r| - |prev|..] == prev;
    r
  }

  /** The entry is one line per element of `ReleaseLines`: splitting it at
      newlines gives the lines back whenever the message and paths hold no
      newline of their own. */
  lemma ReleaseBlockLines(after: string, message: string, bumped: Entries, projectBumped: bool, date: string)
    requires forall i :: 0 <= i < |ReleaseLines(after, message, bumped, projectBumped, date)| ==>
      '\n' !in ReleaseLines(after, message, bumped, projectBumped, date)[i]
    ensures var ls := ReleaseLines(after, message, bumped, projectBumped, date);
      Split(Join(ls, "\n"), '\n') == ls
  {
    JoinSplit(ReleaseLines(after, message, bumped, projectBumped, date), '\n');
  }

  /** What a run of `bump_file_versions.py` ends in: the new `versions.yml`
      mapping and changelog text, an exit status, or an exception. */
  datatype Run = Done(versions: Entries, changelog: string) | Exit(code: nat) | Raised(failure: Failure)

  /** `main()` from loading `versions.yml` to writing the changelog, with
      `matches` standing for `fnmatch` against the target pattern and
      `existing` the current changelog text. */
  function Release(versions: Entries, target: string, message: string, level: string,
                   project: Option<string>, date: string, existing: Option<string>,
                   matches: string -> bool): (r: Run)
    ensures r.Exit? ==> r.code == 1
    ensures !GetOr(versions, FilesKey, Obj([])).Obj? ==> r == Exit(1)
    ensures r.Done? && project.None? ==> Get(r.versions, ProjectKey) == Get(versions, ProjectKey)
    ensures r.Done? && Lower(target) == ProjectTarget ==> Get(r.versions, FilesKey) == Get(versions, FilesKey)
    ensures r.Done? ==> forall k :: k != ProjectKey && k != FilesKey ==> Get(r.versions, k) == Get(versions, k)
    ensures r.Done? ==> EndsWith(r.changelog, existing.GetOr("# Changelog\n"))
    ensures r.Exit? <==>
      (!GetOr(versions, FilesKey, Obj([])).Obj? ||
       ResolveTargets(target, Keys(GetOr(versions, FilesKey, Obj([])).entries), matches).Err?)
    ensures r.Done? ==>
      (ProjectBump(versions, project).Ok? &&
       Get(r.versions, ProjectKey) == Get(ProjectBump(versions, project).value.versions, ProjectKey))
  {
    var files := GetOr(versions, FilesKey, Obj([]));
    if !files.Obj? then Exit(1)
    else
      match ResolveTargets(target, Keys(files.entries), matches)
      case Err(code) => Exit(code)
      case Ok(targets) =>
        match ProjectBump(versions, project)
        case Err(f) => Raised(f)
        case Ok(step) =>
          var bumped := if |targets| > 0 then BumpFiles(files.entries, targets, level) else Ok((files.entries, []));
          if bumped.Err? then Raised(bumped.error)
          else
            var versions' := if |targets| > 0 then Set(step.versions, FilesKey, Obj(bumped.value.0)) else step.versions;
            var lines := ReleaseLines(PyStr(step.after), message, bumped.value.1, step.bumped, date);
            Done(versions', PrependBlock(Join(lines, "\n"), existing))
  }

  /** Once the targets resolve and the project step succeeds, the run is
      `bump_files` on the targets (skipped when there are none) followed by
      the changelog entry built from its `{file: new_version}` result. */
  lemma ReleaseSteps(versions: Entries, target: string, message: string, level: string,
                     project: Option<string>, date: string, existing: Option<string>,
                     matches: string -> bool, targets: seq<string>, step: ProjectStep)
    requires GetOr(versions, FilesKey, Obj([])).Obj?
    requires ResolveTargets(target, Keys(GetOr(versions, FilesKey, Obj([])).entries), matches) == Ok(targets)
    requires ProjectBump(versions, project) == Ok(step)
    ensures var r := Release(versions, target, message, level, project, date, existing, matches);
      var files := GetOr(versions, FilesKey, Obj([])).entries;
      && (|targets| == 0 ==>
            r == Done(step.versions, PrependBlock(Join(ReleaseLines(PyStr(step.after), message, [], step.bumped, date), "\n"), existing)))
      && (|targets| > 0 && BumpFiles(files, targets, level).Err? ==> r == Raised(BumpFiles(files, targets, level).error))
      && (|targets| > 0 && BumpFiles(files, targets, level).Ok? ==>
            var b := BumpFiles(files, targets, level).value;
            r == Done(Set(step.versions, FilesKey, Obj(b.0)),
                      PrependBlock(Join(ReleaseLines(PyStr(step.after), message, b.1, step.bumped, date), "\n"), existing)))
  {
  }

  /** A failing project step stops the run with its exception. */
  lemma ReleaseProjectFails(versions: Entries, target: string, message: string, level: string,
                            project: Option<string>, date: string, existing: Option<string>,
                            matches: string -> bool)
    requires GetOr(versions, FilesKey, Obj([])).Obj?
    requires ResolveTargets(target, Keys(GetOr(versions, FilesKey, Obj([])).entries), matches).Ok?
    requires ProjectBump(versions, project).Err?
    ensures Release(versions, target, message, level, project, date, existing, matches)
      == Raised(ProjectBump(versions, project).error)
  {
  }

  // ---------------------------------------------------------------------
  // scripts/bump_version.py

  /** Three integers, which `int()` lets be negative. */
  datatype Triple = Triple(major: int, minor: int, patch: int)

  /** `[int(x) for x in ver.split(".")]` unpacked into three names; `None`
      where the unpacking or an `int()` raises `ValueError`. */
  function ParseTriple(ver: string): (r: Option<Triple>)
    ensures r.Some? ==> |Split(ver, '.')| == 3
  {
    var p := Split(ver, '.');
    if |p| != 3 then None
    else
      var a := ParseInt(p[0]);
      var b := ParseInt(p[1]);
      var c := ParseInt(p[2]);
      if a.Some? && b.Some? && c.Some? then Some(Triple(a.value, b.value, c.value)) else None
  }

  /** The level rules of `bump`, the same as `Next` on three integers. */
  function NextTriple(t: Triple, part: string): (u: Triple)
    ensures part == "major" ==> u == Triple(t.major + 1, 0, 0)
    ensures part == "minor" ==> u == Triple(t.major, t.minor + 1, 0)
    ensures part != "major" && part != "minor" ==> u == Triple(t.major, t.minor, t.patch + 1)
  {
    if part == "major" then Triple(t.major + 1, 0, 0)
    else if part == "minor" then Triple(t.major, t.minor + 1, 0)
    else Triple(t.major, t.minor, t.patch + 1)
  }

  /** `f"{major}.{minor}.{patch}"` on integers. */
  function FormatTriple(t: Triple): string {
    IntToString(t.major) + "." + IntToString(t.minor) + "." + IntToString(t.patch)
  }

  lemma NoDotInInt(i: int)
    ensures '.' !in IntToString(i)
  {
    var n: nat := if i < 0 then -i else i;
    assert !IsDigit('.');
    assert forall j :: 0 <= j < |NatToString(n)| ==> NatToString(n)[j] != '.';
  }

  /** The text `bump` stores reads back as the triple it formatted. */
  lemma {:induction false} FormatTripleParses(t: Triple)
    ensures ParseTriple(FormatTriple(t)) == Some(t)
  {
    NoDotInInt(t.major);
    NoDotInInt(t.minor);
    NoDotInInt(t.patch);
    Join3(IntToString(t.major), IntToString(t.minor), IntToString(t.patch));
    JoinSplit([IntToString(t.major), IntToString(t.minor), IntToString(t.patch)], '.');
    IntToStringRoundTrip(t.major);
    IntToStringRoundTrip(t.minor);
    IntToStringRoundTrip(t.patch);
  }

  const VersionKey := "version"

  const BumpNote := "\n- Version bump.\n"

  /** The changelog after `bump` appends its entry: the old text untouched,
      then a heading with the new version and the fixed note. */
  function AppendBumpEntry(changelog: string, version: string, date: string): (log: string)
    ensures StartsWith(log, changelog)
    ensures EndsWith(log, BumpNote)
    ensures |log| == |changelog| + |version| + |date| + 7 + |BumpNote|
  {
    var entry := "\n## " + version + " - " + date + BumpNote;
    var log := changelog + entry;
    assert log[..|changelog|] == changelog;
    assert log[|log| - |BumpNote|..] == BumpNote;
    log
  }

  /** What `bump` leaves behind: the new mapping, the version it prints, and
      the changelog text after the append. */
  datatype Bump = Bump(data: Entries, version: string, changelog: string)

  /** `data.get("version", "0.0.0")` */
  function VersionOf(data: Entries): Json {
    GetOr(data, VersionKey, Str(DefaultVersion))
  }

  /** `bump(part)`, with `data` the decoded `versions.yml`, `date` the UTC
      date and `changelog` the current changelog text. */
  function BumpVersion(data: Json, part: string, date: string, changelog: string): (r: Result<Bump, Failure>)
    ensures !data.Obj? ==> r == Err(AttributeError(VersionKey))
    ensures data.Obj? ==> (r.Ok? <==> VersionOf(data.entries).Str? && ParseTriple(VersionOf(data.entries).s).Some?)
    ensures data.Obj? && !VersionOf(data.entries).Str? ==> r == Err(AttributeError(VersionKey))
    ensures r.Ok? ==> ParseTriple(r.value.version) == Some(NextTriple(ParseTriple(VersionOf(data.entries).s).value, part))
    ensures r.Ok? ==> Get(r.value.data, VersionKey) == Str(r.value.version)
    ensures r.Ok? ==> forall k :: k != VersionKey ==> Get(r.value.data, k) == Get(data.entries, k)
    ensures r.Ok? ==> StartsWith(r.value.changelog, changelog) && EndsWith(r.value.changelog, BumpNote)
  {
    if !data.Obj? then Err(AttributeError(VersionKey))
    else
      var ver := VersionOf(data.entries);
      if !ver.Str? then Err(AttributeError(VersionKey))
      else
        var t := ParseTriple(ver.s);
        if t.None? then Err(ValueError(ver.s))
        else
          var u := NextTriple(t.value, part);
          var v := FormatTriple(u);
          FormatTripleParses(u);
          Ok(Bump(Set(data.entries, VersionKey, Str(v)), v, AppendBumpEntry(changelog, v, date)))
  }

  lemma {:induction false} StripDigitsNewline(d: string)
    requires IsNumber(d)
    ensures Strip(d + "\n") == d
  {
    var s := d + "\n";
    assert IsDigit(d[0]) && s[0] == d[0];
    TrimLeftNoop(s, IsSpace);
    assert s[..|s| - 1] == d;
    assert IsDigit(d[|d| - 1]);
    TrimRightNoop(d, IsSpace);
  }

  lemma {:induction false} ParseIntNumber(d: string, s: string)
    requires IsNumber(d) && (s == d || s == d + "\n")
    ensures ParseInt(s) == Some(DigitsValue(d) as int)
  {
    StripOfDigits(d);
    if s != d {
      StripDigitsNewline(d);
    }
    ParseIntUnsigned(d);
  }

  /** `bump` reads a spelling of the `semver_bump` pattern as its three
      numbers. */
  lemma {:induction false} ParseTripleOfSpelling(ver: string, a: string, b: string, c: string)
    requires Spells(ver, a, b, c)
    ensures ParseTriple(ver) == Some(Triple(DigitsValue(a), DigitsValue(b), DigitsValue(c)))
  {
    assert '.' !in a && '.' !in b && '.' !in c by {
      assert !IsDigit('.');
    }
    var last := if ver == a + "." + b + "." + c then c else c + "\n";
    assert '.' !in last;
    Join3(a, b, last);
    assert ver == a + "." + b + "." + last;
    JoinSplit([a, b, last], '.');
    var p := Split(ver, '.');
    assert p == [a, b, last];
    ParseIntNumber(a, a);
    ParseIntNumber(b, b);
    ParseIntNumber(c, last);
  }

  /** Every version `semver_bump` accepts, `bump` reads as the same three
      numbers. The converse fails: `bump` also takes signs, surrounding
      spaces and underscores. */
  lemma {:induction false} BumpScriptsAgree(ver: string, v: Version)
    requires ParseSemver(ver) == Some(v)
    ensures ParseTriple(ver) == Some(Triple(v.major, v.minor, v.patch))
  {
    var a, b, c := SpellingOf(ver);
    ParseSemverValue(ver, a, b, c);
    ParseTripleOfSpelling(ver, a, b, c);
  }

  /** On the versions both scripts read, their level rules agree. */
  lemma LevelRulesAgree(v: Version, part: string)
    ensures var w := Next(v, part);
      NextTriple(Triple(v.major, v.minor, v.patch), part) == Triple(w.major, w.minor, w.patch)
  {
  }
}

=== FILE: shape.dfy ===
/** `_as_items` of the OHGO connector: whatever shape of payload the API sent
    back, the list of record dicts inside it plus the paging metadata. A
    GeoJSON FeatureCollection (section 3.3 of RFC 7946) is unwrapped through
    its `features` member. */
module Shape {
  import opened Wrappers
  import opened Strings
  import opened Json
  import opened Fields

  /** The record dicts found in a payload and the paging metadata. Items are
      dict entries by construction: non-dict elements never get through. */
  datatype Items = Items(items: seq<Entries>, meta: Entries)

  /** Keys tried, in order and ignoring case, for a wrapped list. */
  const WrapperKeys: seq<string> := ["Results", "items", "data", "results", "incidents", "content", "value"]

  /** The only metadata keys copied from a wrapped list response. */
  const MetaKeys: seq<string> := ["TotalResultCount", "CurrentResultCount", "TotalPageCount", "LastUpdated"]

  /** `[x for x in xs if isinstance(x, dict)]` */
  function DictsOf(xs: seq<Json>): (r: seq<Entries>)
    ensures |r| <= |xs|
    ensures forall e :: e in r ==> Obj(e) in xs
    ensures forall i :: 0 <= i < |xs| && xs[i].Obj? ==> xs[i].entries in r
    decreases |xs|
  {
    if |xs| == 0 then []
    else
      var rest := DictsOf(xs[1..]);
      assert forall i :: 1 <= i < |xs| ==> xs[i] == xs[1..][i - 1];
      if xs[0].Obj? then [xs[0].entries] + rest else rest
  }

  /** The filter keeps the dicts in their original relative order. */
  lemma {:induction false} DictsOfAppend(a: seq<Json>, b: seq<Json>)
    ensures DictsOf(a + b) == DictsOf(a) + DictsOf(b)
    decreases |a|
  {
    if |a| > 0 {
      assert (a + b)[1..] == a[1..] + b;
      DictsOfAppend(a[1..], b);
    } else {
      assert a + b == b;
    }
  }

  /** A list made only of dicts passes the filter unchanged. */
  lemma {:induction false} DictsOfAllDicts(xs: seq<Json>)
    requires forall i :: 0 <= i < |xs| ==> xs[i].Obj?
    ensures |DictsOf(xs)| == |xs|
    ensures forall i :: 0 <= i < |xs| ==> DictsOf(xs)[i] == xs[i].entries
    decreases |xs|
  {
    if |xs| > 0 {
      var rest := DictsOf(xs[1..]);
      assert DictsOf(xs) == [xs[0].entries] + rest;
      DictsOfAllDicts(xs[1..]);
      assert forall i :: 1 <= i < |xs| ==> xs[i] == xs[1..][i - 1];
    }
  }

  /** The index of the first wrapper key whose value is a list or a dict. */
  function FirstWrapper(es: Entries, keys: seq<string>): (r: Option<nat>)
    ensures r.Some? ==> r.value < |keys| && (CiGet(es, keys[r.value]).Arr? || CiGet(es, keys[r.value]).Obj?)
    ensures r.Some? ==> forall j :: 0 <= j < r.value ==> !(CiGet(es, keys[j]).Arr? || CiGet(es, keys[j]).Obj?)
    ensures r.None? ==> forall j :: 0 <= j < |keys| ==> !(CiGet(es, keys[j]).Arr? || CiGet(es, keys[j]).Obj?)
    decreases |keys|
  {
    if |keys| == 0 then None
    else
      var v := CiGet(es, keys[0]);
      if v.Arr? || v.Obj? then Some(0)
      else match FirstWrapper(es, keys[1..])
        case Some(n) => Some(n + 1)
        case None => None
  }

  /** The metadata dict: every listed key whose case-insensitive lookup is
      not `None`, in list order. */
  function MetaOf(es: Entries, keys: seq<string>): (m: Entries)
    ensures |m| <= |keys|
    ensures forall i :: 0 <= i < |m| ==> m[i].0 in keys && m[i].1 != Null && m[i].1 == CiGet(es, m[i].0)
    ensures forall k :: k in keys && CiGet(es, k) != Null ==> k in Keys(m)
    decreases |keys|
  {
    if |keys| == 0 then []
    else
      var v := CiGet(es, keys[0]);
      var rest := MetaOf(es, keys[1..]);
      assert forall k :: k in keys && k != keys[0] ==> k in keys[1..];
      if v != Null then
        var m := [(keys[0], v)] + rest;
        assert forall k :: k in Keys(rest) ==> k in Keys(m) by {
          forall k | k in Keys(rest) ensures k in Keys(m) {
            var i :| 0 <= i < |rest| && Keys(rest)[i] == k;
            assert Keys(m)[i + 1] == k;
          }
        }
        assert Keys(m)[0] == keys[0];
        m
      else rest
  }

  /** `_as_items(data)`. A string payload is decoded and examined again; text
      that does not decode gives nothing. */
  function AsItems(env: Oracles, data: Json): (r: Items)
    requires DecodeShrinks(env)
    ensures forall i :: 0 <= i < |r.meta| ==> r.meta[i].0 in MetaKeys && r.meta[i].1 != Null
    ensures data.Arr? ==> r == Items(DictsOf(data.items), [])
    ensures data.Null? || data.Bool? || data.Int? || data.Float? ==> r == Items([], [])
    ensures data.Obj? && FirstWrapper(data.entries, WrapperKeys).Some? &&
            CiGet(data.entries, WrapperKeys[FirstWrapper(data.entries, WrapperKeys).value]).Arr? ==>
      r == Items(DictsOf(CiGet(data.entries, WrapperKeys[FirstWrapper(data.entries, WrapperKeys).value]).items),
                 MetaOf(data.entries, MetaKeys))
    decreases if data.Str? then |data.s| + 1 else 0
  {
    match data
    case Obj(es) =>
      var w := FirstWrapper(es, WrapperKeys);
      if w.Some? then
        var val := CiGet(es, WrapperKeys[w.value]);
        if val.Arr? then Items(DictsOf(val.items), MetaOf(es, MetaKeys))
        else Items([val.entries], [])
      else
        var feats := CiGet(es, "features");
        if feats.Arr? then Items(DictsOf(feats.items), [])
        else Items(if |es| > 0 then [es] else [], [])
    case Arr(xs) => Items(DictsOf(xs), [])
    case Str(text) =>
      var decoded := env.decode(text);
      if decoded.Some? then AsItems(env, decoded.value) else Items([], [])
    case _ => Items([], [])
  }

  /** Metadata comes back only when the payload (after decoding) is a dict
      whose first wrapper value is a list. */
  lemma {:induction false} AsItemsMetaOnlyForWrappedList(env: Oracles, data: Json)
    requires DecodeShrinks(env)
    requires data.Obj?
    requires AsItems(env, data).meta != []
    ensures FirstWrapper(data.entries, WrapperKeys).Some?
    ensures CiGet(data.entries, WrapperKeys[FirstWrapper(data.entries, WrapperKeys).value]).Arr?
    ensures AsItems(env, data).meta == MetaOf(data.entries, MetaKeys)
  {
  }

  /** The usual OHGO page, a dict whose first wrapper key holds a list (say
      `{"results": [...], "TotalPageCount": 3}`), gives the dicts of that list,
      in order, together with the metadata. */
  lemma WrappedListItems(env: Oracles, es: Entries, k: nat)
    requires DecodeShrinks(env)
    requires FirstWrapper(es, WrapperKeys) == Some(k)
    requires CiGet(es, WrapperKeys[k]).Arr?
    ensures AsItems(env, Obj(es)) == Items(DictsOf(CiGet(es, WrapperKeys[k]).items), MetaOf(es, MetaKeys))
  {
  }

  /** The first wrapper wins: a list under `Results` is used even when a later
      wrapper key also holds one, and a dict under a wrapper key comes back
      as a single item. */
  lemma WrapperDictIsSingleton(env: Oracles, es: Entries, k: nat)
    requires DecodeShrinks(env)
    requires FirstWrapper(es, WrapperKeys) == Some(k)
    requires CiGet(es, WrapperKeys[k]).Obj?
    ensures AsItems(env, Obj(es)) == Items([CiGet(es, WrapperKeys[k]).entries], [])
  {
  }

  /** A FeatureCollection (section 3.3 of RFC 7946) with no wrapper key gives
      its dict features, in order, and no metadata. */
  lemma FeatureCollectionItems(env: Oracles, es: Entries)
    requires DecodeShrinks(env)
    requires FirstWrapper(es, WrapperKeys).None?
    requires CiGet(es, "features").Arr?
    ensures AsItems(env, Obj(es)) == Items(DictsOf(CiGet(es, "features").items), [])
  {
  }

  /** A bare record (no wrapper, no features) is returned as the only item;
      an empty dict gives nothing. */
  lemma BareRecord(env: Oracles, es: Entries)
    requires DecodeShrinks(env)
    requires FirstWrapper(es, WrapperKeys).None? && !CiGet(es, "features").Arr?
    ensures AsItems(env, Obj(es)).items == (if |es| > 0 then [es] else [])
  {
  }

  /** Text that decodes is treated exactly like the decoded value. */
  lemma DecodedText(env: Oracles, text: string)
    requires DecodeShrinks(env)
    ensures env.decode(text).Some? ==> AsItems(env, Str(text)) == AsItems(env, env.decode(text).value)
    ensures env.decode(text).None? ==> AsItems(env, Str(text)) == Items([], [])
  {
  }

  /** Because `Results` and `results` fold to the same lower-case key, the
      fourth wrapper key never matches where the first did not. */
  lemma ResultsKeyRedundant(es: Entries)
    ensures CiGet(es, WrapperKeys[3]) == CiGet(es, WrapperKeys[0])
  {
    assert Lower(WrapperKeys[3]) == Lower(WrapperKeys[0]);
    CiFindSameLower(es, WrapperKeys[3], WrapperKeys[0]);
  }

  lemma {:induction false} CiFindSameLower(es: Entries, a: string, b: string)
    requires Lower(a) == Lower(b)
    ensures CiFind(es, a) == CiFind(es, b)
    decreases |es|
  {
    if |es| > 0 {
      CiFindSameLower(es[1..], a, b);
    }
  }
}

=== FILE: store.dfy ===
/** The `incidents` and `roads` tables as immutable sequences of rows, in
    storage order, with the lookups the connectors run against them. */
module Store {
  import opened Wrappers
  import opened Json
  import opened Fields
  import Strings

  /** One row of `incidents`. String columns are `Option<string>` (NULL is
      `None`); the float columns (milepost, latitude, longitude) are kept as
      the opaque JSON value that was written; `rawBlob` is a JSON column. */
  datatype Row = Row(
    uuid: string,
    sourceSystem: string,
    sourceEventId: Option<string>,
    sourceUrl: Option<string>,
    state: Option<string>,
    county: Option<string>,
    route: Option<string>,
    routeClass: Option<string>,
    direction: Option<string>,
    milepost: Json,
    latitude: Json,
    longitude: Json,
    reportedTime: Option<Time>,
    updatedTime: Option<Time>,
    clearedTime: Option<Time>,
    isActive: Option<bool>,
    eventType: Option<string>,
    lanesAffected: Option<string>,
    closureStatus: Option<string>,
    severityFlag: Option<string>,
    severityScore: Option<int>,
    rawBlob: Json)

  /** The columns every upsert writes on both insert and update (the `common`
      dict of the ingest functions). */
  datatype Common = Common(
    sourceSystem: string,
    sourceEventId: string,
    state: Option<string>,
    route: Option<string>,
    routeClass: Option<string>,
    direction: Option<string>,
    latitude: Json,
    longitude: Json,
    reportedTime: Option<Time>,
    updatedTime: Option<Time>,
    clearedTime: Option<Time>,
    isActive: Option<bool>,
    eventType: Option<string>,
    lanesAffected: Option<string>,
    closureStatus: Option<string>,
    severityFlag: Option<string>,
    severityScore: Option<int>)

  /** The `common` columns as currently stored in a row. */
  function CommonOf(r: Row): Common {
    Common(r.sourceSystem, r.sourceEventId.GetOr(""), r.state, r.route, r.routeClass, r.direction,
           r.latitude, r.longitude, r.reportedTime, r.updatedTime, r.clearedTime, r.isActive,
           r.eventType, r.lanesAffected, r.closureStatus, r.severityFlag, r.severityScore)
  }

  /** `setattr(existing, k, v)` for every `(k, v)` of `common`: those columns
      take the new values and nothing else moves. */
  function ApplyCommon(r: Row, c: Common): (r': Row)
    ensures CommonOf(r') == c && r'.sourceEventId == Some(c.sourceEventId)
    ensures r'.uuid == r.uuid && r'.sourceUrl == r.sourceUrl && r'.county == r.county
    ensures r'.milepost == r.milepost && r'.rawBlob == r.rawBlob
  {
    r.(sourceSystem := c.sourceSystem, sourceEventId := Some(c.sourceEventId), state := c.state,
       route := c.route, routeClass := c.routeClass, direction := c.direction,
       latitude := c.latitude, longitude := c.longitude, reportedTime := c.reportedTime,
       updatedTime := c.updatedTime, clearedTime := c.clearedTime, isActive := c.isActive,
       eventType := c.eventType, lanesAffected := c.lanesAffected, closureStatus := c.closureStatus,
       severityFlag := c.severityFlag, severityScore := c.severityScore)
  }

  /** A freshly constructed `Incident(...)` holding `common` plus the columns
      only an insert sets. */
  function NewRow(uuid: string, c: Common, url: Option<string>, county: Option<string>,
                  milepost: Json, raw: Json): (r: Row)
    ensures r.uuid == uuid && CommonOf(r) == c && r.sourceEventId == Some(c.sourceEventId)
    ensures r.sourceUrl == url && r.county == county && r.milepost == milepost && r.rawBlob == raw
  {
    Row(uuid, c.sourceSystem, Some(c.sourceEventId), url, c.state, county, c.route, c.routeClass,
        c.direction, milepost, c.latitude, c.longitude, c.reportedTime, c.updatedTime,
        c.clearedTime, c.isActive, c.eventType, c.lanesAffected, c.closureStatus,
        c.severityFlag, c.severityScore, raw)
  }

  type Table = seq<Row>

  /** The `UNIQUE(uuid)` constraint of `incidents`. */
  predicate UniqueUuids(t: Table) {
    forall i, j :: 0 <= i < j < |t| ==> t[i].uuid != t[j].uuid
  }

  predicate HasUuid(t: Table, u: string) {
    exists i :: 0 <= i < |t| && t[i].uuid == u
  }

  /** The three outcomes of `query.filter(p).one_or_none()`; `Multiple` is the
      `MultipleResultsFound` it raises. */
  datatype Lookup = NotFound | Found(index: nat) | Multiple

  function OneOrNone(t: Table, p: Row -> bool): (r: Lookup)
    ensures r.NotFound? <==> forall j :: 0 <= j < |t| ==> !p(t[j])
    ensures r.Found? ==> r.index < |t| && p(t[r.index])
    ensures r.Found? ==> forall j :: 0 <= j < |t| && j != r.index ==> !p(t[j])
    ensures r.Multiple? ==> exists i, j :: 0 <= i < j < |t| && p(t[i]) && p(t[j])
  {
    match Strings.FirstIndex(t, p)
    case None => NotFound
    case Some(i) =>
      match Strings.FirstIndex(t[i + 1..], p)
      case None =>
        assert forall j :: i < j < |t| ==> t[j] == t[i + 1..][j - i - 1];
        Found(i)
      case Some(k) =>
        assert p(t[i + 1 + k]);
        Multiple
  }

  /** The filter `Row.uuid == u`. */
  function UuidIs(u: string): Row -> bool {
    (r: Row) => r.uuid == u
  }

  /** Looking a unique key up with `one_or_none` never raises. */
  lemma OneOrNoneByUuid(t: Table, u: string)
    requires UniqueUuids(t)
    ensures !OneOrNone(t, UuidIs(u)).Multiple?
  {
  }

  /** The per-item counters of an incident ingest. */
  datatype Tally = Tally(inserted: nat, updated: nat, skipped: nat) {
    function Total(): nat { inserted + updated + skipped }
  }

  /** What an incident ingest returns: the `{"inserted", "updated",
      "skipped"}` detail, or with `return_detail=False` the number of items
      inserted or updated. */
  datatype Outcome = Detail(tally: Tally) | Processed(count: nat)

  function Report(t: Tally, returnDetail: bool): (o: Outcome)
    ensures returnDetail ==> o == Detail(t)
    ensures !returnDetail ==> o == Processed(t.inserted + t.updated)
  {
    if returnDetail then Detail(t) else Processed(t.inserted + t.updated)
  }

  /** One row of `roads`, unique on `(sourceSystem, roadId)`. */
  datatype Road = Road(
    sourceSystem: string,
    roadId: string,
    name: Option<string>,
    description: Option<string>,
    direction: Option<string>,
    beginMile: Json,
    endMile: Json,
    length: Json,
    geometry: Json,
    lastUpdated: Option<Time>)

  /** The `roads` table's `UNIQUE(source_system, road_id)` constraint. */
  predicate UniqueRoadKeys(t: seq<Road>) {
    forall i, j :: 0 <= i < j < |t| ==>
      (t[i].sourceSystem, t[i].roadId) != (t[j].sourceSystem, t[j].roadId)
  }

  /** Under unique keys, a road's own key finds that road. */
  lemma FindRoadAt(t: seq<Road>, j: nat)
    requires UniqueRoadKeys(t) && j < |t|
    ensures FindRoad(t, t[j].sourceSystem, t[j].roadId) == Some(j)
  {
  }

  /** A key held at some index is found. */
  lemma FindRoadSome(t: seq<Road>, j: nat, system: string, id: string)
    requires j < |t| && t[j].sourceSystem == system && t[j].roadId == id
    ensures FindRoad(t, system, id).Some?
  {
  }

  /** The filter `source_system == system and road_id == id`. */
  predicate RoadKeyIs(r: Road, system: string, id: string) {
    r.sourceSystem == system && r.roadId == id
  }

  /** The index of the first road with the given key, or `None`. */
  function FindRoad(t: seq<Road>, system: string, id: string): (r: Option<nat>)
    ensures r.Some? ==> r.value < |t| && t[r.value].sourceSystem == system && t[r.value].roadId == id
    ensures r.Some? ==> forall j :: 0 <= j < r.value ==> !(t[j].sourceSystem == system && t[j].roadId == id)
    ensures r.None? ==> forall j :: 0 <= j < |t| ==> !(t[j].sourceSystem == system && t[j].roadId == id)
  {
    Strings.FirstIndex(t, (r: Road) => RoadKeyIs(r, system, id))
  }
}

=== FILE: strings.dfy ===
/** The pieces of Python's `str` API that the connectors and scripts rely on:
    whitespace, ASCII case folding, prefix/suffix/substring tests, stripping,
    splitting, joining, `replace`, and decimal conversion in both directions. */
module Strings {
  import opened Wrappers

  /** Python's `str.isspace` on one character. */
  predicate IsSpace(c: char) {
    || ('\t' <= c <= '\r')
    || ('\U{1C}' <= c <= ' ')
    || c == '\U{85}' || c == '\U{A0}' || c == '\U{1680}'
    || ('\U{2000}' <= c <= '\U{200A}')
    || c == '\U{2028}' || c == '\U{2029}' || c == '\U{202F}' || c == '\U{205F}' || c == '\U{3000}'
  }

  predicate IsSlash(c: char) { c == '/' }

  predicate IsDigit(c: char) { '0' <= c <= '9' }

  predicate AllDigits(s: string) {
    forall i :: 0 <= i < |s| ==> IsDigit(s[i])
  }

  function LowerChar(c: char): char {
    if 'A' <= c <= 'Z' then (c as int + 32) as char else c
  }

  function UpperChar(c: char): char {
    if 'a' <= c <= 'z' then (c as int - 32) as char else c
  }

  predicate IsCased(c: char) {
    ('a' <= c <= 'z') || ('A' <= c <= 'Z')
  }

  /** `str.lower()` on the ASCII letters. */
  function Lower(s: string): (r: string)
    ensures |r| == |s|
    ensures forall i :: 0 <= i < |s| ==> r[i] == LowerChar(s[i])
  {
    seq(|s|, i requires 0 <= i < |s| => LowerChar(s[i]))
  }

  lemma LowerAppend(a: string, b: string)
    ensures Lower(a + b) == Lower(a) + Lower(b)
  {
    assert forall i :: 0 <= i < |a + b| ==> Lower(a + b)[i] == (Lower(a) + Lower(b))[i];
  }

  lemma LowerSuffix(s: string, k: nat)
    requires k <= |s|
    ensures Lower(s)[k..] == Lower(s[k..])
  {
  }

  /** `str.title()` on ASCII: the first cased letter of every run of cased
      letters is upper-cased, every other cased letter lower-cased. */
  function Title(s: string): (r: string)
    ensures |r| == |s|
  {
    TitleAfter(s, false)
  }

  function TitleAfter(s: string, prevCased: bool): (r: string)
    ensures |r| == |s|
    decreases |s|
  {
    if |s| == 0 then []
    else
      var c := if prevCased then LowerChar(s[0]) else UpperChar(s[0]);
      [c] + TitleAfter(s[1..], IsCased(s[0]))
  }

  predicate StartsWith(s: string, p: string) {
    |p| <= |s| && s[..|p|] == p
  }

  predicate EndsWith(s: string, p: string) {
    |p| <= |s| && s[|s| - |p|..] == p
  }

  /** Python's `p in s` for strings. */
  predicate Contains(s: string, p: string) {
    exists i :: 0 <= i <= |s| && StartsWith(s[i..], p)
  }

  /** Drops the longest prefix whose characters all satisfy `drop`. */
  function TrimLeft(s: string, drop: char -> bool): (r: string)
    ensures |r| <= |s| && r == s[|s| - |r|..]
    ensures r == [] || !drop(r[0])
    ensures forall i :: 0 <= i < |s| - |r| ==> drop(s[i])
    decreases |s|
  {
    if |s| > 0 && drop(s[0]) then TrimLeft(s[1..], drop) else s
  }

  /** Drops the longest suffix whose characters all satisfy `drop`. */
  function TrimRight(s: string, drop: char -> bool): (r: string)
    ensures |r| <= |s| && r == s[..|r|]
    ensures r == [] || !drop(r[|r| - 1])
    ensures forall i :: |r| <= i < |s| ==> drop(s[i])
    decreases |s|
  {
    if |s| > 0 && drop(s[|s| - 1]) then TrimRight(s[..|s| - 1], drop) else s
  }

  lemma TrimLeftNoop(s: string, drop: char -> bool)
    requires s == [] || !drop(s[0])
    ensures TrimLeft(s, drop) == s
  {
  }

  lemma TrimRightNoop(s: string, drop: char -> bool)
    requires s == [] || !drop(s[|s| - 1])
    ensures TrimRight(s, drop) == s
  {
  }

  /** Trimming on the right never cuts into a prefix that ends in a kept
      character. */
  lemma TrimRightKeepsPrefix(s: string, p: string, drop: char -> bool)
    requires StartsWith(s, p) && |p| > 0 && !drop(p[|p| - 1])
    ensures StartsWith(TrimRight(s, drop), p)
  {
    var r := TrimRight(s, drop);
    assert s[|p| - 1] == p[|p| - 1];
    assert r[..|p|] == s[..|p|];
  }

  /** `str.strip()` */
  function Strip(s: string): string {
    TrimRight(TrimLeft(s, IsSpace), IsSpace)
  }

  /** First index of `c` in `s`. */
  function IndexOf(s: string, c: char): (r: Option<nat>)
    ensures r.Some? ==> r.value < |s| && s[r.value] == c && c !in s[..r.value]
    ensures r.None? ==> c !in s
    decreases |s|
  {
    if |s| == 0 then None
    else if s[0] == c then Some(0)
    else match IndexOf(s[1..], c)
      case Some(k) =>
        assert s[1..][..k] == s[1..k + 1];
        assert s[..k + 1] == [s[0]] + s[1..k + 1];
        Some(k + 1)
      case None =>
        assert s == [s[0]] + s[1..];
        None
  }

  /** An occurrence with none before it is the first. */
  lemma IndexOfAt(s: string, c: char, i: nat)
    requires i < |s| && s[i] == c && c !in s[..i]
    ensures IndexOf(s, c) == Some(i)
  {
    var r := IndexOf(s, c);
    assert s[i] in s;
    assert forall k :: 0 <= k < i ==> s[..i][k] == s[k];
    assert forall k :: i < k <= |s| ==> s[..k][i] == c;
  }

  /** Last index of `c` in `s`. */
  function LastIndexOf(s: string, c: char): (r: Option<nat>)
    ensures r.Some? ==> r.value < |s| && s[r.value] == c && c !in s[r.value + 1..]
    ensures r.None? ==> c !in s
    decreases |s|
  {
    if |s| == 0 then None
    else if s[|s| - 1] == c then Some(|s| - 1)
    else match LastIndexOf(s[..|s| - 1], c)
      case Some(k) =>
        assert s[k + 1..] == s[..|s| - 1][k + 1..] + [s[|s| - 1]];
        Some(k)
      case None =>
        assert s == s[..|s| - 1] + [s[|s| - 1]];
        None
  }

  /** The last `c` of `root + [c] + tail` is the one after `root` when `tail`
      holds none. */
  lemma {:induction false} LastIndexAfter(root: string, c: char, tail: string)
    requires c !in tail
    ensures LastIndexOf(root + [c] + tail, c) == Some(|root|)
    decreases |tail|
  {
    var u := root + [c] + tail;
    if |tail| > 0 {
      var shorter := tail[..|tail| - 1];
      assert u[|u| - 1] == tail[|tail| - 1];
      assert u[..|u| - 1] == root + [c] + shorter;
      LastIndexAfter(root, c, shorter);
    }
  }

  /** `s.split(sep)` with a one-character separator. */
  function Split(s: string, sep: char): (parts: seq<string>)
    ensures |parts| >= 1
    ensures forall k :: 0 <= k < |parts| ==> sep !in parts[k]
    decreases |s|
  {
    match IndexOf(s, sep)
    case None => [s]
    case Some(i) => [s[..i]] + Split(s[i + 1..], sep)
  }

  /** `sep.join(parts)` */
  function Join(parts: seq<string>, sep: string): string
    decreases |parts|
  {
    if |parts| == 0 then ""
    else if |parts| == 1 then parts[0]
    else parts[0] + sep + Join(parts[1..], sep)
  }

  /** Joining the pieces of a split gives back the original string. */
  lemma {:induction false} SplitJoin(s: string, sep: char)
    ensures Join(Split(s, sep), [sep]) == s
    decreases |s|
  {
    var idx := IndexOf(s, sep);
    if idx.Some? {
      var i := idx.value;
      var rest := s[i + 1..];
      SplitJoin(rest, sep);
      var tail := Split(rest, sep);
      assert Split(s, sep) == [s[..i]] + tail;
      JoinCons(s[..i], tail, [sep]);
      assert s == s[..i] + [sep] + rest;
    }
  }

  lemma JoinCons(head: string, tail: seq<string>, sep: string)
    requires |tail| >= 1
    ensures Join([head] + tail, sep) == head + sep + Join(tail, sep)
  {
    assert ([head] + tail)[1..] == tail;
  }

  /** Splitting the join of separator-free pieces gives back the pieces. */
  lemma {:induction false} JoinSplit(parts: seq<string>, sep: char)
    requires |parts| >= 1
    requires forall k :: 0 <= k < |parts| ==> sep !in parts[k]
    ensures Split(Join(parts, [sep]), sep) == parts
    decreases |parts|
  {
    var h := parts[0];
    if |parts| > 1 {
      var rest := Join(parts[1..], [sep]);
      JoinSplit(parts[1..], sep);
      var s := h + [sep] + rest;
      assert Join(parts, [sep]) == s;
      var i := IndexOf(s, sep);
      assert s[|h|] == sep;
      assert i.Some? && i.value == |h| by {
        assert forall j :: 0 <= j < |h| ==> s[j] == h[j];
      }
      assert s[..|h|] == h && s[|h| + 1..] == rest;
      assert parts == [h] + parts[1..];
    }
  }

  /** `s.split(sep, 1)` when `sep in s`: the text before the first separator
      and everything after it. */
  function SplitOnce(s: string, sep: char): (r: Option<(string, string)>)
    ensures r.None? <==> sep !in s
    ensures r.Some? ==> r.value.0 + [sep] + r.value.1 == s && sep !in r.value.0
  {
    match IndexOf(s, sep)
    case None => None
    case Some(i) =>
      assert s == s[..i] + [sep] + s[i + 1..];
      Some((s[..i], s[i + 1..]))
  }

  /** `s.replace(pat, rep)`: leftmost, non-overlapping occurrences. */
  function Replace(s: string, pat: string, rep: string): string
    requires |pat| > 0
    decreases |s|
  {
    if |s| < |pat| then s
    else if s[..|pat|] == pat then rep + Replace(s[|pat|..], pat, rep)
    else [s[0]] + Replace(s[1..], pat, rep)
  }

  function DigitChar(d: nat): (c: char)
    requires d < 10
    ensures IsDigit(c)
  {
    ('0' as int + d) as char
  }

  function DigitValue(c: char): nat
    requires IsDigit(c)
  {
    c as int - '0' as int
  }

  /** Python `str(n)` for a non-negative integer. */
  function NatToString(n: nat): (r: string)
    ensures |r| > 0 && AllDigits(r)
    decreases n
  {
    if n < 10 then [DigitChar(n)] else NatToString(n / 10) + [DigitChar(n % 10)]
  }

  /** Python `str(i)` */
  function IntToString(i: int): string {
    if i < 0 then "-" + NatToString(-i) else NatToString(i)
  }

  /** The value of a run of decimal digits (leading zeros allowed). */
  function DigitsValue(s: string): nat
    requires AllDigits(s)
    decreases |s|
  {
    if |s| == 0 then 0 else DigitsValue(s[..|s| - 1]) * 10 + DigitValue(s[|s| - 1])
  }

  lemma {:induction false} NatToStringRoundTrip(n: nat)
    ensures DigitsValue(NatToString(n)) == n
    decreases n
  {
    if n >= 10 {
      NatToStringRoundTrip(n / 10);
      var s := NatToString(n);
      assert s[..|s| - 1] == NatToString(n / 10);
    }
  }

  predicate IsDigitOrUnderscore(c: char) { IsDigit(c) || c == '_' }

  /** The digits of an integer literal body with its `_` separators removed. */
  function DropUnderscores(s: string): (r: string)
    requires forall i :: 0 <= i < |s| ==> IsDigitOrUnderscore(s[i])
    ensures AllDigits(r)
    decreases |s|
  {
    if |s| == 0 then ""
    else if s[0] == '_' then DropUnderscores(s[1..])
    else
      assert IsDigitOrUnderscore(s[0]);
      [s[0]] + DropUnderscores(s[1..])
  }

  /** Python's rule for the digits of `int(text)`: at least one digit,
      single underscores allowed only between digits. */
  predicate IntBody(b: string) {
    && |b| > 0
    && (forall i :: 0 <= i < |b| ==> IsDigitOrUnderscore(b[i]))
    && IsDigit(b[0]) && IsDigit(b[|b| - 1])
    && (forall i :: 0 <= i < |b| - 1 ==> !(b[i] == '_' && b[i + 1] == '_'))
  }

  /** Python `int(text)` for a string: surrounding whitespace, an optional
      sign, ASCII digits with underscores; `None` where Python raises. */
  function ParseInt(text: string): (r: Option<int>)
    ensures r.Some? ==> Strip(text) != ""
  {
    var t := Strip(text);
    var neg := |t| > 0 && t[0] == '-';
    var body := if |t| > 0 && (t[0] == '-' || t[0] == '+') then t[1..] else t;
    if IntBody(body) then
      var v: int := DigitsValue(DropUnderscores(body));
      Some(if neg then -v else v)
    else None
  }

  lemma DropUnderscoresOfDigits(s: string)
    requires AllDigits(s)
    ensures DropUnderscores(s) == s
    decreases |s|
  {
    if |s| > 0 {
      DropUnderscoresOfDigits(s[1..]);
      assert s == [s[0]] + s[1..];
    }
  }

  lemma {:induction false} StripOfDigits(s: string)
    requires |s| > 0 && AllDigits(s)
    ensures Strip(s) == s
  {
    assert IsDigit(s[0]) && IsDigit(s[|s| - 1]);
    TrimLeftNoop(s, IsSpace);
    TrimRightNoop(s, IsSpace);
  }

  lemma IntBodyOfDigits(d: string)
    requires |d| > 0 && AllDigits(d)
    ensures IntBody(d)
  {
  }

  /** Digits alone are read as their value. */
  lemma {:induction false} ParseIntUnsigned(d: string)
    requires |d| > 0 && AllDigits(d)
    ensures ParseInt(d) == Some(DigitsValue(d) as int)
  {
    IntBodyOfDigits(d);
    DropUnderscoresOfDigits(d);
    StripOfDigits(d);
    assert IsDigit(d[0]);
    assert d[0] != '-' && d[0] != '+';
  }

  /** A minus sign followed by digits is read as the negated digits. */
  lemma {:induction false} ParseIntNegative(d: string)
    requires |d| > 0 && AllDigits(d)
    ensures ParseInt("-" + d) == Some(-(DigitsValue(d) as int))
  {
    var s := "-" + d;
    assert s[0] == '-' && s[1..] == d;
    assert IsDigit(d[|d| - 1]) && s[|s| - 1] == d[|d| - 1];
    StripNoop(s);
    IntBodyOfDigits(d);
    DropUnderscoresOfDigits(d);
    ParseIntMinus(s);
  }

  /** Text with no whitespace at either end is its own strip. */
  lemma StripNoop(s: string)
    requires |s| > 0 && !IsSpace(s[0]) && !IsSpace(s[|s| - 1])
    ensures Strip(s) == s
  {
    TrimLeftNoop(s, IsSpace);
    TrimRightNoop(s, IsSpace);
  }

  /** A stripped text with a leading minus sign and an integer body. */
  lemma ParseIntMinus(t: string)
    requires |t| > 0 && t[0] == '-' && Strip(t) == t && IntBody(t[1..])
    ensures ParseInt(t) == Some(-(DigitsValue(DropUnderscores(t[1..])) as int))
  {
  }

  /** `int(str(i)) == i` */
  lemma {:induction false} IntToStringRoundTrip(i: int)
    ensures ParseInt(IntToString(i)) == Some(i)
  {
    var n: nat := if i < 0 then -i else i;
    NatToStringRoundTrip(n);
    if i < 0 {
      ParseIntNegative(NatToString(n));
    } else {
      ParseIntUnsigned(NatToString(n));
    }
  }

  /** `r` lists some of the elements of `s`, in the order they appear there. */
  predicate Subsequence(r: seq<string>, s: seq<string>)
    decreases |s|
  {
    if |r| == 0 then true
    else if |s| == 0 then false
    else (r[0] == s[0] && Subsequence(r[1..], s[1..])) || Subsequence(r, s[1..])
  }

  lemma {:induction false} SubsequenceMembers(r: seq<string>, s: seq<string>)
    requires Subsequence(r, s)
    ensures forall x :: x in r ==> x in s
    decreases |s|
  {
    if |r| > 0 {
      if r[0] == s[0] && Subsequence(r[1..], s[1..]) {
        SubsequenceMembers(r[1..], s[1..]);
        assert r == [r[0]] + r[1..];
      } else {
        SubsequenceMembers(r, s[1..]);
      }
    }
  }

  lemma {:induction false} SubsequenceSelf(s: seq<string>)
    ensures Subsequence(s, s)
    decreases |s|
  {
    if |s| > 0 {
      SubsequenceSelf(s[1..]);
    }
  }

  /** Concatenation regroups freely. */
  lemma ConcatAssoc<T>(a: seq<T>, b: seq<T>, c: seq<T>)
    ensures a + (b + c) == a + b + c
  {
  }

  /** A property holds of every element exactly when it holds of the first
      and of every later one. */
  lemma AllOfCons<T>(s: seq<T>, p: T -> bool)
    requires |s| > 0
    ensures (forall x :: x in s ==> p(x)) <==> p(s[0]) && forall x :: x in s[1..] ==> p(x)
  {
    assert s == [s[0]] + s[1..];
  }

  /** The index of the first element satisfying `p`; `None` when no element
      does. This is SQLAlchemy's `query.filter(p).first()` over a table in
      storage order, and the first matching line of a file. */
  function FirstIndex<T>(s: seq<T>, p: T -> bool): (r: Option<nat>)
    ensures r.Some? ==> r.value < |s| && p(s[r.value])
    ensures r.Some? ==> forall j :: 0 <= j < r.value ==> !p(s[j])
    ensures r.None? ==> forall j :: 0 <= j < |s| ==> !p(s[j])
    decreases |s|
  {
    if |s| == 0 then None
    else if p(s[0]) then Some(0)
    else match FirstIndex(s[1..], p)
      case Some(n) => Some(n + 1)
      case None => None
  }

  /** `[x for x in s if p(x)]` */
  function Filter(s: seq<string>, p: string -> bool): (r: seq<string>)
    ensures Subsequence(r, s)
    ensures forall x :: x in r <==> x in s && p(x)
    decreases |s|
  {
    if |s| == 0 then []
    else
      var rest := Filter(s[1..], p);
      if p(s[0]) then [s[0]] + rest else rest
  }
}

=== FILE: texas.dfy ===
/** The DriveTexas connector (`usaccidents_app/connectors/texas.py`):
    GeoJSON feature normalization, the substring heuristics for severity and
    closure, and the batch upsert. The upsert commits once at the end with
    autoflush off, so every lookup sees the table as it was before the batch;
    updates land on the loaded rows and inserts wait for the commit. */
module Texas {
  import opened Wrappers
  import opened Strings
  import opened Json
  import opened Fields
  import opened Store
  import opened Shape

  /** `d[k] not in (None, "")` for a present key. */
  predicate Present(d: Entries, k: string) {
    Has(d, k) && Get(d, k) != Null && Get(d, k) != Str("")
  }

  /** The index of the first listed key that is present with a usable value. */
  function FirstPresent(d: Entries, keys: seq<string>): (r: Option<nat>)
    ensures r.Some? ==> r.value < |keys| && Present(d, keys[r.value])
    ensures r.Some? ==> forall j :: 0 <= j < r.value ==> !Present(d, keys[j])
    ensures r.None? ==> forall j :: 0 <= j < |keys| ==> !Present(d, keys[j])
    decreases |keys|
  {
    if |keys| == 0 then None
    else if Present(d, keys[0]) then Some(0)
    else match FirstPresent(d, keys[1..])
      case Some(n) => Some(n + 1)
      case None => None
  }

  /** `_get(d, *keys, default=default)` */
  function GetFirst(d: Entries, keys: seq<string>, default: Json): (r: Json)
    ensures (forall j :: 0 <= j < |keys| ==> !Present(d, keys[j])) ==> r == default
    ensures r != default ==> r != Null && r != Str("")
    ensures forall i :: (0 <= i < |keys| && Present(d, keys[i]) &&
      (forall j :: 0 <= j < i ==> !Present(d, keys[j]))) ==> r == Get(d, keys[i])
  {
    match FirstPresent(d, keys)
    case Some(i) => Get(d, keys[i])
    case None => default
  }

  /** `_compute_active(cleared_time)`, with the clock as a parameter: still
      active when nothing says it was cleared, or when the clearing time is
      still ahead. `datetime.utcnow()` is naive, so comparing it with an
      aware clearing time raises `TypeError`. */
  function ComputeActive(cleared: Option<Time>, aware: bool, now: Time): (r: Result<bool, string>)
    ensures r.Err? <==> cleared.Some? && aware
    ensures r.Ok? ==> (!r.value <==> cleared.Some? && cleared.value <= now)
  {
    match cleared
    case None => Ok(true)
    case Some(t) => if aware then Err("TypeError") else Ok(t > now)
  }

  /** An incident active now was active at every earlier instant. */
  lemma ActiveEarlier(cleared: Option<Time>, aware: bool, earlier: Time, now: Time)
    requires earlier <= now && ComputeActive(cleared, aware, now) == Ok(true)
    ensures ComputeActive(cleared, aware, earlier) == Ok(true)
  {
  }

  /** The end time of a feature as `_iso_to_dt` reads it. */
  function EndText(props: Entries): Json {
    GetFirst(props, ["end_time", "END_TIME"], Null)
  }

  /** Whether the parsed end time is aware. */
  predicate EndAware(env: Oracles, props: Entries) {
    EndText(props).Str? && env.aware(EndText(props).s)
  }

  /** `str(_get(props, a, b, default="") or "").lower()` */
  function TextProp(props: Entries, a: string, b: string): string {
    Lower(PyStr(Or(GetFirst(props, [a, b], Str("")), Str(""))))
  }

  function Desc(props: Entries): string {
    TextProp(props, "description", "DESCRIPTION")
  }

  function DelayFlag(props: Entries): string {
    TextProp(props, "delay_flag", "DELAY_FLAG")
  }

  predicate Blocked(desc: string) {
    Contains(desc, "lane blocked") || Contains(desc, "shoulder blocked")
  }

  /** `_severity_from_flags(props)`: the first rule that fits, in order:
      a closure, a delay flag, a blocked lane or shoulder, any description. */
  function SeverityFromFlags(props: Entries): (r: (Option<string>, Option<int>))
    ensures r.0 == Some("HIGH") <==> r.1 == Some(3)
    ensures r.0 == Some("MEDIUM") <==> r.1 == Some(2)
    ensures r.0 == Some("LOW") <==> r.1 == Some(1)
    ensures r.0.None? <==> r.1.None?
    ensures r.0 == Some("HIGH") <==> Contains(Desc(props), "closed")
    ensures r.0 == Some("MEDIUM") <==>
      (!Contains(Desc(props), "closed") && (DelayFlag(props) in ["true", "1", "yes"] || Blocked(Desc(props))))
    ensures r.0.None? <==> Desc(props) == "" && DelayFlag(props) !in ["true", "1", "yes"]
  {
    var desc := Desc(props);
    var delay := DelayFlag(props);
    if Contains(desc, "closed") then (Some("HIGH"), Some(3))
    else if delay in ["true", "1", "yes"] then (Some("MEDIUM"), Some(2))
    else if Blocked(desc) then (Some("MEDIUM"), Some(2))
    else if desc != "" then (Some("LOW"), Some(1))
    else
      assert !Blocked(desc) by { NothingInEmpty("lane blocked"); NothingInEmpty("shoulder blocked"); }
      (None, None)
  }

  lemma NothingInEmpty(p: string)
    requires |p| > 0
    ensures !Contains("", p)
  {
    assert forall i :: 0 <= i <= 0 ==> ""[i..] == "";
  }

  /** `_closure_status_from_desc(props)`: CLOSED over PARTIAL over OPEN. */
  function ClosureStatus(props: Entries): (r: Option<string>)
    ensures r == Some("CLOSED") <==> Contains(Desc(props), "closed")
    ensures r == Some("PARTIAL") <==> !Contains(Desc(props), "closed") && Blocked(Desc(props))
    ensures r == Some("OPEN") <==>
      !Contains(Desc(props), "closed") && !Blocked(Desc(props)) && Contains(Desc(props), "open")
    ensures r.None? <==>
      !Contains(Desc(props), "closed") && !Blocked(Desc(props)) && !Contains(Desc(props), "open")
  {
    var desc := Desc(props);
    if Contains(desc, "closed") then Some("CLOSED")
    else if Blocked(desc) then Some("PARTIAL")
    else if Contains(desc, "open") then Some("OPEN")
    else None
  }

  /** A closure and a HIGH severity are the same judgement. */
  lemma ClosedIffHigh(props: Entries)
    ensures ClosureStatus(props) == Some("CLOSED") <==> SeverityFromFlags(props).0 == Some("HIGH")
  {
  }

  /** A partly blocked road is at least a MEDIUM severity. */
  lemma PartialIsMedium(props: Entries)
    requires ClosureStatus(props) == Some("PARTIAL")
    ensures SeverityFromFlags(props) == (Some("MEDIUM"), Some(2))
  {
  }

  // ---- feature normalization -------------------------------------------------

  /** A normalized DriveTexas feature: the dict `_normalize_feature` builds,
      without its constant entries. Coordinates and the milepost marker are
      kept as the JSON values read; times are already `isoformat()` text. */
  datatype Feature = Feature(
    uuid: string,
    id: string,
    county: Json,
    route: Json,
    direction: Option<string>,
    milepost: Json,
    longitude: Json,
    latitude: Json,
    reportedTime: Option<string>,
    updatedTime: Option<string>,
    clearedTime: Option<string>,
    isActive: bool,
    eventType: Json,
    lanesAffected: Json,
    closureStatus: Option<string>,
    severityFlag: Option<string>,
    severityScore: Option<int>,
    raw: Json)

  /** A dict-valued field, `{}` otherwise. */
  function AsDict(j: Json): Entries {
    if j.Obj? then j.entries else []
  }

  function PropsOf(feature: Entries): Entries {
    AsDict(Or(Get(feature, "properties"), Obj([])))
  }

  const IdKeys: seq<string> := ["GLOBALID", "Identifier", "id"]

  function SourceId(props: Entries): Json {
    GetFirst(props, IdKeys, Null)
  }

  function IsoOf(env: Oracles, t: Option<Time>): Option<string> {
    match t
    case None => None
    case Some(x) => Some(env.isoFormat(x))
  }

  function OptInt(o: Option<int>): Json {
    match o
    case None => Null
    case Some(i) => Int(i)
  }

  /** The feature built from the properties, geometry and position of a
      feature whose identifier was found; `Err` when `_compute_active`
      raises. */
  function Build(env: Oracles, now: Time, props: Entries, geom: Entries, coords: seq<Json>, sourceId: Json): (r: Result<Feature, string>)
    requires |coords| >= 2
    ensures r.Err? <==> ComputeActive(ParseDtStr(env, EndText(props)), EndAware(env, props), now).Err?
    ensures r.Err? <==> ParseDtStr(env, EndText(props)).Some? && EndAware(env, props)
    ensures r.Ok? ==>
      var f := r.value;
      && f.id == PyStr(sourceId) && f.uuid == "drivetexas:" + PyStr(sourceId)
      && f.longitude == coords[0] && f.latitude == coords[1]
      && f.direction == Clip(GetFirst(props, ["travel_direction", "DIRECTION"], Null), DirectionWidth)
      && Ok(f.isActive) == ComputeActive(ParseDtStr(env, EndText(props)), EndAware(env, props), now)
      && (f.severityFlag, f.severityScore) == SeverityFromFlags(props)
      && f.closureStatus == ClosureStatus(props)
  {
    var cleared := ParseDtStr(env, EndText(props));
    match ComputeActive(cleared, EndAware(env, props), now)
    case Err(e) => Err(e)
    case Ok(active) =>
      var sev := SeverityFromFlags(props);
      Ok(Feature(
        "drivetexas:" + PyStr(sourceId), PyStr(sourceId),
        GetFirst(props, ["county_num", "COUNTY_NUM"], Null),
        GetFirst(props, ["route_name", "ROUTE_NAME"], Null),
        Clip(GetFirst(props, ["travel_direction", "DIRECTION"], Null), DirectionWidth),
        GetFirst(props, ["from_ref_marker", "FROM_REF_MARKER"], Null),
        coords[0], coords[1],
        IsoOf(env, ParseDtStr(env, GetFirst(props, ["start_time", "START_TIME"], Null))),
        IsoOf(env, ParseDtStr(env, GetFirst(props, ["create_time", "CREATE_TIME", "start_time", "START_TIME"], Null))),
        IsoOf(env, cleared),
        active,
        GetFirst(props, ["condition", "CONDITION"], Str("Unknown")),
        GetFirst(props, ["description", "DESCRIPTION"], Null),
        ClosureStatus(props), sev.0, sev.1,
        Obj([("properties", Obj(props)), ("geometry", Obj(geom))])))
  }

  /** `feature.get("geometry") or {}`, which must be a dict for the
      following `.get` not to raise. */
  function GeometryOf(feature: Entries): (r: Result<Entries, string>)
    ensures r.Err? <==> Truthy(Get(feature, "geometry")) && !Get(feature, "geometry").Obj?
    ensures r.Ok? ==> r.value == AsDict(Get(feature, "geometry"))
  {
    var g := Or(Get(feature, "geometry"), Obj([]));
    if g.Obj? then Ok(g.entries) else Err("AttributeError")
  }

  /** `geom.get("coordinates") or []`, when it is a list of at least two
      positions. */
  function CoordsOf(geom: Entries): (r: Option<seq<Json>>)
    ensures r.Some? <==> Get(geom, "coordinates").Arr? && |Get(geom, "coordinates").items| >= 2
    ensures r.Some? ==> r.value == Get(geom, "coordinates").items
  {
    var c := Or(Get(geom, "coordinates"), Arr([]));
    if c.Arr? && |c.items| >= 2 then Some(c.items) else None
  }

  /** `_normalize_feature(feature)`. `None` for a non-dict feature, fewer than
      two coordinates, or no identifier; `Err` when a truthy geometry is not a
      dict (its `.get` raises) or when an aware end time meets the naive
      clock. Positions are `[longitude, latitude]`, as in section 3.1.1 of
      RFC 7946. */
  function NormalizeFeature(env: Oracles, now: Time, feature: Json): (r: Result<Option<Feature>, string>)
    ensures !feature.Obj? ==> r == Ok(None)
    ensures r.Err? <==>
      && feature.Obj?
      && ((Truthy(Get(feature.entries, "geometry")) && !Get(feature.entries, "geometry").Obj?) ||
          (var coords := Get(AsDict(Get(feature.entries, "geometry")), "coordinates");
           var props := PropsOf(feature.entries);
           && !(Truthy(Get(feature.entries, "geometry")) && !Get(feature.entries, "geometry").Obj?)
           && coords.Arr? && |coords.items| >= 2 && Truthy(SourceId(props))
           && ParseDtStr(env, EndText(props)).Some? && EndAware(env, props)))
    ensures r.Ok? && r.value.Some? ==>
      var geom := AsDict(Get(feature.entries, "geometry"));
      var coords := Get(geom, "coordinates");
      var props := PropsOf(feature.entries);
      var f := r.value.value;
      && coords.Arr? && |coords.items| >= 2
      && f.longitude == coords.items[0] && f.latitude == coords.items[1]
      && Truthy(SourceId(props))
      && f.id == PyStr(SourceId(props)) && f.uuid == "drivetexas:" + f.id
      && (f.direction.Some? ==> |f.direction.value| <= DirectionWidth)
    ensures r.Ok? && r.value.None? && feature.Obj? ==>
      var coords := Get(AsDict(Get(feature.entries, "geometry")), "coordinates");
      !coords.Arr? || |coords.items| < 2 || !Truthy(SourceId(PropsOf(feature.entries)))
  {
    if !feature.Obj? then Ok(None)
    else
      match GeometryOf(feature.entries)
      case Err(e) => Err(e)
      case Ok(geom) =>
        match CoordsOf(geom)
        case None => Ok(None)
        case Some(coords) =>
          var sourceId := SourceId(PropsOf(feature.entries));
          if !Truthy(sourceId) then Ok(None)
          else
            match Build(env, now, PropsOf(feature.entries), geom, coords, sourceId)
            case Err(e) => Err(e)
            case Ok(f) => Ok(Some(f))
  }

  /** The loop of `fetch_texas_incidents` over the decoded features: the
      features that normalize, in order; the first exception ends the fetch. */
  function NormalizeAll(env: Oracles, now: Time, feats: seq<Json>): (r: Result<seq<Feature>, string>)
    ensures r.Err? <==> exists i :: 0 <= i < |feats| && NormalizeFeature(env, now, feats[i]).Err?
    ensures r.Ok? ==> |r.value| <= |feats|
    ensures r.Ok? ==> forall f :: f in r.value ==>
      exists i :: 0 <= i < |feats| && NormalizeFeature(env, now, feats[i]) == Ok(Some(f))
  {
    Collect(feats, (x: Json) => NormalizeFeature(env, now, x))
  }

  /** The normalized feature as the dict handed to the ingest, keys in the
      order the connector writes them. */
  function ToEntries(f: Feature): (es: Entries)
    ensures |es| == 23 && es[0] == ("uuid", Str(f.uuid)) && es[1] == ("id", Str(f.id))
  {
    [("uuid", Str(f.uuid)), ("id", Str(f.id)), ("source_system", Str("DRIVETEXAS")),
     ("source_event_id", Str(f.id)), ("state", Str("TX")), ("county", f.county),
     ("route", f.route), ("routeClass", Null), ("direction", OptStr(f.direction)),
     ("milepost", f.milepost), ("latitude", f.latitude), ("longitude", f.longitude),
     ("reportedTime", OptStr(f.reportedTime)), ("updatedTime", OptStr(f.updatedTime)),
     ("clearedTime", OptStr(f.clearedTime)), ("isActive", Bool(f.isActive)),
     ("eventType", f.eventType), ("lanesAffected", f.lanesAffected),
     ("closureStatus", OptStr(f.closureStatus)), ("severityFlag", OptStr(f.severityFlag)),
     ("severityScore", OptInt(f.severityScore)), ("url", Null), ("_raw", f.raw)]
  }

  // ---- batch upsert ----------------------------------------------------------

  /** `item.get("uuid") or f"drivetexas:{item.get('id')}"` */
  function ItemUuid(item: Entries): string {
    PyStr(Or(Get(item, "uuid"), Str("drivetexas:" + PyStr(Get(item, "id")))))
  }

  /** `str(item.get("id") or item.get("source_event_id") or "")` */
  function ItemEventId(item: Entries): string {
    PyStr(Or(Get(item, "id"), Or(Get(item, "source_event_id"), Str(""))))
  }

  /** A normalized feature is ingested under its own id and uuid. */
  lemma FeatureKeys(env: Oracles, now: Time, feature: Json, f: Feature)
    requires NormalizeFeature(env, now, feature) == Ok(Some(f)) && f.id != ""
    ensures ItemEventId(ToEntries(f)) == f.id
    ensures ItemUuid(ToEntries(f)) == f.uuid
  {
    EntriesKeys(f);
  }

  lemma EntriesKeys(f: Feature)
    requires f.id != "" && f.uuid == "drivetexas:" + f.id
    ensures ItemEventId(ToEntries(f)) == f.id
    ensures ItemUuid(ToEntries(f)) == f.uuid
  {
    var es := ToEntries(f);
    assert Find(es, "uuid") == Some(0);
    assert es[1..][0].0 == "id";
    assert Find(es[1..], "id") == Some(0);
    assert Get(es, "id") == Str(f.id);
    assert Get(es, "uuid") == Str(f.uuid);
  }

  /** The Texas `common` dict: the shared columns plus county and milepost. */
  function ItemCommon(env: Oracles, item: Entries, sid: string): (c: Common)
    ensures c.sourceSystem == "DRIVETEXAS" && c.sourceEventId == sid
    ensures c.direction == Clip(Get(item, "direction"), DirectionWidth)
  {
    Common("DRIVETEXAS", sid, TextCol(Or(Get(item, "state"), Str("TX"))), TextCol(Get(item, "route")),
           TextCol(Get(item, "routeClass")), Clip(Get(item, "direction"), DirectionWidth),
           Get(item, "latitude"), Get(item, "longitude"),
           ParseDtStr(env, Get(item, "reportedTime")), ParseDtStr(env, Get(item, "updatedTime")),
           ParseDtStr(env, Get(item, "clearedTime")), BoolCol(Get(item, "isActive")),
           TextCol(Get(item, "eventType")), TextCol(Get(item, "lanesAffected")),
           TextCol(Get(item, "closureStatus")), TextCol(Get(item, "severityFlag")),
           ScoreCol(env, Get(item, "severityScore")))
  }

  /** `item.get("_raw") or item` */
  function RawOf(item: Entries): Json {
    Or(Get(item, "_raw"), Obj(item))
  }

  /** The update branch: every `common` column and the raw blob are
      overwritten; uuid and source url are never touched. */
  function Refresh(env: Oracles, r: Row, item: Entries, sid: string): (r': Row)
    ensures CommonOf(r') == ItemCommon(env, item, sid)
    ensures r'.county == TextCol(Get(item, "county")) && r'.milepost == Get(item, "milepost")
    ensures r'.rawBlob == RawOf(item)
    ensures r'.uuid == r.uuid && r'.sourceUrl == r.sourceUrl
    ensures IsEvent(r', sid)
  {
    ApplyCommon(r, ItemCommon(env, item, sid)).(
      county := TextCol(Get(item, "county")), milepost := Get(item, "milepost"), rawBlob := RawOf(item))
  }

  /** The insert branch: a new row under the item's uuid. */
  function Fresh(env: Oracles, item: Entries, sid: string): (r: Row)
    ensures r.uuid == ItemUuid(item) && CommonOf(r) == ItemCommon(env, item, sid)
    ensures r.sourceUrl == TextCol(Get(item, "url")) && r.rawBlob == RawOf(item)
    ensures IsEvent(r, sid)
  {
    NewRow(ItemUuid(item), ItemCommon(env, item, sid), TextCol(Get(item, "url")),
           TextCol(Get(item, "county")), Get(item, "milepost"), RawOf(item))
  }

  /** The session during the batch: the loaded rows (index for index the rows
      of the table before the batch, with updates applied), the pending
      inserts, and the counters. */
  datatype Batch = Batch(rows: Table, pending: seq<Row>, tally: Tally)

  predicate IsEvent(r: Row, sid: string) {
    r.sourceSystem == "DRIVETEXAS" && r.sourceEventId == Some(sid)
  }

  /** The filter `source_system == "DRIVETEXAS" and source_event_id == sid`. */
  function EventIs(sid: string): Row -> bool {
    (r: Row) => IsEvent(r, sid)
  }

  /** The row the item is written to: by event id first, then by uuid; both
      lookups raise when more than one row matches. */
  function Target(pre: Table, item: Entries, sid: string): (r: Result<Option<nat>, string>)
    ensures r.Ok? && r.value.Some? ==> r.value.value < |pre|
    ensures r.Ok? && r.value.Some? && OneOrNone(pre, EventIs(sid)).NotFound? ==>
      pre[r.value.value].uuid == ItemUuid(item)
    ensures r == Ok(None) <==> (forall j :: 0 <= j < |pre| ==> !IsEvent(pre[j], sid) && pre[j].uuid != ItemUuid(item))
  {
    match OneOrNone(pre, EventIs(sid))
    case Multiple => Err("MultipleResultsFound")
    case Found(i) => Ok(Some(i))
    case NotFound =>
      match OneOrNone(pre, UuidIs(ItemUuid(item)))
      case Multiple => Err("MultipleResultsFound")
      case Found(i) => Ok(Some(i))
      case NotFound => Ok(None)
  }

  /** One iteration of the `ingest_texas_incidents` loop. */
  function Step(env: Oracles, pre: Table, b: Batch, item: Json): (r: Result<Batch, string>)
    requires |b.rows| == |pre|
    ensures r.Ok? ==> |r.value.rows| == |pre|
    ensures r.Ok? ==> forall j :: 0 <= j < |pre| ==> r.value.rows[j].uuid == b.rows[j].uuid
    ensures r.Ok? ==> |r.value.pending| == |b.pending| + (r.value.tally.inserted - b.tally.inserted)
    ensures r.Ok? ==> |r.value.pending| >= |b.pending| && r.value.pending[..|b.pending|] == b.pending
    ensures !item.Obj? ==> r == Ok(b)
    ensures item.Obj? && ItemEventId(item.entries) == "" ==>
      r == Ok(b.(tally := b.tally.(skipped := b.tally.skipped + 1)))
    ensures item.Obj? && ItemEventId(item.entries) != "" && r.Ok? ==>
      r.value.tally.skipped == b.tally.skipped &&
      r.value.tally.inserted + r.value.tally.updated == b.tally.inserted + b.tally.updated + 1 &&
      r.value.tally.inserted >= b.tally.inserted
  {
    if !item.Obj? then Ok(b)
    else
      var it := item.entries;
      var sid := ItemEventId(it);
      if sid == "" then Ok(b.(tally := b.tally.(skipped := b.tally.skipped + 1)))
      else
        match Target(pre, it, sid)
        case Err(e) => Err(e)
        case Ok(Some(i)) =>
          Ok(Batch(b.rows[i := Refresh(env, b.rows[i], it, sid)], b.pending,
                   b.tally.(updated := b.tally.updated + 1)))
        case Ok(None) =>
          assert (b.pending + [Fresh(env, it, sid)])[..|b.pending|] == b.pending;
          Ok(Batch(b.rows, b.pending + [Fresh(env, it, sid)], b.tally.(inserted := b.tally.inserted + 1)))
  }

  /** The number of dict items without an event id. */
  function Unidentified(items: seq<Json>): nat {
    if |items| == 0 then 0
    else (if items[0].Obj? && ItemEventId(items[0].entries) == "" then 1 else 0) + Unidentified(items[1..])
  }

  /** The loop over all items; the first exception ends it. */
  function Run(env: Oracles, pre: Table, b: Batch, items: seq<Json>): (r: Result<Batch, string>)
    requires |b.rows| == |pre|
    ensures r.Ok? ==> |r.value.rows| == |pre|
    ensures r.Ok? ==> forall j :: 0 <= j < |pre| ==> r.value.rows[j].uuid == b.rows[j].uuid
    ensures r.Ok? ==> r.value.tally.skipped == b.tally.skipped + Unidentified(items)
    ensures r.Ok? ==> r.value.tally.Total() == b.tally.Total() + |DictsOf(items)|
    ensures r.Ok? ==> r.value.tally.inserted >= b.tally.inserted
    ensures r.Ok? ==> |r.value.pending| == |b.pending| + (r.value.tally.inserted - b.tally.inserted)
    ensures r.Ok? ==> |r.value.pending| >= |b.pending| && r.value.pending[..|b.pending|] == b.pending
    decreases |items|
  {
    if |items| == 0 then Ok(b)
    else
      assert |DictsOf(items)| == (if items[0].Obj? then 1 else 0) + |DictsOf(items[1..])|;
      match Step(env, pre, b, items[0])
      case Err(e) => Err(e)
      case Ok(b1) =>
        var r := Run(env, pre, b1, items[1..]);
        if r.Ok? then
          assert r.value.pending[..|b.pending|] == r.value.pending[..|b1.pending|][..|b.pending|];
          r
        else r
  }

  /** `db.commit()`: the pending rows join the table unless one of them
      repeats a uuid, in which case the unique index rejects the flush and
      nothing is written. */
  function Commit(pre: Table, b: Batch): (r: Result<Table, string>)
    requires |b.rows| == |pre|
    ensures r.Ok? <==> UniqueUuids(b.rows + b.pending)
    ensures r.Ok? ==> r.value == b.rows + b.pending
  {
    if UniqueUuids(b.rows + b.pending) then Ok(b.rows + b.pending) else Err("IntegrityError")
  }

  /** `ingest_texas_incidents(db, items, return_detail)`: on success the new
      table and the return value; on an exception the table is unchanged. */
  function Ingest(env: Oracles, pre: Table, items: seq<Json>, returnDetail: bool): (r: Result<(Table, Outcome), string>)
    ensures r.Ok? ==> |r.value.0| >= |pre| && UniqueUuids(r.value.0)
    ensures r.Ok? ==> forall j :: 0 <= j < |pre| ==> r.value.0[j].uuid == pre[j].uuid
    ensures r.Ok? ==> exists t: Tally ::
      && r.value.1 == Report(t, returnDetail)
      && t.skipped == Unidentified(items)
      && t.inserted + t.updated + t.skipped == |DictsOf(items)|
      && |r.value.0| == |pre| + t.inserted
  {
    match Run(env, pre, Batch(pre, [], Tally(0, 0, 0)), items)
    case Err(e) => Err(e)
    case Ok(b) =>
      match Commit(pre, b)
      case Err(e) => Err(e)
      case Ok(t) => Ok((t, Report(b.tally, returnDetail)))
  }

  /** An item whose event id already has a unique DRIVETEXAS row updates that
      row, even when its uuid names another row. */
  lemma {:induction false} EventIdWins(env: Oracles, pre: Table, b: Batch, it: Entries, i: nat)
    requires |b.rows| == |pre| && ItemEventId(it) != "" && i < |pre|
    requires IsEvent(pre[i], ItemEventId(it))
    requires forall j :: 0 <= j < |pre| && j != i ==> !IsEvent(pre[j], ItemEventId(it))
    ensures Target(pre, it, ItemEventId(it)) == Ok(Some(i))
    ensures var r := Step(env, pre, b, Obj(it));
      r.Ok? && r.value.rows[i] == Refresh(env, b.rows[i], it, ItemEventId(it)) &&
      r.value.tally == b.tally.(updated := b.tally.updated + 1)
  {
    var sid := ItemEventId(it);
    var l := OneOrNone(pre, EventIs(sid));
    assert !l.NotFound?;
  }

  /** A batch that carries the same new event twice fails as a whole: both
      copies miss the table, both are queued under the same uuid, and the
      commit is rejected. */
  lemma {:induction false} RepeatedNewEventRejected(env: Oracles, pre: Table, it: Entries)
    requires ItemEventId(it) != ""
    requires forall j :: 0 <= j < |pre| ==> !IsEvent(pre[j], ItemEventId(it)) && pre[j].uuid != ItemUuid(it)
    ensures forall rd :: Ingest(env, pre, [Obj(it), Obj(it)], rd) == Err("IntegrityError")
  {
    var sid := ItemEventId(it);
    var b0 := Batch(pre, [], Tally(0, 0, 0));
    assert Target(pre, it, sid) == Ok(None);
    var b1 := Batch(pre, [Fresh(env, it, sid)], Tally(1, 0, 0));
    assert Step(env, pre, b0, Obj(it)) == Ok(b1);
    var b2 := Batch(pre, [Fresh(env, it, sid), Fresh(env, it, sid)], Tally(2, 0, 0));
    assert b1.pending + [Fresh(env, it, sid)] == b2.pending;
    assert Step(env, pre, b1, Obj(it)) == Ok(b2);
    assert [Obj(it), Obj(it)][1..] == [Obj(it)];
    assert Run(env, pre, b1, [Obj(it)]) == Ok(b2) by {
      assert [Obj(it)][1..] == [];
    }
    assert Run(env, pre, b0, [Obj(it), Obj(it)]) == Ok(b2);
    var all := b2.rows + b2.pending;
    assert all[|pre|].uuid == all[|pre| + 1].uuid;
    assert !UniqueUuids(all);
  }
  /** The exact result of one identified item: the lookup's exception, the
      refreshed target row, or one more pending insert. */
  lemma StepOutcome(env: Oracles, pre: Table, b: Batch, it: Entries)
    requires |b.rows| == |pre| && ItemEventId(it) != ""
    ensures var sid := ItemEventId(it);
      var r := Step(env, pre, b, Obj(it));
      match Target(pre, it, sid)
      case Err(e) => r == Err(e)
      case Ok(Some(i)) =>
        && r.Ok? && r.value.rows == b.rows[i := Refresh(env, b.rows[i], it, sid)]
        && r.value.pending == b.pending && r.value.tally == b.tally.(updated := b.tally.updated + 1)
      case Ok(None) =>
        && r.Ok? && r.value.rows == b.rows && r.value.pending == b.pending + [Fresh(env, it, sid)]
        && r.value.tally == b.tally.(inserted := b.tally.inserted + 1)
  {
    var sid := ItemEventId(it);
    match Target(pre, it, sid)
    case Err(e) =>
    case Ok(Some(i)) => StepRefreshes(env, pre, b, it, i);
    case Ok(None) => StepInserts(env, pre, b, it);
  }

  lemma StepRefreshes(env: Oracles, pre: Table, b: Batch, it: Entries, i: nat)
    requires |b.rows| == |pre| && ItemEventId(it) != "" && Target(pre, it, ItemEventId(it)) == Ok(Some(i))
    ensures var r := Step(env, pre, b, Obj(it));
      && r.Ok? && r.value.rows == b.rows[i := Refresh(env, b.rows[i], it, ItemEventId(it))]
      && r.value.pending == b.pending && r.value.tally == b.tally.(updated := b.tally.updated + 1)
  {
  }

  lemma StepInserts(env: Oracles, pre: Table, b: Batch, it: Entries)
    requires |b.rows| == |pre| && ItemEventId(it) != "" && Target(pre, it, ItemEventId(it)) == Ok(None)
    ensures var r := Step(env, pre, b, Obj(it));
      && r.Ok? && r.value.rows == b.rows && r.value.pending == b.pending + [Fresh(env, it, ItemEventId(it))]
      && r.value.tally == b.tally.(inserted := b.tally.inserted + 1)
  {
  }

  /** A later identified item that lands on loaded row `i` under another event id. */
  predicate Overwrites(pre: Table, later: Json, i: nat, sid: string) {
    && later.Obj? && ItemEventId(later.entries) != "" && ItemEventId(later.entries) != sid
    && Target(pre, later.entries, ItemEventId(later.entries)) == Ok(Some(i))
  }

  /** One step keeps a loaded row's event id unless the item overwrites it. */
  lemma StepKeepsEvent(env: Oracles, pre: Table, b: Batch, item: Json, i: nat, sid: string)
    requires |b.rows| == |pre| && i < |pre| && IsEvent(b.rows[i], sid)
    requires !Overwrites(pre, item, i, sid) && Step(env, pre, b, item).Ok?
    ensures IsEvent(Step(env, pre, b, item).value.rows[i], sid)
  {
    if item.Obj? && ItemEventId(item.entries) != "" {
      StepOutcome(env, pre, b, item.entries);
    }
  }

  /** A loaded row carrying an event id keeps it through the rest of the batch
      unless a later item overwrites it. */
  lemma {:induction false} RunKeepsEvent(env: Oracles, pre: Table, b: Batch, items: seq<Json>, i: nat, sid: string)
    requires |b.rows| == |pre| && i < |pre| && IsEvent(b.rows[i], sid)
    requires forall m :: 0 <= m < |items| ==> !Overwrites(pre, items[m], i, sid)
    requires Run(env, pre, b, items).Ok?
    ensures IsEvent(Run(env, pre, b, items).value.rows[i], sid)
    decreases |items|
  {
    if |items| > 0 {
      assert Step(env, pre, b, items[0]).Ok?;
      var b1 := Step(env, pre, b, items[0]).value;
      StepKeepsEvent(env, pre, b, items[0], i, sid);
      forall m | 0 <= m < |items[1..]|
        ensures !Overwrites(pre, items[1..][m], i, sid)
      {
        assert items[1..][m] == items[m + 1];
      }
      RunKeepsEvent(env, pre, b1, items[1..], i, sid);
    }
  }

  /** After its own step, an identified item's event id is on a loaded row or
      a pending insert, and the batch keeps it there unless a later item
      overwrites that loaded row. */
  lemma {:induction false} RunFiled(env: Oracles, pre: Table, b: Batch, items: seq<Json>, k: nat)
    requires |b.rows| == |pre| && k < |items| && items[k].Obj? && ItemEventId(items[k].entries) != ""
    requires forall i, m :: k < m < |items| && Target(pre, items[k].entries, ItemEventId(items[k].entries)) == Ok(Some(i)) ==>
      !Overwrites(pre, items[m], i, ItemEventId(items[k].entries))
    requires Run(env, pre, b, items).Ok?
    ensures var f := Run(env, pre, b, items).value;
      exists j :: 0 <= j < |f.rows + f.pending| && IsEvent((f.rows + f.pending)[j], ItemEventId(items[k].entries))
    decreases |items|
  {
    if k == 0 {
      var j := HeadFiled(env, pre, b, items);
    } else {
      var b1 := Step(env, pre, b, items[0]).value;
      var it := items[k].entries;
      assert items[1..][k - 1] == items[k];
      forall i, m | k - 1 < m < |items[1..]| && Target(pre, it, ItemEventId(it)) == Ok(Some(i))
        ensures !Overwrites(pre, items[1..][m], i, ItemEventId(it))
      {
        assert items[1..][m] == items[m + 1];
      }
      RunFiled(env, pre, b1, items[1..], k - 1);
    }
  }

  /** The first item of a run is filed at the row its own step wrote. */
  lemma HeadFiled(env: Oracles, pre: Table, b: Batch, items: seq<Json>) returns (j: nat)
    requires |b.rows| == |pre| && 0 < |items| && items[0].Obj? && ItemEventId(items[0].entries) != ""
    requires forall i, m :: 0 < m < |items| && Target(pre, items[0].entries, ItemEventId(items[0].entries)) == Ok(Some(i)) ==>
      !Overwrites(pre, items[m], i, ItemEventId(items[0].entries))
    requires Run(env, pre, b, items).Ok?
    ensures var f := Run(env, pre, b, items).value;
      j < |f.rows + f.pending| && IsEvent((f.rows + f.pending)[j], ItemEventId(items[0].entries))
  {
    var it := items[0].entries;
    var sid := ItemEventId(it);
    var b1 := Step(env, pre, b, items[0]).value;
    var f := Run(env, pre, b1, items[1..]).value;
    assert f == Run(env, pre, b, items).value;
    StepOutcome(env, pre, b, it);
    match Target(pre, it, sid)
    case Ok(Some(i)) =>
      forall m | 0 <= m < |items[1..]|
        ensures !Overwrites(pre, items[1..][m], i, sid)
      {
        assert items[1..][m] == items[m + 1];
      }
      RunKeepsEvent(env, pre, b1, items[1..], i, sid);
      j := i;
      assert (f.rows + f.pending)[j] == f.rows[i];
    case Ok(None) =>
      var p := |b1.pending| - 1;
      assert b1.pending[p] == Fresh(env, it, sid);
      assert f.pending[..|b1.pending|] == b1.pending;
      j := |f.rows| + p;
      assert (f.rows + f.pending)[j] == f.pending[p];
  }

  /** On success every identified item that no later item overwrites is in the
      committed table under its event id. */
  lemma IngestFiled(env: Oracles, pre: Table, items: seq<Json>, rd: bool, k: nat)
    requires k < |items| && items[k].Obj? && ItemEventId(items[k].entries) != ""
    requires forall i, m :: k < m < |items| && Target(pre, items[k].entries, ItemEventId(items[k].entries)) == Ok(Some(i)) ==>
      !Overwrites(pre, items[m], i, ItemEventId(items[k].entries))
    ensures var r := Ingest(env, pre, items, rd);
      r.Ok? ==> exists j :: 0 <= j < |r.value.0| && IsEvent(r.value.0[j], ItemEventId(items[k].entries))
  {
    var b0 := Batch(pre, [], Tally(0, 0, 0));
    if Ingest(env, pre, items, rd).Ok? {
      RunFiled(env, pre, b0, items, k);
    }
  }

  /** The overwrite is real: an item matched by event id loses its row to a
      later item that reaches the same row by uuid, and the committed table
      then holds neither its event id nor its uuid. */
  lemma EventOverwritten(env: Oracles, pre: Table, a: Entries, c: Entries, rd: bool)
    requires |pre| == 1 && IsEvent(pre[0], ItemEventId(a)) && pre[0].uuid == ItemUuid(c)
    requires ItemEventId(a) != "" && ItemEventId(c) != "" && ItemEventId(a) != ItemEventId(c)
    requires ItemUuid(a) != ItemUuid(c)
    ensures var r := Ingest(env, pre, [Obj(a), Obj(c)], rd);
      r.Ok? && forall j :: 0 <= j < |r.value.0| ==>
        !IsEvent(r.value.0[j], ItemEventId(a)) && r.value.0[j].uuid != ItemUuid(a)
  {
    var b2 := OverwriteRun(env, pre, a, c);
    var t := b2.rows + b2.pending;
    assert t == b2.rows && |t| == 1;
    assert UniqueUuids(t);
    assert Commit(pre, b2) == Ok(t);
    assert Ingest(env, pre, [Obj(a), Obj(c)], rd) == Ok((t, Report(b2.tally, rd)));
    forall j | 0 <= j < |t|
      ensures !IsEvent(t[j], ItemEventId(a)) && t[j].uuid != ItemUuid(a)
    {
      assert j == 0;
    }
  }

  /** The batch of [`a`, `c`] ends with the one loaded row refreshed by `c`. */
  lemma OverwriteRun(env: Oracles, pre: Table, a: Entries, c: Entries) returns (b2: Batch)
    requires |pre| == 1 && IsEvent(pre[0], ItemEventId(a)) && pre[0].uuid == ItemUuid(c)
    requires ItemEventId(a) != "" && ItemEventId(c) != "" && ItemEventId(a) != ItemEventId(c)
    ensures Run(env, pre, Batch(pre, [], Tally(0, 0, 0)), [Obj(a), Obj(c)]) == Ok(b2)
    ensures |b2.rows| == 1 && b2.pending == [] && b2.rows[0].uuid == ItemUuid(c)
    ensures IsEvent(b2.rows[0], ItemEventId(c))
  {
    var b0 := Batch(pre, [], Tally(0, 0, 0));
    var b1 := RefreshOnly(env, pre, b0, a, ItemEventId(a));
    b2 := RefreshOnly(env, pre, b1, c, ItemEventId(a));
    RunTwo(env, pre, b0, b1, b2, Obj(a), Obj(c));
  }

  /** Two successful steps make a successful run of two items. */
  lemma RunTwo(env: Oracles, pre: Table, b0: Batch, b1: Batch, b2: Batch, x: Json, y: Json)
    requires |b0.rows| == |pre| && Step(env, pre, b0, x) == Ok(b1)
    requires |b1.rows| == |pre| && Step(env, pre, b1, y) == Ok(b2)
    ensures Run(env, pre, b0, [x, y]) == Ok(b2)
  {
    var items := [x, y];
    var rest := items[1..];
    assert rest == [y] && rest[1..] == [];
    assert Run(env, pre, b2, rest[1..]) == Ok(b2);
  }

  /** An item that reaches the only loaded row, whose event id is `sa`, by
      its own event id or by uuid refreshes that row. */
  lemma RefreshOnly(env: Oracles, pre: Table, b: Batch, it: Entries, sa: string) returns (b1: Batch)
    requires |pre| == 1 && |b.rows| == 1 && b.pending == [] && IsEvent(pre[0], sa)
    requires ItemEventId(it) != "" && (ItemEventId(it) == sa || pre[0].uuid == ItemUuid(it))
    ensures Step(env, pre, b, Obj(it)) == Ok(b1)
    ensures |b1.rows| == 1 && b1.pending == [] && b1.rows[0].uuid == b.rows[0].uuid
    ensures IsEvent(b1.rows[0], ItemEventId(it))
  {
    var sid := ItemEventId(it);
    if sid == sa {
      assert OneOrNone(pre, EventIs(sid)) == Found(0);
    } else {
      assert !EventIs(sid)(pre[0]);
      assert OneOrNone(pre, UuidIs(ItemUuid(it))) == Found(0);
    }
    assert Target(pre, it, sid) == Ok(Some(0));
    StepOutcome(env, pre, b, it);
    b1 := Step(env, pre, b, Obj(it)).value;
  }
}

=== FILE: wrappers.dfy ===
/** Optional values and results with an error, the two shapes every connector
    and script in the model returns. */
module Wrappers {

  /** Python's `None`-or-value. */
  datatype Option<+T> = None | Some(value: T) {
    function GetOr(default: T): T {
      match this
      case Some(v) => v
      case None => default
    }
  }

  /** A value, or the exception / exit status that stopped the computation. */
  datatype Result<+R, +E> = Ok(value: R) | Err(error: E)

  /** Applies `f` to every item in order; the first error ends the walk. */
  function MapAll<A, B, E>(xs: seq<A>, f: A -> Result<B, E>): (r: Result<seq<B>, E>)
    ensures r.Err? <==> exists i :: 0 <= i < |xs| && f(xs[i]).Err?
    ensures r.Ok? ==> |r.value| == |xs| && forall i :: 0 <= i < |xs| ==> f(xs[i]) == Ok(r.value[i])
    decreases |xs|
  {
    if |xs| == 0 then Ok([])
    else
      var head := f(xs[0]);
      var rest := MapAll(xs[1..], f);
      assert forall i :: 1 <= i < |xs| ==> xs[i] == xs[1..][i - 1];
      if head.Err? then Err(head.error)
      else if rest.Err? then Err(rest.error)
      else Ok([head.value] + rest.value)
  }

  /** Like `MapAll`, keeping only the `Some` results. */
  function Collect<A, B, E>(xs: seq<A>, f: A -> Result<Option<B>, E>): (r: Result<seq<B>, E>)
    ensures r.Err? <==> exists i :: 0 <= i < |xs| && f(xs[i]).Err?
    ensures r.Ok? ==> |r.value| <= |xs|
    ensures r.Ok? ==> forall y :: y in r.value ==> exists i :: 0 <= i < |xs| && f(xs[i]) == Ok(Some(y))
    decreases |xs|
  {
    if |xs| == 0 then Ok([])
    else
      var head := f(xs[0]);
      var rest := Collect(xs[1..], f);
      assert forall i :: 1 <= i < |xs| ==> xs[i] == xs[1..][i - 1];
      if head.Err? then Err(head.error)
      else if rest.Err? then Err(rest.error)
      else if head.value.Some? then Ok([head.value.value] + rest.value)
      else rest
  }
}
